=== FILE: README.md ===
# Forecasting engine model

This project is a Dafny model of the deterministic core of the demand
forecasting backend in `backend/main.py`, the `ForecastingEngine` class and the
`/forecast` endpoint that drives it. The model covers these steps:

- **Loading and filtering.** Sales records (date, quantity, product, customer,
  location) are loaded from an in-memory table and filtered by the request
  configuration.
- **Aggregation.** Records are grouped into calendar buckets and summed. A week
  bucket runs Tuesday to Monday (pandas `W-MON`); month and year buckets are
  also supported. The grouping can include product, customer or location
  columns.
- **Period handling.** Buckets get display labels such as `Week of Mar 05, 2024`,
  `Mar 2024` and `2024`, and future forecast dates are generated from the last
  bucket.
- **Scoring.** Forecasts are scored with accuracy = `100 - MAPE` clamped to
  `[0, 99.9]`, plus MAE and RMSE. The series is labelled `increasing`,
  `decreasing` or `stable` with a 2 %-of-mean slope threshold.
- **The 22 forecasting algorithms.**
  - The closed-form ones are modelled exactly: moving average, exponential
    smoothing, Holt-Winters, Theta, Croston, damped trend, naive seasonal and
    drift.
  - The library-backed ones are modelled as supplied functions.
  - Each algorithm's fallback to a simpler method on short series is modelled.
- **`run_algorithm`.** It splits the series 80/20 into train and test, chooses
  the horizon, scores on the test part or on an in-sample fallback, shapes the
  output, and turns any exception into a degraded result.
- **Best fit.** It sweeps every algorithm and picks the first maximum by
  accuracy. It then builds an ensemble of the top three results by accuracy,
  using a stable sort.
- **Multi-item expanders.** These are the simple multi-item forecast and the
  two- and three-dimension forecasts, each with an outcome summary.
- **The `/forecast` endpoint.** The model covers the endpoint's choice among its
  four modes.

The database is an in-memory `seq<Record>`. Numerical library routines
(scikit-learn, statsmodels, SciPy, NumPy's `sqrt`) are fields of a `Library`
value passed in by the caller.

Modules follow the program's structure:

| module | contents |
|---|---|
| `Base` | Result and error types, sums and means |
| `Text` | Python string order, decimal text |
| `Calendar` | proleptic Gregorian dates and day numbers |
| `Periods` | interval parsing, period buckets, labels, forecast dates |
| `Config` | request records |
| `Records` | database filters |
| `Aggregation` | group-and-sum |
| `Metrics` | metrics, least squares, trend |
| `Catalog` | algorithm table and fallback routing |
| `Forecasters` | the algorithms |
| `Orchestrator` | `run_algorithm` |
| `Selection` | `generate_forecast` |
| `Expander` | the multi-item forecasts |
| `Dispatch` | the `/forecast` mode decision |

## Model

| member | source | states |
|---|---|---|
| Text.StrLessTransitive | backend/main.py:298 | the string order pandas groupby sorts dimension values by is transitive |
| Text.StrLessTotal | backend/main.py:298 | any two distinct dimension values are ordered one way or the other |
| Text.TupleLessTransitive | backend/main.py:298 | the lexicographic order of grouping tuples is transitive |
| Text.TupleLessTotal | backend/main.py:298 | any two distinct grouping tuples are ordered |
| Text.DecimalRoundTrip | backend/main.py:510 | the decimal year text of a label parses back to the year |
| Calendar.AddDays | backend/main.py:1614 | adding k days moves the day number by exactly k and keeps the date valid |
| Calendar.DayNumberOrder | backend/main.py:1607-1624 | one date precedes another exactly when its day number is smaller, and two dates are equal exactly when their day numbers are |
| Periods.IntervalOf | backend/main.py:285-292 | "week" selects weekly buckets, "year" yearly ones, and every other string falls back to monthly |
| Periods.PeriodStart | backend/main.py:285-305 | a week bucket starts on the Tuesday on or before the date (Monday-ending weeks), less than seven days before it; a month bucket starts on day 1 of the same month and year, a year bucket on January 1 of the same year; the start never lies after the date |
| Periods.SamePeriod | backend/main.py:285-305 | two dates land in the same bucket exactly when they have the same period index |
| Periods.PeriodStartIdempotent | backend/main.py:301 | the start of a bucket's start is that start |
| Periods.Advance | backend/main.py:1613-1620 | one step adds 7 days, one calendar month or one calendar year, with the day clamped to the length of the target month, and always moves strictly forward |
| Periods.ForecastDates | backend/main.py:1607-1624 | exactly `periods` dates (none when non-positive), each one step after the previous and all after the last observed date |
| Periods.ForecastDatesIncrease | backend/main.py:1607-1624 | forecast dates are strictly increasing |
| Periods.FormatPeriod | backend/main.py:503-512 | a weekly label is "Week of ", the month abbreviation, the two-digit day, ", " and the year at fixed positions; a monthly label is the abbreviation, a space and the year; a yearly label is the year alone |
| Periods.LabelRoundTrip | backend/main.py:503-512 | a period label can be parsed back to the month and year (plus the day for weeks) it was made from |
| Periods.LabelsIdentifyPeriods | backend/main.py:503-512 | two buckets with the same label are the same bucket |
| Periods.MonthAbbreviationRoundTrip | backend/main.py:508 | the three-letter month abbreviation identifies the month |
| Config.ItemConfig | backend/main.py:367-375 | the per-item request keeps the item, algorithm, interval and periods, and drops every multi-select choice |
| Config.PairLoadConfig | backend/main.py:2103-2114 | the two-dimension loading request turns multi-select off and keeps the dimension lists |
| Records.DimensionNamed | backend/main.py:211-231 | exactly "product", "customer" and "location" name a dimension |
| Records.Filter | backend/main.py:213-236 | the kept records are exactly the matching ones, each with its original multiplicity |
| Records.Selected | backend/main.py:210-231 | a record passes the query filter exactly when its forecastBy column holds one of the admitted values (the multi-select list, else the single selection, else the generic item); a forecastBy that names no column filters nothing |
| Records.LoadData | backend/main.py:206-255 | loading succeeds exactly when some record meets the configured filter, returns exactly those records, each as often as in the table, and otherwise fails with "No data found for the selected configuration" |
| Records.LoadCombination | backend/main.py:475-500 | loading a (product, customer, location) combination returns exactly its matching records, each as often as in the table, and fails when there are none |
| Aggregation.KeyLessTotal | backend/main.py:298 | the order of group keys is total, so the sorted groupby output is unique |
| Aggregation.Group | backend/main.py:298 | grouping yields keys in strictly increasing order and exactly the key set of its input |
| Aggregation.GroupSums | backend/main.py:298 | each group carries the total quantity of its key, and the grand total is preserved |
| Aggregation.GroupSorted | backend/main.py:298 | grouping an already grouped and sorted list changes nothing |
| Aggregation.GroupAndSum | backend/main.py:294-310 | rows come out sorted by (dimension values, bucket); each row's date is its bucket start and its label matches; each quantity is the sum over the records with that key |
| Aggregation.RecordKeysHaveRows | backend/main.py:298 | every input record's (dimensions, bucket) key has an output row |
| Aggregation.RowKeysHaveRecords | backend/main.py:298 | every output row comes from at least one input record |
| Aggregation.GroupAndSumPreservesTotal | backend/main.py:298 | aggregation neither loses nor invents quantity |
| Aggregation.GroupAndSumIdempotent | backend/main.py:294-310 | re-aggregating the aggregated rows gives the same rows |
| Aggregation.GroupColumns | backend/main.py:264-283 | multi-select groups by the selected dimensions in product, customer, location order when at least two are chosen; simple multi-select groups by the forecastBy column and fails when that is not a column; otherwise only by period |
| Aggregation.AggregateByPeriod | backend/main.py:258-315 | the aggregation is the group-and-sum over the columns the request selects, and fails exactly when the column choice does |
| Aggregation.AggregateAdvanced | backend/main.py:318-352 | one row per (product, customer, location, period) that occurs in the data, sorted by key, dated at the bucket start with its label; each row's quantity is the sum over the records with that key, every record's key has a row, every row's key has a record, and the total quantity is kept |
| Aggregation.PairColumns | backend/main.py:2026-2039 | exactly the three combination types name a pair of dimensions |
| Aggregation.AggregateTwo | backend/main.py:2018-2077 | an unknown combination type is refused; otherwise the result exists exactly when some record matches both values, and then it is the period totals of exactly the records matching the pair, every row carrying those two values |
| Aggregation.AggregateTwoTotal | backend/main.py:2026-2059 | summing a pair over the third dimension keeps the total quantity of the pair's records |
| Metrics.RelativeError | backend/main.py:521 | the error is relative to the actual value, or absolute where the actual value is 0 |
| Metrics.CalculateMetrics | backend/main.py:515-528 | metrics exist exactly for equal non-zero lengths; accuracy lies in [0, 99.9], MAE is non-negative, and RMSE is the square root of the mean squared error |
| Metrics.MapeZeroIffExact | backend/main.py:521 | the MAPE is non-negative and zero exactly for a perfect prediction |
| Metrics.AccuracyCaps | backend/main.py:521-525 | accuracy is capped at 99.9 exactly when the MAPE is at most 0.1, and is 0 exactly when the MAPE reaches 100 |
| Metrics.MaeZeroIffExact | backend/main.py:517 | the MAE is zero exactly for a perfect prediction |
| Metrics.PerfectFit | backend/main.py:515-528 | a perfect prediction scores 99.9 with zero MAE |
| Metrics.Ols | backend/main.py:537-538 | the fitted line satisfies both normal equations of least squares: it passes through the point of means, and its residuals are uncorrelated with the feature; a constant feature gets slope 0 |
| Metrics.OlsUnique | backend/main.py:537-538 | for a non-constant feature, any line meeting both normal equations is the fitted line, so the fit is the least-squares line |
| Metrics.OlsRecoversLine | backend/main.py:537-538 | least squares on points lying on a line returns that line |
| Metrics.OlsConstant | backend/main.py:537-538 | least squares on a constant series is the flat line at that constant |
| Metrics.TrendOf | backend/main.py:531-547 | series shorter than two points are stable; otherwise the trend is increasing exactly when the least-squares slope exceeds 2 % of the mean, and decreasing exactly when it does not but lies below −2 % of the mean |
| Metrics.TrendOfLeastSquares | backend/main.py:531-547 | for any series of two or more points, a line meeting the normal equations on positions 0..n−1 has the trend's slope, and the trend follows that slope against ±2 % of the mean |
| Metrics.DecreasingExample | backend/main.py:531-547 | 0,10,0,1 is decreasing (slope −0.7) although its first and last values are close |
| Metrics.TrendOfLine | backend/main.py:531-547 | on a line a·i+b the slope is a, and the trend is increasing or decreasing exactly when a crosses ±2 % of the mean |
| Metrics.ConstantTrend | backend/main.py:540-547 | a non-negative constant series is stable, while a negative constant one is labelled increasing (the threshold is negative) |
| Metrics.TrendExamples | backend/main.py:531-547 | 10,20,30,40 is increasing and 40,30,20,10 is decreasing |
| Metrics.StableExample | backend/main.py:531-547 | a series wobbling within 2 % of its mean slope is stable |
| Catalog.Entries | backend/main.py:179-203 | the catalog lists the 22 algorithms in source order followed by best fit |
| Catalog.Lookup | backend/main.py:179-203 | lookup by id finds the entry with that id, and finds nothing exactly when no entry has it |
| Catalog.LookupRoundTrip | backend/main.py:179-203 | looking up an entry's id returns that entry |
| Catalog.IdsDistinct | backend/main.py:179-203 | distinct entries have distinct ids |
| Catalog.AlgorithmsDistinct | backend/main.py:1827 | the best-fit sweep runs 22 distinct algorithms |
| Catalog.Fallback | backend/main.py:724-1514 | from each algorithm's threshold length on no hand-off happens, below it (on a non-empty series) one does, Croston keeps the series exactly with three points and two demands, and every hand-off goes to a simpler algorithm |
| Catalog.Route | backend/main.py:724-1514 | following fallbacks ends at an algorithm that runs its own method, and an algorithm with no fallback for the series runs itself |
| Catalog.RouteThresholds | backend/main.py:724-1514 | each algorithm runs its own method from its minimum series length on and falls back below it |
| Catalog.CrostonThreshold | backend/main.py:1414-1421 | Croston runs itself exactly on three or more points with at least two positive demands, and otherwise falls back to exponential smoothing |
| Catalog.RouteEnds | backend/main.py:724-1514 | every fallback chain ends at the algorithm itself, linear regression, exponential smoothing or ARIMA |
| Catalog.RouteIdempotent | backend/main.py:724-1514 | the end of a fallback chain does not fall back further |
| Forecasters.Full | backend/main.py:1555 | a constant forecast of length h exists exactly when h is non-negative |
| Forecasters.MovingAverageForecast | backend/main.py:919-938 | the forecast repeats the mean of the last (up to) three values h times; an empty series or a negative horizon is an error |
| Forecasters.SmoothingForecast | backend/main.py:690-716 | exponential smoothing forecasts the last three-value rolling mean, and errors on an empty series or a negative horizon |
| Forecasters.SmoothingIsMovingAverageForecast | backend/main.py:690-716 | on any non-empty series exponential smoothing returns the moving-average forecast, whatever the alpha |
| Forecasters.MovingAverageBounds | backend/main.py:919-938 | the moving-average forecast stays within the range of the data |
| Forecasters.Smoothed | backend/main.py:1760-1766 | the in-sample smoothing starts at the first value and mixes 0.3 of each new value with 0.7 of the previous level |
| Forecasters.SmoothedBounds | backend/main.py:1760-1766 | smoothed values stay within the range of the data |
| Forecasters.SmoothedConstant | backend/main.py:1760-1766 | smoothing a constant series returns it |
| Forecasters.HwInit | backend/main.py:731-733 | Holt-Winters starts from the first season's mean, the per-step trend between the first two seasons, and the first season's deviations |
| Forecasters.HwStep | backend/main.py:742-753 | one Holt-Winters update with alpha 0.3 and beta 0.1; seasonal factors are not updated after the first season |
| Forecasters.SeasonalsFrozen | backend/main.py:742-753 | seasonal factors never change once the run passes the first season |
| Forecasters.HoltWintersForecast | backend/main.py:719-766 | the forecast has the requested length and step i is max(0, level + (i+1)·trend + the seasonal factor of position n+i) of the fitted state, so it is never negative |
| Forecasters.HoltWintersSeasonLater | backend/main.py:755-759 | the forecast a season later is the clipped projection twelve trend steps further, and never lower under a non-negative fitted trend |
| Forecasters.HwSeasonLater | backend/main.py:756-759 | a forecast one season later is twelve trend steps higher, and never lower when the trend is non-negative |
| Forecasters.HoltWintersConstant | backend/main.py:719-766 | a constant series forecasts that constant (clipped at 0) |
| Forecasters.DampedForecast | backend/main.py:1508-1546 | each forecast step is the clipped damped-trend projection of the fitted state |
| Forecasters.DampSumClosed | backend/main.py:1537-1541 | the damping sum is 4·(1 − 0.8^k), so it stays in [0, 4) |
| Forecasters.DampRawSteps | backend/main.py:1537-1541 | damped projections move monotonically toward level + 4·trend |
| Forecasters.DampedShape | backend/main.py:1508-1546 | damped forecasts are non-negative and monotone in the direction of the fitted trend, bounded by the damping limit |
| Forecasters.DampedConstant | backend/main.py:1508-1546 | a constant series forecasts that constant (clipped at 0) |
| Forecasters.ThetaLine | backend/main.py:1378-1381 | the theta line scales deviations from the mean by theta |
| Forecasters.ThetaZeroFit | backend/main.py:1383-1388 | the theta-0 line fits as the flat line at the mean |
| Forecasters.ThetaForecast | backend/main.py:1365-1406 | Theta returns h copies of its combined level, and errors for a non-positive horizon |
| Forecasters.ThetaConstant | backend/main.py:1365-1406 | a constant series forecasts that constant (clipped at 0) |
| Forecasters.PositiveIndices | backend/main.py:1418 | lists, in increasing order, positions of positive demand only |
| Forecasters.PositiveIndicesComplete | backend/main.py:1418 | every positive-demand position is listed |
| Forecasters.DemandGaps | backend/main.py:1424-1426 | the intervals between demands number one fewer than the demands and lie between 1 and the series length |
| Forecasters.CrostonRate | backend/main.py:1429-1444 | the Croston demand rate is positive |
| Forecasters.CrostonForecast | backend/main.py:1409-1451 | Croston repeats its positive demand rate h times, and errors for a negative horizon |
| Forecasters.CrostonBounds | backend/main.py:1409-1451 | the Croston forecast never exceeds the largest observation |
| Forecasters.FirstValueRepeated | backend/main.py:1462 | the short-series fallback exists exactly for a non-negative horizon, and then repeats the first observation (zero for an empty series) that many times |
| Forecasters.SesForecast | backend/main.py:1455-1505 | short series repeat the first value; otherwise the library fit is returned, and a library failure becomes the recursion error of the self-calling fallback |
| Forecasters.PyIndex | backend/main.py:1565 | Python indexing with negative offsets succeeds exactly inside `[-n, n)` |
| Forecasters.Collect | backend/main.py:1562-1567 | a list of lookups succeeds exactly when every lookup does, and keeps their values |
| Forecasters.NaiveForecast | backend/main.py:1549-1579 | short series repeat the first value; longer ones cycle through the last min(12, n) observations |
| Forecasters.NaivePeriodic | backend/main.py:1558-1567 | the naive forecast repeats with the season length and only uses values from the last season |
| Forecasters.Extrapolate | backend/main.py:1596-1598 | extrapolated values are the line's predictions clipped at 0 |
| Forecasters.DriftForecast | backend/main.py:1582-1604 | drift forecasts h non-negative values for a positive horizon and errors otherwise; short series repeat the first value |
| Forecasters.DriftOnLine | backend/main.py:1590-1598 | on a series lying on a line, drift continues the line (clipped at 0) |
| Forecasters.DriftExample | backend/main.py:1582-1604 | 10, 12, …, 20 forecasts 22, 24, 26 |
| Forecasters.Forecast | backend/main.py:724-1514 | an algorithm that hands a series on returns exactly the forecast of the algorithm it hands it to |
| Forecasters.ForecastFollowsRoute | backend/main.py:724-1514 | running any algorithm equals running the method its fallback chain ends at |
| Orchestrator.TrainSize | backend/main.py:1653-1660 | fewer than six points train on everything; otherwise the training part is floor(0.8·n) |
| Orchestrator.Horizon | backend/main.py:1665-1728 | with a test part the horizon is its (positive) length; otherwise it is the requested forecast period |
| Orchestrator.SplitSizes | backend/main.py:1653-1660 | with six or more points both parts have at least four and two points, and the test part is no longer than the training part |
| Orchestrator.InSample | backend/main.py:1749-1768 | the in-sample fallback predicts with the least-squares line, the 0.3 smoothing, or the data itself, depending on the algorithm |
| Orchestrator.Score | backend/main.py:1744-1769 | with a test part the score compares it with the forecast's first test-length values, and fails when the forecast is shorter; otherwise it scores the in-sample fallback |
| Orchestrator.Tail | backend/main.py:1776 | `tail(k)` keeps the last k rows, and a negative k drops the first |k| rows |
| Orchestrator.HistoricPoints | backend/main.py:1775-1782 | historic points are the tail rows' dates, quantities and labels |
| Orchestrator.ForecastPoints | backend/main.py:1784-1790 | forecast points pair dates with values up to the shorter list and label each date |
| Orchestrator.TrainForecast | backend/main.py:1653-1728 | the algorithm forecasts from the training part, through the end of its hand-off chain, for the held-out length; a series under six points trains on everything for the requested forecast period |
| Orchestrator.Evaluate | backend/main.py:1652-1802 | a run succeeds exactly when the forecast and its score succeed, and then reports the catalog name, the bounded score, the historic tail, the dated forecast and the series trend |
| Orchestrator.Degraded | backend/main.py:1803-1813 | the failure result keeps the algorithm's name with the lowest accuracy, error 999, no points and a stable trend |
| Orchestrator.RunEntry | backend/main.py:1803-1813 | any failure inside a run, including running the best-fit entry itself, gives accuracy 0, MAE and RMSE 999, and empty data under the catalog name |
| Orchestrator.RunAlgorithm | backend/main.py:1795 | an id missing from the catalog fails with a key error, and every known id yields its entry's result |
| Orchestrator.ForecastPointsShape | backend/main.py:1771-1790 | forecast points are at most the requested number, strictly after the last observation and increasing; with a test part there are at least as many as the test length allows |
| Orchestrator.MovingAverageRun | backend/main.py:1685-1686 | on six or more points the moving average always succeeds and forecasts the mean of the last three training values |
| Orchestrator.ScoreOnFullForecast | backend/main.py:1744-1748 | a forecast at least as long as the test part is always scored |
| Orchestrator.ShortSeriesScoresPerfect | backend/main.py:1767-1769 | on fewer than six points every algorithm other than the regression and smoothing ones is scored against the data itself, so it reports 99.9 with zero MAE |
| Orchestrator.RunAlgorithmById | backend/main.py:179-203 | each algorithm's id runs that algorithm, and "best_fit" run directly degrades |
| Selection.FirstMax | backend/main.py:1836 | the best is a maximum, and strictly better than everything before it (ties keep the first) |
| Selection.FirstMin | backend/main.py:451 | the worst is a minimum, and strictly worse than everything before it |
| Selection.InsertIndex | backend/main.py:1849 | inserting a position into a rank-ordered list keeps it rank-ordered and adds exactly that position |
| Selection.RankOrder | backend/main.py:1849 | the first m positions listed once each, each ranked before the next by higher accuracy or, on a tie, by sweep order |
| Selection.SortByAccuracy | backend/main.py:1849 | the sort is a permutation of the sweep, in descending accuracy, and equal accuracies keep their sweep order (the results are picked in the sort order of positions) |
| Selection.SortOrder | backend/main.py:1849 | every position appears once, and a position precedes another exactly when it ranks before it (more accurate, or equally accurate and earlier) |
| Selection.RankOrderMultiset | backend/main.py:1849 | the ranked positions pick every result exactly as often as it occurs |
| Selection.TopIndices | backend/main.py:1849 | the three top positions are rank-ordered and every position left out ranks after every position taken |
| Selection.SortHead | backend/main.py:1849 | the stable sort puts first the earliest result of highest accuracy |
| Selection.Top3 | backend/main.py:1849 | the top three are up to three results drawn from the sweep in descending accuracy; no result left out is more accurate than one taken, and one left out with equal accuracy comes later in the sweep |
| Selection.Members | backend/main.py:1854 | the averaged members are exactly the top results with forecast data |
| Selection.Ensemble | backend/main.py:1850-1874 | the ensemble averages forecast points over the members with data, keeps the first result's dates, history and trend, and averages accuracy, MAE and RMSE over all three; it fails with an index error when a member's forecast is shorter than the first's |
| Selection.EnsembleBounds | backend/main.py:1850-1874 | the ensemble's accuracy and points stay within the bounds of its members |
| Selection.EnsembleErrorBounds | backend/main.py:1868-1869 | the ensemble's MAE and RMSE stay within the bounds of its members' errors |
| Selection.EnsembleFailure | backend/main.py:1853-1854 | the ensemble fails exactly when some top result has a non-empty forecast shorter than the first's |
| Selection.Sweep | backend/main.py:1833-1835 | the sweep runs every catalog algorithm in order |
| Selection.BestOf | backend/main.py:1890-1899 | the primary forecast copies the accuracy, errors, history, forecast and trend of the earliest most accurate result, named "<name> (Best Fit)" |
| Selection.BestFitForecast | backend/main.py:1826-1900 | best fit succeeds exactly when the ensemble does; it reports all 22 results plus the ensemble and an accuracy no result beats |
| Selection.BestFitPrimary | backend/main.py:1833-1843 | the primary is the first algorithm of highest accuracy, under its catalog name, with all of its figures |
| Selection.BestFitEnsemble | backend/main.py:1848-1874 | the last reported entry is the ensemble, whose accuracy is the mean over the top three, and the top three start with the primary |
| Selection.EnsembleAlwaysBuilt | backend/main.py:1849-1850 | the sweep always yields three top results, so the ensemble is always attempted |
| Selection.GenerateForecast | backend/main.py:1818-1915 | a single forecast needs loaded data and at least two aggregated rows; then best fit is exactly the best-fit sweep result, and a named algorithm succeeds exactly when it is in the catalog, reporting that run's name, scores, series and trend and no sweep |
| Expander.Successes | backend/main.py:436 | the results are exactly the successful outcomes |
| Expander.Failures | backend/main.py:439-443 | the failure details are exactly the failed outcomes |
| Expander.OutcomesPartition | backend/main.py:463-464 | successes and failures together account for every combination |
| Expander.Summarize | backend/main.py:445-472 | the summary exists exactly when something succeeded; it averages the accuracies and names the first best and the first worst combination |
| Expander.AverageAccuracyBounds | backend/main.py:449 | the average accuracy stays in [0, 99.9] |
| Expander.RunCombination | backend/main.py:377-443 | a combination fails on load errors or fewer than two rows; otherwise best fit succeeds with the first most accurate result of the sweep and the sweep attached, and a named algorithm succeeds exactly when it is in the catalog, carrying that run's figures; failures keep the combination's label |
| Expander.ProductAt | backend/main.py:2086-2098 | the pair list holds every (x, y) at position i·|ys|+j, in nested-loop order |
| Expander.ItemOutcome | backend/main.py:364-443 | an item is forecast from exactly its own records, summed per period only, and fails with "no data" when it has none; a success names the forecastBy column and the item |
| Expander.ItemOutcomes | backend/main.py:364 | one outcome per selected item, in selection order |
| Expander.SimpleMulti | backend/main.py:355-472 | no selected item is an error; otherwise the response is the summary of the items' outcomes, its total the number of items, every item counted as a success or a failure |
| Expander.ItemAggregatesByPeriod | backend/main.py:367-379 | a per-item request aggregates by period only |
| Expander.TripleOutcome | backend/main.py:1928-1987 | a triple is forecast from exactly its own records and fails when it has none; a success names the product, customer and location |
| Expander.Triples | backend/main.py:1920 | there are |P|·|C|·|L| combinations |
| Expander.TripleOutcomes | backend/main.py:1928 | one outcome per triple, in combination order |
| Expander.TripleAt | backend/main.py:1920 | the combination list holds every (p, c, l) in itertools.product order |
| Expander.ThreeDim | backend/main.py:1917-2016 | the response is the summary of the triples' outcomes: every combination counted as a success or a failure, and an error when there are none |
| Expander.PairChoice | backend/main.py:2084-2098 | product+customer takes precedence over product+location, which takes precedence over customer+location; there are no pairs exactly when no two dimensions are chosen |
| Expander.PairKeys | backend/main.py:2142-2147 | the two column names of a combination type name exactly the two dimensions that type aggregates on |
| Expander.PairOutcome | backend/main.py:2125-2216 | a pair is forecast from its records summed over the third dimension; an unknown type or a pair without records fails under the pair's label; a success names both columns and values |
| Expander.PairOutcomes | backend/main.py:2125 | one outcome per value pair, in nested-loop order |
| Expander.TwoDim | backend/main.py:2079-2245 | a failed load of the whole table is the error; otherwise the response is the summary of the value pairs' outcomes, every pair counted as a success or a failure |
| Expander.PairLoadKeepsAll | backend/main.py:2103-2117 | the two-dimension forecast loads the whole table |
| Expander.SelectedDimensions | backend/main.py:2255-2258 | three dimensions count exactly when all three lists are non-empty, none exactly when all are empty |
| Expander.MultiForecast | backend/main.py:2247-2268 | fewer than two dimensions are refused; three run the three-dimension forecast, two the two-dimension one |
| Expander.TwoDimensionsChosen | backend/main.py:2084-2098 | with two dimensions chosen the pairs number the product of their selection sizes |
| Dispatch.ChooseMode | backend/main.py:3005-3041 | multi-select with advanced mode needs all three dimensions, without it at least two; otherwise several items run the simple multi forecast and anything else the single forecast |
| Dispatch.HandleForecast | backend/main.py:2990-3045 | a refused mode is returned as the error; advanced mode returns the three-dimension forecast, flexible multi-select the multi forecast, simple multi-select the per-item forecast and single selection the single forecast, each error passed on |
| Dispatch.AllThreeRunThreeDim | backend/main.py:3005-3028 | with all three dimensions chosen, advanced and plain multi-select both run the three-dimension forecast |
| Dispatch.MultiSelectCounts | backend/main.py:3005-3036 | every multi-select response counts each combination once as a success or a failure |

## Left out

- Database access, sessions, model caching and persistence, configuration hashes, logging prints and the HTTP plumbing (authentication, status codes) are not modelled. The table is an in-memory sequence, and an exception becomes an `Err`.
- The library-backed fits are supplied functions of the `Library` parameter, with no property assumed: linear and polynomial regression, ARIMA, random forest, seasonal decomposition, SARIMA, the Prophet-like, LSTM-like, XGBoost, SVR, KNN, Gaussian process and MLP models, and statsmodels' SES. Only their short-series fallbacks and the code around them are modelled.
- Floating point is modelled as real arithmetic; `np.sqrt` is a supplied function; `round(…, 1)` and `round(…, 2)` on reported metrics and on the summary average accuracy are modelled as the identity.
- Dates are kept as (year, month, day) values; the `%Y-%m-%d` text of data points is not modelled.
- Dates are unbounded, while pandas timestamps only span 1677-09-21 to 2262-04-11. Outside that range `pd.to_datetime` (backend/main.py:259 and 2023) raises, which the model does not reproduce. Near the upper end, the `DateOffset`/`timedelta` steps of the forecast dates (backend/main.py:1614-1620) overflow; the source then returns the degraded result, and the model keeps counting.
- Error texts are reduced to error kinds. The two "Insufficient data" messages share one value, and library error texts are not modelled.
- The "No algorithms produced valid results" branches are not modelled, because `run_algorithm` never raises for a catalog id.
- In the single best-fit forecast, with fewer than two results the ensemble is never built and `ensemble_result` is unbound. That cannot happen with 22 algorithms, so it is not modelled.
- The metrics each forecaster computes for itself are not modelled, because `run_algorithm` always overwrites them.
- The LSTM-like and Gaussian-process exception fallbacks are modelled as the supplied fit returning an error.
- SARIMA's inner fallback at backend/main.py:963-964 is not modelled, because SARIMA only reaches its own method on 24 or more points.
- The external-factor filters are not modelled; the source leaves them unimplemented.
- The Excel download endpoints and all endpoints other than `/forecast` are not modelled.

=== FILE: aggregation.dfy ===
/** The period aggregators of the engine (aggregate_by_period,
    aggregate_advanced_mode and aggregate_two_dimensions): records are keyed
    by the values of the group columns and the start of their period, equal
    keys are summed, and the groups come out in ascending key order with a
    period label, as pandas' groupby(...).sum() gives them. */
module Aggregation {
  import opened Base
  import opened Text
  import opened Calendar
  import opened Periods
  import opened Config
  import opened Records

  /** A group key: the group-column values, then the period's first day. */
  datatype Key = Key(dims: seq<string>, start: CalendarDate)

  /** A quantity under a key: an input record once keyed, or a summed group. */
  datatype Item = Item(key: Key, quantity: real)

  /** One aggregated row: group-column values, period start, summed quantity
      and the period label. */
  datatype Row = Row(dims: seq<string>, date: CalendarDate, quantity: real, period: string)

  /** pandas' group order: by the group columns, then chronologically by period. */
  predicate KeyLess(a: Key, b: Key)
  {
    TupleLess(a.dims, b.dims) || (a.dims == b.dims && Before(a.start, b.start))
  }

  lemma KeyLessIrreflexive(a: Key)
    ensures !KeyLess(a, a)
  {
    TupleLessIrreflexive(a.dims);
  }

  lemma KeyLessTransitive(a: Key, b: Key, c: Key)
    requires KeyLess(a, b) && KeyLess(b, c)
    ensures KeyLess(a, c)
  {
    if TupleLess(a.dims, b.dims) && TupleLess(b.dims, c.dims) {
      TupleLessTransitive(a.dims, b.dims, c.dims);
    } else if a.dims == b.dims && b.dims == c.dims {
      BeforeTransitive(a.start, b.start, c.start);
    }
  }

  lemma KeyLessTotal(a: Key, b: Key)
    ensures a == b || KeyLess(a, b) || KeyLess(b, a)
  {
    TupleLessTotal(a.dims, b.dims);
  }

  /** Keys strictly ascending, hence pairwise distinct. */
  predicate Sorted(cs: seq<Item>)
  {
    forall i, j :: 0 <= i < j < |cs| ==> KeyLess(cs[i].key, cs[j].key)
  }

  /** Every key of cs lies strictly above k. */
  predicate Above(k: Key, cs: seq<Item>)
  {
    forall i :: 0 <= i < |cs| ==> KeyLess(k, cs[i].key)
  }

  /** The sum of the quantities filed under k (zero when k is absent). */
  function KeyTotal(cs: seq<Item>, k: Key): real
  {
    if |cs| == 0 then 0.0
    else (if cs[0].key == k then cs[0].quantity else 0.0) + KeyTotal(cs[1..], k)
  }

  /** The sum of all quantities. */
  function Total(cs: seq<Item>): real
  {
    if |cs| == 0 then 0.0 else cs[0].quantity + Total(cs[1..])
  }

  /** The set of keys present. */
  function KeySet(cs: seq<Item>): set<Key>
  {
    if |cs| == 0 then {} else {cs[0].key} + KeySet(cs[1..])
  }

  /** Adds q under k to a key-sorted table of groups: into the existing group
      for k, or as a new group at its place in key order. */
  function Insert(cs: seq<Item>, k: Key, q: real): seq<Item>
  {
    if |cs| == 0 then [Item(k, q)]
    else if cs[0].key == k then [Item(k, cs[0].quantity + q)] + cs[1..]
    else if KeyLess(k, cs[0].key) then [Item(k, q)] + cs
    else [cs[0]] + Insert(cs[1..], k, q)
  }

  /** groupby(key).sum(): one group per distinct key, in ascending key order. */
  function Group(items: seq<Item>): (r: seq<Item>)
    ensures Sorted(r)
    ensures KeySet(r) == KeySet(items)
  {
    if |items| == 0 then []
    else
      var rest := Group(items[1..]);
      InsertSorted(rest, items[0].key, items[0].quantity);
      Insert(rest, items[0].key, items[0].quantity)
  }

  /** Grouping keeps every key's total and the grand total, and each group
      holds the total of its key over the input. */
  lemma {:induction false} GroupSums(items: seq<Item>)
    ensures Total(Group(items)) == Total(items)
    ensures forall k :: KeyTotal(Group(items), k) == KeyTotal(items, k)
    ensures forall i :: 0 <= i < |Group(items)| ==> Group(items)[i].quantity == KeyTotal(items, Group(items)[i].key)
  {
    if |items| > 0 {
      GroupSums(items[1..]);
      InsertSums(Group(items[1..]), items[0].key, items[0].quantity);
      GroupedTotals(Group(items));
    }
  }

  lemma {:induction false} SortedTail(cs: seq<Item>)
    requires |cs| > 0 && Sorted(cs)
    ensures Sorted(cs[1..]) && Above(cs[0].key, cs[1..])
  {
    forall i | 0 <= i < |cs| - 1 ensures KeyLess(cs[0].key, cs[1..][i].key) {
      assert cs[1..][i] == cs[i + 1];
    }
  }

  lemma {:induction false} SortedCons(c: Item, cs: seq<Item>)
    requires Sorted(cs) && Above(c.key, cs)
    ensures Sorted([c] + cs)
  {
    var r := [c] + cs;
    forall i, j | 0 <= i < j < |r| ensures KeyLess(r[i].key, r[j].key) {
      assert r[j] == cs[j - 1];
      if i > 0 {
        assert r[i] == cs[i - 1];
      }
    }
  }

  lemma {:induction false} InsertAbove(b: Key, cs: seq<Item>, k: Key, q: real)
    requires Above(b, cs) && KeyLess(b, k)
    ensures Above(b, Insert(cs, k, q))
  {
    if |cs| > 0 && cs[0].key != k && !KeyLess(k, cs[0].key) {
      assert Above(b, cs[1..]) by {
        forall i | 0 <= i < |cs| - 1 ensures KeyLess(b, cs[1..][i].key) {
          assert cs[1..][i] == cs[i + 1];
        }
      }
      InsertAbove(b, cs[1..], k, q);
      var r := [cs[0]] + Insert(cs[1..], k, q);
      forall i | 0 <= i < |r| ensures KeyLess(b, r[i].key) {
        if i > 0 {
          assert r[i] == Insert(cs[1..], k, q)[i - 1];
        }
      }
    }
  }

  lemma {:induction false} InsertSorted(cs: seq<Item>, k: Key, q: real)
    requires Sorted(cs)
    ensures Sorted(Insert(cs, k, q))
    ensures KeySet(Insert(cs, k, q)) == KeySet(cs) + {k}
  {
    if |cs| == 0 {
    } else {
      SortedTail(cs);
      if cs[0].key == k {
        SortedCons(Item(k, cs[0].quantity + q), cs[1..]);
        assert Insert(cs, k, q)[1..] == cs[1..];
      } else if KeyLess(k, cs[0].key) {
        forall i | 0 <= i < |cs| ensures KeyLess(k, cs[i].key) {
          if i > 0 {
            KeyLessTransitive(k, cs[0].key, cs[i].key);
          }
        }
        SortedCons(Item(k, q), cs);
        assert Insert(cs, k, q)[1..] == cs;
      } else {
        KeyLessTotal(k, cs[0].key);
        InsertSorted(cs[1..], k, q);
        InsertAbove(cs[0].key, cs[1..], k, q);
        SortedCons(cs[0], Insert(cs[1..], k, q));
        assert Insert(cs, k, q)[1..] == Insert(cs[1..], k, q);
      }
    }
  }

  lemma {:induction false} InsertSums(cs: seq<Item>, k: Key, q: real)
    ensures Total(Insert(cs, k, q)) == Total(cs) + q
    ensures forall k' :: KeyTotal(Insert(cs, k, q), k') == KeyTotal(cs, k') + (if k' == k then q else 0.0)
  {
    var r := Insert(cs, k, q);
    if |cs| == 0 {
      assert r[1..] == [];
    } else if cs[0].key == k {
      assert r[1..] == cs[1..];
    } else if KeyLess(k, cs[0].key) {
      assert r[1..] == cs;
    } else {
      InsertSums(cs[1..], k, q);
      assert r[1..] == Insert(cs[1..], k, q);
    }
  }

  lemma {:induction false} AbsentKey(cs: seq<Item>, k: Key)
    requires forall i :: 0 <= i < |cs| ==> cs[i].key != k
    ensures KeyTotal(cs, k) == 0.0
  {
    if |cs| > 0 {
      assert forall i :: 0 <= i < |cs| - 1 ==> cs[1..][i] == cs[i + 1];
      AbsentKey(cs[1..], k);
    }
  }

  /** In a key-sorted table each key names one group, so the group holds the
      whole of its key's total. */
  lemma {:induction false} GroupedTotals(cs: seq<Item>)
    requires Sorted(cs)
    ensures forall i :: 0 <= i < |cs| ==> KeyTotal(cs, cs[i].key) == cs[i].quantity
  {
    if |cs| > 0 {
      SortedTail(cs);
      GroupedTotals(cs[1..]);
      forall i | 0 <= i < |cs| ensures KeyTotal(cs, cs[i].key) == cs[i].quantity {
        if i == 0 {
          forall j | 0 <= j < |cs| - 1 ensures cs[1..][j].key != cs[0].key {
            KeyLessIrreflexive(cs[0].key);
          }
          AbsentKey(cs[1..], cs[0].key);
        } else {
          assert cs[i] == cs[1..][i - 1];
          KeyLessIrreflexive(cs[0].key);
        }
      }
    }
  }

  /** Grouping groups that are already distinct and in key order returns them
      unchanged. */
  lemma {:induction false} GroupSorted(items: seq<Item>)
    requires Sorted(items)
    ensures Group(items) == items
  {
    if |items| > 0 {
      SortedTail(items);
      GroupSorted(items[1..]);
      var rest := items[1..];
      if |rest| > 0 {
        assert KeyLess(items[0].key, rest[0].key);
        KeyLessIrreflexive(items[0].key);
      }
      assert [items[0]] + rest == items;
    }
  }

  /** Every key's start is the first day of its own period. */
  predicate Aligned(iv: Interval, cs: seq<Item>)
  {
    forall i :: 0 <= i < |cs| ==> PeriodStart(iv, cs[i].key.start) == cs[i].key.start
  }

  lemma {:induction false} InsertAligned(iv: Interval, cs: seq<Item>, k: Key, q: real)
    requires Aligned(iv, cs) && PeriodStart(iv, k.start) == k.start
    ensures Aligned(iv, Insert(cs, k, q))
  {
    if |cs| > 0 && cs[0].key != k && !KeyLess(k, cs[0].key) {
      assert forall i :: 0 <= i < |cs| - 1 ==> cs[1..][i] == cs[i + 1];
      InsertAligned(iv, cs[1..], k, q);
      var r := Insert(cs, k, q);
      assert forall i :: 0 < i < |r| ==> r[i] == Insert(cs[1..], k, q)[i - 1];
    }
  }

  lemma {:induction false} GroupAligned(iv: Interval, items: seq<Item>)
    requires Aligned(iv, items)
    ensures Aligned(iv, Group(items))
  {
    if |items| > 0 {
      assert forall i :: 0 <= i < |items| - 1 ==> items[1..][i] == items[i + 1];
      GroupAligned(iv, items[1..]);
      InsertAligned(iv, Group(items[1..]), items[0].key, items[0].quantity);
    }
  }

  /** The group-column values of a record. */
  function ColumnValues(r: Record, cols: seq<Dimension>): (v: seq<string>)
    ensures |v| == |cols|
    ensures forall i :: 0 <= i < |cols| ==> v[i] == ValueOf(r, cols[i])
  {
    if |cols| == 0 then [] else [ValueOf(r, cols[0])] + ColumnValues(r, cols[1..])
  }

  function KeyOf(r: Record, cols: seq<Dimension>, iv: Interval): Key
  {
    Key(ColumnValues(r, cols), PeriodStart(iv, r.date))
  }

  /** Each record as a quantity under its group key. */
  function Keyed(records: seq<Record>, cols: seq<Dimension>, iv: Interval): (r: seq<Item>)
    ensures |r| == |records|
    ensures forall i :: 0 <= i < |r| ==> r[i] == Item(KeyOf(records[i], cols, iv), records[i].quantity)
  {
    seq(|records|, i requires 0 <= i < |records| => Item(KeyOf(records[i], cols, iv), records[i].quantity))
  }

  lemma KeyedAligned(records: seq<Record>, cols: seq<Dimension>, iv: Interval)
    ensures Aligned(iv, Keyed(records, cols, iv))
  {
    forall i | 0 <= i < |records| ensures PeriodStart(iv, PeriodStart(iv, records[i].date)) == PeriodStart(iv, records[i].date) {
      PeriodStartIdempotent(iv, records[i].date);
    }
  }

  /** The output frame: each group with its period label. */
  function Rows(cs: seq<Item>, iv: Interval): (r: seq<Row>)
    ensures |r| == |cs|
    ensures forall i :: 0 <= i < |r| ==> r[i] == Row(cs[i].key.dims, cs[i].key.start, cs[i].quantity, FormatPeriod(cs[i].key.start, iv))
  {
    seq(|cs|, i requires 0 <= i < |cs| => Row(cs[i].key.dims, cs[i].key.start, cs[i].quantity, FormatPeriod(cs[i].key.start, iv)))
  }

  function RowKey(row: Row): Key
  {
    Key(row.dims, row.date)
  }

  function RowTotal(rows: seq<Row>): real
  {
    if |rows| == 0 then 0.0 else rows[0].quantity + RowTotal(rows[1..])
  }

  function RecordTotal(records: seq<Record>): real
  {
    if |records| == 0 then 0.0 else records[0].quantity + RecordTotal(records[1..])
  }

  /** Group the records on cols and the interval's periods and sum. */
  function GroupAndSum(records: seq<Record>, cols: seq<Dimension>, iv: Interval): (r: seq<Row>)
    ensures forall i, j :: 0 <= i < j < |r| ==> KeyLess(RowKey(r[i]), RowKey(r[j]))
    ensures forall i :: 0 <= i < |r| ==>
      |r[i].dims| == |cols| && PeriodStart(iv, r[i].date) == r[i].date && r[i].period == FormatPeriod(r[i].date, iv)
    ensures forall i :: 0 <= i < |r| ==> r[i].quantity == KeyTotal(Keyed(records, cols, iv), RowKey(r[i]))
  {
    var items := Keyed(records, cols, iv);
    var cs := Group(items);
    KeyedAligned(records, cols, iv);
    GroupAligned(iv, items);
    GroupDims(items, |cols|);
    GroupSums(items);
    Rows(cs, iv)
  }

  lemma GroupDims(items: seq<Item>, width: nat)
    requires forall i :: 0 <= i < |items| ==> |items[i].key.dims| == width
    ensures forall i :: 0 <= i < |Group(items)| ==> |Group(items)[i].key.dims| == width
  {
    var cs := Group(items);
    forall i | 0 <= i < |cs| ensures |cs[i].key.dims| == width {
      KeySetMembers(cs);
      KeySetMembers(items);
      assert cs[i].key in KeySet(items);
    }
  }

  lemma {:induction false} KeySetMembers(cs: seq<Item>)
    ensures forall i :: 0 <= i < |cs| ==> cs[i].key in KeySet(cs)
    ensures forall k :: k in KeySet(cs) ==> exists i :: 0 <= i < |cs| && cs[i].key == k
  {
    if |cs| > 0 {
      KeySetMembers(cs[1..]);
      assert forall i :: 0 < i < |cs| ==> cs[i] == cs[1..][i - 1];
      forall k | k in KeySet(cs) ensures exists i :: 0 <= i < |cs| && cs[i].key == k {
        if k != cs[0].key {
          var j :| 0 <= j < |cs[1..]| && cs[1..][j].key == k;
          assert cs[j + 1].key == k;
        }
      }
    }
  }

  /** Every input key is the key of some group, and every group's key is an
      input key. */
  lemma GroupKeys(items: seq<Item>)
    ensures forall i :: 0 <= i < |items| ==> exists j :: 0 <= j < |Group(items)| && Group(items)[j].key == items[i].key
    ensures forall j :: 0 <= j < |Group(items)| ==> exists i :: 0 <= i < |items| && items[i].key == Group(items)[j].key
  {
    KeySetMembers(items);
    KeySetMembers(Group(items));
  }

  /** Some record carries key k. */
  predicate RecordWithKey(records: seq<Record>, cols: seq<Dimension>, iv: Interval, k: Key)
  {
    exists i :: 0 <= i < |records| && KeyOf(records[i], cols, iv) == k
  }

  /** Some row carries key k. */
  predicate RowWithKey(rows: seq<Row>, k: Key)
  {
    exists j :: 0 <= j < |rows| && RowKey(rows[j]) == k
  }

  /** Every record's key appears as an output row. */
  lemma RecordKeysHaveRows(records: seq<Record>, cols: seq<Dimension>, iv: Interval)
    ensures forall i :: 0 <= i < |records| ==> RowWithKey(GroupAndSum(records, cols, iv), KeyOf(records[i], cols, iv))
  {
    forall i | 0 <= i < |records| ensures RowWithKey(GroupAndSum(records, cols, iv), KeyOf(records[i], cols, iv)) {
      RecordKeyHasRow(records, cols, iv, i);
    }
  }

  lemma RecordKeyHasRow(records: seq<Record>, cols: seq<Dimension>, iv: Interval, i: int)
    requires 0 <= i < |records|
    ensures RowWithKey(GroupAndSum(records, cols, iv), KeyOf(records[i], cols, iv))
  {
    var items := Keyed(records, cols, iv);
    var cs := Group(items);
    var r := GroupAndSum(records, cols, iv);
    assert r == Rows(cs, iv);
    ItemKeyHasGroup(items, i);
    assert items[i].key == KeyOf(records[i], cols, iv);
    var j :| 0 <= j < |cs| && cs[j].key == items[i].key;
    assert RowKey(r[j]) == cs[j].key;
  }

  lemma ItemKeyHasGroup(items: seq<Item>, i: int)
    requires 0 <= i < |items|
    ensures exists j :: 0 <= j < |Group(items)| && Group(items)[j].key == items[i].key
  {
    KeySetMembers(items);
    KeySetMembers(Group(items));
    assert items[i].key in KeySet(Group(items));
  }

  lemma GroupKeyHasSource(items: seq<Item>, j: int)
    requires 0 <= j < |Group(items)|
    ensures exists i :: 0 <= i < |items| && items[i].key == Group(items)[j].key
  {
    GroupKeys(items);
  }

  /** Every output row's key is the key of some record. */
  lemma RowKeysHaveRecords(records: seq<Record>, cols: seq<Dimension>, iv: Interval)
    ensures forall j :: 0 <= j < |GroupAndSum(records, cols, iv)| ==>
      RecordWithKey(records, cols, iv, RowKey(GroupAndSum(records, cols, iv)[j]))
  {
    var items := Keyed(records, cols, iv);
    var cs := Group(items);
    var r := GroupAndSum(records, cols, iv);
    assert r == Rows(cs, iv);
    forall j | 0 <= j < |r| ensures RecordWithKey(records, cols, iv, RowKey(r[j])) {
      GroupKeyHasSource(items, j);
      var i :| 0 <= i < |items| && items[i].key == cs[j].key;
      assert items[i].key == KeyOf(records[i], cols, iv);
      assert RowKey(r[j]) == cs[j].key;
    }
  }

  lemma {:induction false} RowTotalOfRows(cs: seq<Item>, iv: Interval)
    ensures RowTotal(Rows(cs, iv)) == Total(cs)
  {
    if |cs| > 0 {
      RowTotalOfRows(cs[1..], iv);
      assert Rows(cs, iv)[1..] == Rows(cs[1..], iv);
    }
  }

  lemma {:induction false} KeyedTotal(records: seq<Record>, cols: seq<Dimension>, iv: Interval)
    ensures Total(Keyed(records, cols, iv)) == RecordTotal(records)
  {
    if |records| > 0 {
      KeyedTotal(records[1..], cols, iv);
      assert Keyed(records, cols, iv)[1..] == Keyed(records[1..], cols, iv);
    }
  }

  /** Aggregation moves quantity between rows but neither creates nor loses any. */
  lemma GroupAndSumPreservesTotal(records: seq<Record>, cols: seq<Dimension>, iv: Interval)
    ensures RowTotal(GroupAndSum(records, cols, iv)) == RecordTotal(records)
  {
    var items := Keyed(records, cols, iv);
    RowTotalOfRows(Group(items), iv);
    KeyedTotal(records, cols, iv);
    GroupSums(items);
  }

  /** The output rows read back as quantities under their keys, re-bucketed. */
  function ItemsOfRows(rows: seq<Row>, iv: Interval): (r: seq<Item>)
    ensures |r| == |rows|
    ensures forall i :: 0 <= i < |r| ==> r[i] == Item(Key(rows[i].dims, PeriodStart(iv, rows[i].date)), rows[i].quantity)
  {
    seq(|rows|, i requires 0 <= i < |rows| => Item(Key(rows[i].dims, PeriodStart(iv, rows[i].date)), rows[i].quantity))
  }

  /** Aggregating rows that are themselves aggregated (same group columns). */
  function Regroup(rows: seq<Row>, iv: Interval): seq<Row>
  {
    Rows(Group(ItemsOfRows(rows, iv)), iv)
  }

  /** Re-aggregating the output at the same interval changes nothing. */
  lemma GroupAndSumIdempotent(records: seq<Record>, cols: seq<Dimension>, iv: Interval)
    ensures Regroup(GroupAndSum(records, cols, iv), iv) == GroupAndSum(records, cols, iv)
  {
    var items := Keyed(records, cols, iv);
    var cs := Group(items);
    var rows := GroupAndSum(records, cols, iv);
    KeyedAligned(records, cols, iv);
    GroupAligned(iv, items);
    assert ItemsOfRows(rows, iv) == cs;
    GroupSorted(cs);
  }

  /** The group columns aggregate_by_period uses besides the period. In
      multi-select mode: the selected dimensions, when at least two are
      selected. Otherwise, with more than one selected item: the forecastBy
      column ("date" adds nothing, other names are not columns). */
  function GroupColumns(cfg: ForecastConfig): (r: Result<seq<Dimension>>)
    ensures r.Err? <==> (!cfg.multiSelect && |cfg.selectedItems| > 1
                         && cfg.forecastBy != "date" && DimensionNamed(cfg.forecastBy).None?)
    ensures r.Ok? ==> forall i, j :: 0 <= i < j < |r.value| ==> DimensionRank(r.value[i]) < DimensionRank(r.value[j])
    ensures r.Ok? && cfg.multiSelect && |r.value| > 0 ==>
      |r.value| >= 2
      && (Product in r.value <==> |cfg.selectedProducts| > 0)
      && (Customer in r.value <==> |cfg.selectedCustomers| > 0)
      && (Location in r.value <==> |cfg.selectedLocations| > 0)
    ensures r.Ok? && !cfg.multiSelect && |cfg.selectedItems| > 1 && cfg.forecastBy != "date" ==>
      r.value == [DimensionNamed(cfg.forecastBy).value]
    ensures r.Ok? && !cfg.multiSelect && (|cfg.selectedItems| <= 1 || cfg.forecastBy == "date") ==> r.value == []
  {
    if cfg.multiSelect then
      var dims := (if |cfg.selectedProducts| > 0 then [Product] else [])
        + (if |cfg.selectedCustomers| > 0 then [Customer] else [])
        + (if |cfg.selectedLocations| > 0 then [Location] else []);
      Ok(if |dims| >= 2 then dims else [])
    else if |cfg.selectedItems| > 1 then
      if cfg.forecastBy == "date" then Ok([])
      else
        match DimensionNamed(cfg.forecastBy)
        case Some(d) => Ok([d])
        case None => Err(MissingColumn(cfg.forecastBy))
    else Ok([])
  }

  function DimensionRank(d: Dimension): int
  {
    match d
    case Product => 0
    case Customer => 1
    case Location => 2
  }

  /** aggregate_by_period. */
  function AggregateByPeriod(records: seq<Record>, interval: string, cfg: ForecastConfig): (r: Result<seq<Row>>)
    ensures r.Ok? <==> GroupColumns(cfg).Ok?
    ensures r.Ok? ==> r.value == GroupAndSum(records, GroupColumns(cfg).value, IntervalOf(interval))
  {
    var cols :- GroupColumns(cfg);
    Ok(GroupAndSum(records, cols, IntervalOf(interval)))
  }

  /** aggregate_advanced_mode: always product, customer and location. */
  function AggregateAdvanced(records: seq<Record>, interval: string): (r: seq<Row>)
    ensures forall i :: 0 <= i < |r| ==> |r[i].dims| == 3
    ensures forall i, j :: 0 <= i < j < |r| ==> KeyLess(RowKey(r[i]), RowKey(r[j]))
    ensures forall i :: 0 <= i < |r| ==>
      PeriodStart(IntervalOf(interval), r[i].date) == r[i].date && r[i].period == FormatPeriod(r[i].date, IntervalOf(interval))
    ensures forall i :: 0 <= i < |r| ==>
      r[i].quantity == KeyTotal(Keyed(records, [Product, Customer, Location], IntervalOf(interval)), RowKey(r[i]))
    ensures forall i :: 0 <= i < |records| ==>
      RowWithKey(r, KeyOf(records[i], [Product, Customer, Location], IntervalOf(interval)))
    ensures forall j :: 0 <= j < |r| ==>
      RecordWithKey(records, [Product, Customer, Location], IntervalOf(interval), RowKey(r[j]))
    ensures RowTotal(r) == RecordTotal(records)
  {
    var cols := [Product, Customer, Location];
    RecordKeysHaveRows(records, cols, IntervalOf(interval));
    RowKeysHaveRecords(records, cols, IntervalOf(interval));
    GroupAndSumPreservesTotal(records, cols, IntervalOf(interval));
    GroupAndSum(records, cols, IntervalOf(interval))
  }

  /** The dimension pair a two-dimension combination type names. */
  function PairColumns(kind: string): (r: Option<(Dimension, Dimension)>)
    ensures r.Some? <==> kind in {"product_customer", "product_location", "customer_location"}
  {
    if kind == "product_customer" then Some((Product, Customer))
    else if kind == "product_location" then Some((Product, Location))
    else if kind == "customer_location" then Some((Customer, Location))
    else None
  }

  predicate MatchesPair(r: Record, pair: (Dimension, Dimension), v1: string, v2: string)
  {
    ValueOf(r, pair.0) == v1 && ValueOf(r, pair.1) == v2
  }

  /** The records whose two pair columns hold v1 and v2, in table order. */
  function PairRecords(records: seq<Record>, pair: (Dimension, Dimension), v1: string, v2: string)
    : (r: seq<Record>)
    ensures forall x :: x in r <==> x in records && MatchesPair(x, pair, v1, v2)
    ensures forall x :: multiset(r)[x] == if MatchesPair(x, pair, v1, v2) then multiset(records)[x] else 0
  {
    Filter(records, x => MatchesPair(x, pair, v1, v2))
  }

  /** aggregate_two_dimensions: the records of one pair of values, summed per
      period across the third dimension. */
  function AggregateTwo(records: seq<Record>, interval: string, kind: string, v1: string, v2: string)
    : (r: Result<seq<Row>>)
    ensures PairColumns(kind).None? ==> r == Err(UnknownCombinationType(kind))
    ensures PairColumns(kind).Some? ==>
      (r.Ok? <==> exists x :: x in records && MatchesPair(x, PairColumns(kind).value, v1, v2))
    ensures r.Ok? ==> |r.value| > 0 && forall i :: 0 <= i < |r.value| ==> r.value[i].dims == [v1, v2]
    ensures r.Ok? ==>
      var pair := PairColumns(kind).value;
      r.value == GroupAndSum(PairRecords(records, pair, v1, v2), [pair.0, pair.1], IntervalOf(interval))
  {
    match PairColumns(kind)
    case None => Err(UnknownCombinationType(kind))
    case Some(pair) =>
      var kept := PairRecords(records, pair, v1, v2);
      if |kept| == 0 then Err(NoDataFound("No data found for combination: " + v1 + " + " + v2))
      else
        var rows := GroupAndSum(kept, [pair.0, pair.1], IntervalOf(interval));
        PairRows(kept, pair, v1, v2, IntervalOf(interval));
        Ok(rows)
  }

  lemma PairRows(kept: seq<Record>, pair: (Dimension, Dimension), v1: string, v2: string, iv: Interval)
    requires |kept| > 0
    requires forall x :: x in kept ==> MatchesPair(x, pair, v1, v2)
    ensures |GroupAndSum(kept, [pair.0, pair.1], iv)| > 0
    ensures forall i :: 0 <= i < |GroupAndSum(kept, [pair.0, pair.1], iv)| ==>
      GroupAndSum(kept, [pair.0, pair.1], iv)[i].dims == [v1, v2]
  {
    GroupAndSumNonEmpty(kept, [pair.0, pair.1], iv);
    RowKeysHaveRecords(kept, [pair.0, pair.1], iv);
    forall j | 0 <= j < |GroupAndSum(kept, [pair.0, pair.1], iv)|
      ensures GroupAndSum(kept, [pair.0, pair.1], iv)[j].dims == [v1, v2]
    {
      PairRowDims(kept, pair, v1, v2, iv, GroupAndSum(kept, [pair.0, pair.1], iv)[j]);
    }
  }

  lemma GroupAndSumNonEmpty(records: seq<Record>, cols: seq<Dimension>, iv: Interval)
    requires |records| > 0
    ensures |GroupAndSum(records, cols, iv)| > 0
  {
    RecordKeysHaveRows(records, cols, iv);
    assert RowWithKey(GroupAndSum(records, cols, iv), KeyOf(records[0], cols, iv));
  }

  lemma PairRowDims(kept: seq<Record>, pair: (Dimension, Dimension), v1: string, v2: string, iv: Interval, row: Row)
    requires forall x :: x in kept ==> MatchesPair(x, pair, v1, v2)
    requires RecordWithKey(kept, [pair.0, pair.1], iv, RowKey(row))
    ensures row.dims == [v1, v2]
  {
    var i :| 0 <= i < |kept| && KeyOf(kept[i], [pair.0, pair.1], iv) == RowKey(row);
    assert kept[i] in kept;
    assert ColumnValues(kept[i], [pair.0, pair.1]) == [v1, v2];
  }

  /** A pair's rows carry exactly the quantity of the records of that pair:
      the sum over the third dimension loses and invents nothing. */
  lemma AggregateTwoTotal(records: seq<Record>, interval: string, kind: string, v1: string, v2: string)
    requires PairColumns(kind).Some?
    ensures AggregateTwo(records, interval, kind, v1, v2).Ok? ==>
      RowTotal(AggregateTwo(records, interval, kind, v1, v2).value)
        == RecordTotal(PairRecords(records, PairColumns(kind).value, v1, v2))
  {
    var pair := PairColumns(kind).value;
    GroupAndSumPreservesTotal(PairRecords(records, pair, v1, v2), [pair.0, pair.1], IntervalOf(interval));
  }
}

=== FILE: base.dfy ===
/** Shared vocabulary of the model: optional values, the exceptions the engine
    raises (as a Result), and sums and means over sequences of reals. */
module Base {

  datatype Option<T> = None | Some(value: T)

  /** The exceptions the forecasting engine raises or lets escape, one
      constructor per distinct cause. */
  datatype Error =
    | NoDataFound(detail: string)          // ValueError: the record selection is empty
    | InsufficientData                     // ValueError: fewer than two aggregated periods
    | UnknownAlgorithm(id: string)         // ValueError raised inside run_algorithm
    | MissingCatalogKey(id: string)        // KeyError from the algorithm catalog lookup
    | UnknownCombinationType(kind: string) // ValueError in the two-dimension aggregation
    | MissingColumn(name: string)          // a group column that the frame does not have
    | InconsistentSamples                  // metric or predict call on empty or mismatched arrays
    | NegativeDimension                    // numpy array of negative length
    | InvalidWindow                        // rolling window smaller than its minimum period count
    | IndexOutOfRange                      // positional index past the end
    | RecursionLimit                       // unbounded self-recursion
    | LibraryError(detail: string)         // any failure inside a fitted library model
    | NothingSelected(dimension: string)   // ValueError: simple multi-select without items
    | AdvancedModeIncomplete               // ValueError: advanced mode without all three dimensions
    | TooFewDimensions                     // ValueError: flexible multi-select with fewer than two dimensions
    | NoValidForecasts                     // ValueError: no combination produced a forecast

  datatype Result<T> = Ok(value: T) | Err(error: Error) {
    predicate IsFailure() {
      Err?
    }

    function PropagateFailure<U>(): Result<U>
      requires Err?
    {
      Err(error)
    }

    function Extract(): T
      requires Ok?
    {
      value
    }
  }

  /** Sum of a sequence of reals, left to right. */
  function Sum(s: seq<real>): real
  {
    if |s| == 0 then 0.0 else s[0] + Sum(s[1..])
  }

  /** Arithmetic mean; numpy's mean of a non-empty array. */
  function Mean(s: seq<real>): real
    requires |s| > 0
  {
    Sum(s) / (|s| as real)
  }

  function Abs(x: real): real
  {
    if x < 0.0 then -x else x
  }

  function Max(a: real, b: real): real
  {
    if a < b then b else a
  }

  function Min(a: real, b: real): real
  {
    if a < b then a else b
  }

  function MinInt(a: int, b: int): int
  {
    if a < b then a else b
  }

  lemma {:induction false} SumAppend(a: seq<real>, b: seq<real>)
    ensures Sum(a + b) == Sum(a) + Sum(b)
  {
    if |a| == 0 {
      assert a + b == b;
    } else {
      assert (a + b)[1..] == a[1..] + b;
      SumAppend(a[1..], b);
    }
  }

  lemma SumLast(s: seq<real>)
    requires |s| > 0
    ensures Sum(s) == Sum(s[..|s| - 1]) + s[|s| - 1]
  {
    assert s == s[..|s| - 1] + [s[|s| - 1]];
    SumAppend(s[..|s| - 1], [s[|s| - 1]]);
  }

  lemma {:induction false} SumNonNegative(s: seq<real>)
    requires forall i :: 0 <= i < |s| ==> s[i] >= 0.0
    ensures Sum(s) >= 0.0
  {
    if |s| > 0 {
      SumNonNegative(s[1..]);
    }
  }

  /** A sum of non-negative terms is zero exactly when every term is. */
  lemma {:induction false} SumZeroIffAllZero(s: seq<real>)
    requires forall i :: 0 <= i < |s| ==> s[i] >= 0.0
    ensures Sum(s) == 0.0 <==> forall i :: 0 <= i < |s| ==> s[i] == 0.0
  {
    if |s| > 0 {
      SumZeroIffAllZero(s[1..]);
      SumNonNegative(s[1..]);
      if Sum(s) == 0.0 {
        forall i | 0 <= i < |s| ensures s[i] == 0.0 {
          if i > 0 {
            assert s[i] == s[1..][i - 1];
          }
        }
      }
    }
  }

  /** The sum of a constant sequence. */
  lemma {:induction false} SumConstant(s: seq<real>, c: real)
    requires forall i :: 0 <= i < |s| ==> s[i] == c
    ensures Sum(s) == (|s| as real) * c
  {
    if |s| > 0 {
      SumConstant(s[1..], c);
    }
  }

  /** Every term within [lo, hi] puts the mean within [lo, hi]. */
  lemma {:induction false} MeanBounds(s: seq<real>, lo: real, hi: real)
    requires |s| > 0
    requires forall i :: 0 <= i < |s| ==> lo <= s[i] <= hi
    ensures lo <= Mean(s) <= hi
  {
    SumBounds(s, lo, hi);
    var n := |s| as real;
    assert n * lo <= Sum(s) <= n * hi;
  }

  lemma {:induction false} SumBounds(s: seq<real>, lo: real, hi: real)
    requires forall i :: 0 <= i < |s| ==> lo <= s[i] <= hi
    ensures (|s| as real) * lo <= Sum(s) <= (|s| as real) * hi
  {
    if |s| > 0 {
      SumBounds(s[1..], lo, hi);
    }
  }

  lemma AbsProduct(x: real, y: real)
    ensures Abs(x) * Abs(y) == Abs(x * y)
  {
    if x < 0.0 && y < 0.0 {
      assert (-x) * (-y) == x * y;
    } else if x < 0.0 {
      assert (-x) * y == -(x * y);
      assert x * y <= 0.0;
    } else if y < 0.0 {
      assert x * (-y) == -(x * y);
      assert x * y <= 0.0;
    } else {
      assert x * y >= 0.0;
    }
  }

  function Square(x: real): real
  {
    x * x
  }

  /** Squares are non-negative. */
  lemma SquareNonNegative(x: real)
    ensures Square(x) >= 0.0
  {
    if x < 0.0 {
      assert Square(x) == Square(-x);
    }
  }

  /** A real at least one half away from zero has a square of at least a quarter. */
  lemma SquareAtLeastQuarter(x: real)
    requires x >= 0.5 || x <= -0.5
    ensures Square(x) >= 0.25
  {
    if x < 0.0 {
      assert Square(x) == Square(-x);
    }
  }

  /** (a s + n b) / n = a (s / n) + b. */
  lemma AffineMean(a: real, s: real, n: real, b: real)
    requires n > 0.0
    ensures (a * s + n * b) / n == a * (s / n) + b
  {
    var m := s / n;
    assert s == m * n;
    assert a * s + n * b == n * (a * m + b);
  }

  /** Multiplying by t keeps the order of a and b when t >= 0 and reverses
      it when t <= 0. */
  lemma ScaleMonotone(t: real, a: real, b: real)
    requires a <= b
    ensures t >= 0.0 ==> t * a <= t * b
    ensures t <= 0.0 ==> t * a >= t * b
  {
    var d := b - a;
    assert t * b == t * a + t * d;
    if t >= 0.0 {
      assert t * d >= 0.0;
    } else {
      assert (-t) * d >= 0.0;
    }
  }

  /** Dividing a positive value by a divisor of at least one keeps it
      positive and does not increase it. */
  lemma DivBounds(a: real, b: real)
    requires a > 0.0 && b >= 1.0
    ensures 0.0 < a / b <= a
  {
    var q := a / b;
    assert q * b == a;
    assert q > 0.0;
    assert a - q == q * (b - 1.0);
  }

  lemma MulAtLeast(d: int, s: int)
    requires d >= 1 && s > 0
    ensures d * s >= s
  {
    assert d * s - s == (d - 1) * s;
  }

  /** The remainder is determined by any division with a remainder in
      range. */
  lemma ModUnique(a: int, q: int, s: int, r: int)
    requires s > 0 && 0 <= r < s && a == q * s + r
    ensures a % s == r
  {
    var q', r' := a / s, a % s;
    assert a == q' * s + r';
    var d := q - q';
    assert d * s == r' - r;
    if d >= 1 {
      MulAtLeast(d, s);
    } else if d <= -1 {
      MulAtLeast(-d, s);
    }
  }

  /** Adding the modulus does not change the remainder. */
  lemma SameResidue(m: int, s: int)
    requires s > 0
    ensures (m + s) % s == m % s
  {
    ModUnique(m + s, m / s + 1, s, m % s);
  }
}

=== FILE: calendar.dfy ===
/** Proleptic Gregorian dates as (year, month, day), the day arithmetic the
    engine relies on (timedelta of days, month and year offsets) and the
    day-of-week, through a day number that counts from 0001-01-01. */
module Calendar {

  datatype Date = Date(year: int, month: int, day: int)

  predicate IsLeapYear(y: int)
  {
    y % 4 == 0 && (y % 100 != 0 || y % 400 == 0)
  }

  function DaysInMonth(y: int, m: int): int
    requires 1 <= m <= 12
  {
    if m == 2 then (if IsLeapYear(y) then 29 else 28)
    else if m == 4 || m == 6 || m == 9 || m == 11 then 30
    else 31
  }

  predicate Valid(d: Date)
  {
    1 <= d.month <= 12 && 1 <= d.day <= DaysInMonth(d.year, d.month)
  }

  /** A date that exists on the Gregorian calendar. */
  type CalendarDate = d: Date | Valid(d) witness Date(1970, 1, 1)

  function YearLength(y: int): int
  {
    if IsLeapYear(y) then 366 else 365
  }

  /** Days from 0001-01-01 to January 1 of year y. */
  function DaysBeforeYear(y: int): int
  {
    var p := y - 1;
    365 * p + p / 4 - p / 100 + p / 400
  }

  /** Days from January 1 to the first of month m of year y. */
  function DaysBeforeMonth(y: int, m: int): int
    requires 1 <= m <= 12
  {
    [0, 31, 59, 90, 120, 151, 181, 212, 243, 273, 304, 334][m - 1]
      + (if m > 2 && IsLeapYear(y) then 1 else 0)
  }

  /** Days since 0001-01-01; that day was a Monday. */
  function DayNumber(d: CalendarDate): int
  {
    DaysBeforeYear(d.year) + DaysBeforeMonth(d.year, d.month) + d.day - 1
  }

  /** Day of the week, 0 for Monday through 6 for Sunday (Python's weekday()). */
  function Weekday(d: CalendarDate): int
  {
    DayNumber(d) % 7
  }

  /** Chronological order of dates. */
  predicate Before(a: Date, b: Date)
  {
    a.year < b.year
    || (a.year == b.year && a.month < b.month)
    || (a.year == b.year && a.month == b.month && a.day < b.day)
  }

  lemma BeforeTransitive(a: Date, b: Date, c: Date)
    requires Before(a, b) && Before(b, c)
    ensures Before(a, c)
  {
  }

  lemma Div4Step(p: int)
    ensures (p + 1) / 4 == p / 4 + (if (p + 1) % 4 == 0 then 1 else 0)
  {
  }

  lemma Div100Step(p: int)
    ensures (p + 1) / 100 == p / 100 + (if (p + 1) % 100 == 0 then 1 else 0)
  {
  }

  lemma Div400Step(p: int)
    ensures (p + 1) / 400 == p / 400 + (if (p + 1) % 400 == 0 then 1 else 0)
  {
  }

  lemma YearStep(y: int)
    ensures DaysBeforeYear(y + 1) == DaysBeforeYear(y) + YearLength(y)
  {
    Div4Step(y - 1);
    Div100Step(y - 1);
    Div400Step(y - 1);
  }

  lemma MonthStep(y: int, m: int)
    requires 1 <= m < 12
    ensures DaysBeforeMonth(y, m + 1) == DaysBeforeMonth(y, m) + DaysInMonth(y, m)
  {
  }

  lemma LastMonthEndsYear(y: int)
    ensures DaysBeforeMonth(y, 12) + DaysInMonth(y, 12) == YearLength(y)
  {
  }

  /** The day after d. */
  function NextDay(d: CalendarDate): (r: CalendarDate)
    ensures DayNumber(r) == DayNumber(d) + 1
    ensures Before(d, r)
  {
    if d.day < DaysInMonth(d.year, d.month) then
      Date(d.year, d.month, d.day + 1)
    else if d.month < 12 then
      MonthStep(d.year, d.month);
      Date(d.year, d.month + 1, 1)
    else
      YearStep(d.year);
      LastMonthEndsYear(d.year);
      Date(d.year + 1, 1, 1)
  }

  /** The day before d. */
  function PreviousDay(d: CalendarDate): (r: CalendarDate)
    ensures DayNumber(r) == DayNumber(d) - 1
    ensures Before(r, d)
  {
    if d.day > 1 then
      Date(d.year, d.month, d.day - 1)
    else if d.month > 1 then
      MonthStep(d.year, d.month - 1);
      Date(d.year, d.month - 1, DaysInMonth(d.year, d.month - 1))
    else
      YearStep(d.year - 1);
      LastMonthEndsYear(d.year - 1);
      Date(d.year - 1, 12, 31)
  }

  /** `d + timedelta(days=k)`. */
  function AddDays(d: CalendarDate, k: int): (r: CalendarDate)
    ensures DayNumber(r) == DayNumber(d) + k
    ensures k == 0 ==> r == d
    ensures k > 0 ==> Before(d, r)
    ensures k < 0 ==> Before(r, d)
    decreases if k < 0 then -k else k
  {
    if k == 0 then d
    else if k > 0 then
      AddDays(NextDay(d), k - 1)
    else
      AddDays(PreviousDay(d), k + 1)
  }

  lemma {:induction false} YearsMonotone(y1: int, y2: int)
    requires y1 <= y2
    ensures DaysBeforeYear(y1) + 365 * (y2 - y1) <= DaysBeforeYear(y2)
    decreases y2 - y1
  {
    if y1 < y2 {
      YearsMonotone(y1 + 1, y2);
      YearStep(y1);
    }
  }

  lemma {:induction false} MonthsMonotone(y: int, m1: int, m2: int)
    requires 1 <= m1 < m2 <= 12
    ensures DaysBeforeMonth(y, m1) + DaysInMonth(y, m1) <= DaysBeforeMonth(y, m2)
    decreases m2 - m1
  {
    MonthStep(y, m1);
    if m1 + 1 < m2 {
      MonthsMonotone(y, m1 + 1, m2);
    }
  }

  lemma DayWithinYear(d: CalendarDate)
    ensures DaysBeforeYear(d.year) <= DayNumber(d) < DaysBeforeYear(d.year + 1)
  {
    YearStep(d.year);
    LastMonthEndsYear(d.year);
    if d.month < 12 {
      MonthsMonotone(d.year, d.month, 12);
    }
  }

  /** The day number is an order embedding: earlier dates have smaller numbers,
      and distinct dates have distinct numbers. */
  lemma DayNumberOrder(a: CalendarDate, b: CalendarDate)
    ensures Before(a, b) <==> DayNumber(a) < DayNumber(b)
    ensures a == b <==> DayNumber(a) == DayNumber(b)
  {
    if Before(a, b) {
      DayNumberMonotone(a, b);
    } else if Before(b, a) {
      DayNumberMonotone(b, a);
    }
  }

  lemma DayNumberMonotone(a: CalendarDate, b: CalendarDate)
    requires Before(a, b)
    ensures DayNumber(a) < DayNumber(b)
  {
    if a.year < b.year {
      DayWithinYear(a);
      DayWithinYear(b);
      YearsMonotone(a.year + 1, b.year);
    } else if a.month < b.month {
      MonthsMonotone(a.year, a.month, b.month);
    }
  }
}

=== FILE: catalog.dfy ===
/** The algorithm catalog (ForecastingEngine.ALGORITHMS) and the size-based
    hand-offs between forecasters: several algorithms pass a short series on
    to a simpler one instead of fitting it themselves. */
module Catalog {
  import opened Base

  datatype Algorithm =
    | LinearRegression | PolynomialRegression | ExponentialSmoothing | HoltWinters
    | Arima | RandomForest | SeasonalDecomposition | MovingAverage | Sarima
    | ProphetLike | LstmLike | Xgboost | Svr | Knn | GaussianProcess
    | NeuralNetwork | ThetaMethod | Croston | Ses | DampedTrend | NaiveSeasonal
    | DriftMethod

  /** A catalog entry: one of the 22 algorithms, or the "best_fit" selector. */
  datatype Entry = Single(algorithm: Algorithm) | BestFit

  /** The 22 algorithms in catalog order. */
  const Algorithms: seq<Algorithm> := [
    LinearRegression, PolynomialRegression, ExponentialSmoothing, HoltWinters,
    Arima, RandomForest, SeasonalDecomposition, MovingAverage, Sarima,
    ProphetLike, LstmLike, Xgboost, Svr, Knn, GaussianProcess,
    NeuralNetwork, ThetaMethod, Croston, Ses, DampedTrend, NaiveSeasonal,
    DriftMethod]

  /** All catalog entries in catalog order; "best_fit" comes last. */
  function Entries(): (r: seq<Entry>)
    ensures |r| == |Algorithms| + 1
    ensures forall i :: 0 <= i < |Algorithms| ==> r[i] == Single(Algorithms[i])
    ensures r[|Algorithms|] == BestFit
  {
    seq(|Algorithms|, i requires 0 <= i < |Algorithms| => Single(Algorithms[i])) + [BestFit]
  }

  function Id(a: Algorithm): string
  {
    match a
    case LinearRegression => "linear_regression"
    case PolynomialRegression => "polynomial_regression"
    case ExponentialSmoothing => "exponential_smoothing"
    case HoltWinters => "holt_winters"
    case Arima => "arima"
    case RandomForest => "random_forest"
    case SeasonalDecomposition => "seasonal_decomposition"
    case MovingAverage => "moving_average"
    case Sarima => "sarima"
    case ProphetLike => "prophet_like"
    case LstmLike => "lstm_like"
    case Xgboost => "xgboost"
    case Svr => "svr"
    case Knn => "knn"
    case GaussianProcess => "gaussian_process"
    case NeuralNetwork => "neural_network"
    case ThetaMethod => "theta_method"
    case Croston => "croston"
    case Ses => "ses"
    case DampedTrend => "damped_trend"
    case NaiveSeasonal => "naive_seasonal"
    case DriftMethod => "drift_method"
  }

  function DisplayName(a: Algorithm): string
  {
    match a
    case LinearRegression => "Linear Regression"
    case PolynomialRegression => "Polynomial Regression"
    case ExponentialSmoothing => "Exponential Smoothing"
    case HoltWinters => "Holt-Winters"
    case Arima => "ARIMA (Simple)"
    case RandomForest => "Random Forest"
    case SeasonalDecomposition => "Seasonal Decomposition"
    case MovingAverage => "Moving Average"
    case Sarima => "SARIMA (Seasonal ARIMA)"
    case ProphetLike => "Prophet-like Forecasting"
    case LstmLike => "Simple LSTM-like"
    case Xgboost => "XGBoost Regression"
    case Svr => "Support Vector Regression"
    case Knn => "K-Nearest Neighbors"
    case GaussianProcess => "Gaussian Process"
    case NeuralNetwork => "Neural Network (MLP)"
    case ThetaMethod => "Theta Method"
    case Croston => "Croston's Method"
    case Ses => "Simple Exponential Smoothing"
    case DampedTrend => "Damped Trend Method"
    case NaiveSeasonal => "Naive Seasonal"
    case DriftMethod => "Drift Method"
  }

  function EntryId(e: Entry): string
  {
    match e
    case Single(a) => Id(a)
    case BestFit => "best_fit"
  }

  function EntryName(e: Entry): string
  {
    match e
    case Single(a) => DisplayName(a)
    case BestFit => "Best Fit (Auto-Select)"
  }

  /** The first entry of es whose id is `id`. */
  function Find(es: seq<Entry>, id: string): (r: Option<Entry>)
    ensures r.Some? ==> r.value in es && EntryId(r.value) == id
    ensures r.None? <==> forall e :: e in es ==> EntryId(e) != id
  {
    if |es| == 0 then None
    else if EntryId(es[0]) == id then Some(es[0])
    else
      var rest := Find(es[1..], id);
      assert forall e :: e in es <==> e == es[0] || e in es[1..];
      rest
  }

  /** `ALGORITHMS[id]`: the entry an id names, if any. */
  function Lookup(id: string): (r: Option<Entry>)
    ensures r.Some? ==> EntryId(r.value) == id
    ensures r.None? <==> forall e: Entry :: EntryId(e) != id
  {
    var r := Find(Entries(), id);
    if r.None? then
      forall e: Entry ensures EntryId(e) != id {
        InCatalog(e);
      }
      r
    else r
  }

  /** Where an algorithm sits in the catalog. */
  function Position(a: Algorithm): (i: nat)
    ensures i < |Algorithms| && Algorithms[i] == a
  {
    match a
    case LinearRegression => 0
    case PolynomialRegression => 1
    case ExponentialSmoothing => 2
    case HoltWinters => 3
    case Arima => 4
    case RandomForest => 5
    case SeasonalDecomposition => 6
    case MovingAverage => 7
    case Sarima => 8
    case ProphetLike => 9
    case LstmLike => 10
    case Xgboost => 11
    case Svr => 12
    case Knn => 13
    case GaussianProcess => 14
    case NeuralNetwork => 15
    case ThetaMethod => 16
    case Croston => 17
    case Ses => 18
    case DampedTrend => 19
    case NaiveSeasonal => 20
    case DriftMethod => 21
  }

  /** Every entry appears in the catalog. */
  lemma InCatalog(e: Entry)
    ensures e in Entries()
  {
    var es := Entries();
    match e
    case BestFit => assert es[|Algorithms|] == e;
    case Single(a) => assert es[Position(a)] == e;
  }

  /** Distinct entries have distinct ids. */
  lemma IdsDistinct(a: Entry, b: Entry)
    requires EntryId(a) == EntryId(b)
    ensures a == b
  {
    match a
    case BestFit =>
    case Single(x) => match x
      case LinearRegression => case PolynomialRegression => case ExponentialSmoothing =>
      case HoltWinters => case Arima => case RandomForest => case SeasonalDecomposition =>
      case MovingAverage => case Sarima => case ProphetLike => case LstmLike =>
      case Xgboost => case Svr => case Knn => case GaussianProcess => case NeuralNetwork =>
      case ThetaMethod => case Croston => case Ses => case DampedTrend =>
      case NaiveSeasonal => case DriftMethod =>
  }

  /** Looking up an entry's id finds that entry. */
  lemma LookupRoundTrip(e: Entry)
    ensures Lookup(EntryId(e)) == Some(e)
  {
    var r := Lookup(EntryId(e));
    IdsDistinct(r.value, e);
  }

  /** The catalog lists each algorithm exactly once. */
  lemma AlgorithmsDistinct()
    ensures |Algorithms| == 22
    ensures forall i, j :: 0 <= i < j < |Algorithms| ==> Algorithms[i] != Algorithms[j]
  {
  }

  /** The number of strictly positive values in y. */
  function CountPositive(y: seq<real>): (r: nat)
    ensures r <= |y|
  {
    if |y| == 0 then 0 else (if y[0] > 0.0 then 1 else 0) + CountPositive(y[1..])
  }

  /** The algorithm a forecaster passes the series on to when it is too short
      for its own method (or, for Croston, has fewer than two demands); None
      when it forecasts the series itself. */
  function Fallback(a: Algorithm, y: seq<real>): (r: Option<Algorithm>)
    ensures r.Some? ==> Depth(r.value) < Depth(a)
    ensures a != Croston && |y| >= OwnMethodFrom(a) ==> r == None
    ensures a != Croston && 0 < |y| < OwnMethodFrom(a) ==> r.Some?
    ensures a == Croston ==> (r == None <==> |y| >= 3 && CountPositive(y) >= 2)
  {
    var n := |y|;
    match a
    case HoltWinters => if n < 24 then Some(ExponentialSmoothing) else None
    case Arima => if n < 3 then Some(ExponentialSmoothing) else None
    case RandomForest => if 1 <= n < 8 then Some(LinearRegression) else None
    case SeasonalDecomposition => if n < 24 then Some(LinearRegression) else None
    case Sarima => if n < 24 then Some(Arima) else None
    case ProphetLike => if n < 4 then Some(LinearRegression) else None
    case LstmLike => if n < 7 then Some(LinearRegression) else None
    case Xgboost => if n < 6 then Some(LinearRegression) else if n == 6 then Some(RandomForest) else None
    case Svr => if n < 5 then Some(LinearRegression) else None
    case Knn => if n < 7 then Some(LinearRegression) else None
    case GaussianProcess => if n < 4 then Some(LinearRegression) else None
    case NeuralNetwork => if n < 8 then Some(LinearRegression) else None
    case ThetaMethod => if n < 3 then Some(LinearRegression) else None
    case Croston => if n < 3 || CountPositive(y) < 2 then Some(ExponentialSmoothing) else None
    case DampedTrend => if n < 3 then Some(ExponentialSmoothing) else None
    case _ => None
  }

  /** How many hand-offs can follow from an algorithm at most. */
  function Depth(a: Algorithm): nat
  {
    match a
    case LinearRegression => 0
    case ExponentialSmoothing => 0
    case RandomForest => 1
    case Arima => 1
    case Xgboost => 2
    case Sarima => 2
    case _ => 1
  }

  /** The algorithm whose own method finally forecasts the series. */
  function Route(a: Algorithm, y: seq<real>): (r: Algorithm)
    ensures Fallback(r, y) == None
    ensures Fallback(a, y) == None ==> r == a
    decreases Depth(a)
  {
    match Fallback(a, y)
    case None => a
    case Some(b) => Route(b, y)
  }

  /** The minimum length at which an algorithm uses its own method on every
      series; an independent table of the thresholds the forecasters test. */
  function OwnMethodFrom(a: Algorithm): nat
  {
    match a
    case HoltWinters => 24
    case SeasonalDecomposition => 24
    case Sarima => 24
    case Arima => 3
    case ThetaMethod => 3
    case DampedTrend => 3
    case Croston => 3
    case ProphetLike => 4
    case GaussianProcess => 4
    case Svr => 5
    case LstmLike => 7
    case Xgboost => 7
    case Knn => 7
    case RandomForest => 8
    case NeuralNetwork => 8
    case _ => 0
  }

  /** Once the series reaches an algorithm's threshold (and, for Croston, has
      two demands) the algorithm forecasts it itself; below the threshold it
      hands the series on, except random forest on an empty series. */
  lemma RouteThresholds(a: Algorithm, y: seq<real>)
    requires a != Croston
    ensures |y| >= OwnMethodFrom(a) ==> Route(a, y) == a
    ensures 0 < |y| < OwnMethodFrom(a) ==> Route(a, y) != a
  {
  }

  lemma CrostonThreshold(y: seq<real>)
    ensures Route(Croston, y) == Croston <==> |y| >= 3 && CountPositive(y) >= 2
    ensures Route(Croston, y) != Croston ==> Route(Croston, y) == ExponentialSmoothing
  {
  }

  /** A hand-off chain ends in the algorithm itself, in linear regression or
      exponential smoothing (the two that never hand off), or in ARIMA (where
      SARIMA's chain stops on a series of 3 to 23 points). */
  lemma {:induction false} RouteEnds(a: Algorithm, y: seq<real>)
    ensures Route(a, y) == a || Route(a, y) in {LinearRegression, ExponentialSmoothing, Arima}
    decreases Depth(a)
  {
    match Fallback(a, y)
    case None =>
    case Some(b) =>
      RouteEnds(b, y);
      match b
      case LinearRegression =>
      case ExponentialSmoothing =>
      case RandomForest =>
        assert Fallback(b, y) == Some(LinearRegression);
      case Arima =>
  }

  /** Routing is idempotent: the final algorithm hands nothing on. */
  lemma RouteIdempotent(a: Algorithm, y: seq<real>)
    ensures Route(Route(a, y), y) == Route(a, y)
  {
  }
}

=== FILE: config.dfy ===
/** The request configuration (ForecastConfig in backend/main.py). Optional
    strings and optional lists are read only for their truthiness by the
    engine, so None and the empty value are the same here: "" and []. */
module Config {

  datatype ForecastConfig = ForecastConfig(
    forecastBy: string,
    selectedItem: string,
    selectedProduct: string,
    selectedCustomer: string,
    selectedLocation: string,
    selectedProducts: seq<string>,
    selectedCustomers: seq<string>,
    selectedLocations: seq<string>,
    selectedItems: seq<string>,
    algorithm: string,
    interval: string,
    historicPeriod: int,
    forecastPeriod: int,
    multiSelect: bool,
    advancedMode: bool)

  /** The per-item configuration the simple multi-item expander builds:
      the forecastBy column, one selected item, and the algorithm and period
      settings; every other selection is cleared and multi-select is off. */
  function ItemConfig(cfg: ForecastConfig, item: string): (r: ForecastConfig)
    ensures r.selectedItem == item && !r.multiSelect && !r.advancedMode
    ensures r.selectedProduct == r.selectedCustomer == r.selectedLocation == ""
    ensures r.selectedProducts == r.selectedCustomers == r.selectedLocations == r.selectedItems == []
    ensures r.forecastBy == cfg.forecastBy && r.algorithm == cfg.algorithm && r.interval == cfg.interval
    ensures r.historicPeriod == cfg.historicPeriod && r.forecastPeriod == cfg.forecastPeriod
  {
    ForecastConfig(cfg.forecastBy, item, "", "", "", [], [], [], [], cfg.algorithm, cfg.interval,
                   cfg.historicPeriod, cfg.forecastPeriod, false, false)
  }

  /** The configuration the two-dimension expander loads its records with:
      the three selection lists kept, but multi-select off and no single
      selection, so the record filter selects nothing out. */
  function PairLoadConfig(cfg: ForecastConfig, products: seq<string>, customers: seq<string>, locations: seq<string>)
    : (r: ForecastConfig)
    ensures !r.multiSelect && r.selectedItem == ""
    ensures r.selectedProduct == r.selectedCustomer == r.selectedLocation == ""
    ensures r.selectedProducts == products && r.selectedCustomers == customers && r.selectedLocations == locations
    ensures r.forecastBy == cfg.forecastBy && r.interval == cfg.interval
  {
    ForecastConfig(cfg.forecastBy, "", "", "", "", products, customers, locations, [], cfg.algorithm, cfg.interval,
                   cfg.historicPeriod, cfg.forecastPeriod, false, false)
  }
}

=== FILE: dispatch.dfy ===
/** The mode decision of the /forecast endpoint: advanced multi-select runs
    the three-dimension forecast and needs all three dimensions, plain
    multi-select needs at least two dimensions, several selected items run
    the simple multi-item forecast, and anything else the single forecast. */
module Dispatch {
  import opened Base
  import opened Config
  import opened Records
  import opened Forecasters
  import opened Selection
  import opened Expander

  datatype Mode = AdvancedCombinations | FlexibleMultiSelect | SimpleMultiSelect | SingleSelection

  /** The mode a request runs in, or the error it is refused with. */
  function ChooseMode(cfg: ForecastConfig): (r: Result<Mode>)
    ensures r == Ok(SingleSelection) <==> !cfg.multiSelect && |cfg.selectedItems| <= 1
    ensures r == Ok(SimpleMultiSelect) <==> !cfg.multiSelect && |cfg.selectedItems| > 1
    ensures r == Ok(AdvancedCombinations) <==> cfg.multiSelect && cfg.advancedMode && SelectedDimensions(cfg) == 3
    ensures r == Ok(FlexibleMultiSelect) <==> cfg.multiSelect && !cfg.advancedMode && SelectedDimensions(cfg) >= 2
    ensures r == Err(AdvancedModeIncomplete) <==> cfg.multiSelect && cfg.advancedMode && SelectedDimensions(cfg) < 3
    ensures r == Err(TooFewDimensions) <==> cfg.multiSelect && !cfg.advancedMode && SelectedDimensions(cfg) < 2
  {
    if cfg.multiSelect then
      if cfg.advancedMode then
        if |cfg.selectedProducts| > 0 && |cfg.selectedCustomers| > 0 && |cfg.selectedLocations| > 0
        then Ok(AdvancedCombinations)
        else Err(AdvancedModeIncomplete)
      else if SelectedDimensions(cfg) >= 2 then Ok(FlexibleMultiSelect)
      else Err(TooFewDimensions)
    else if |cfg.selectedItems| > 1 then Ok(SimpleMultiSelect)
    else Ok(SingleSelection)
  }

  datatype Response = One(forecast: ForecastResult) | Many(forecasts: MultiForecastResult)

  /** A multi-combination forecast as a response, its error passed on. */
  function AsMany(m: Result<MultiForecastResult>): (r: Result<Response>)
    ensures r.Ok? <==> m.Ok?
    ensures m.Ok? ==> r.value == Many(m.value)
    ensures m.Err? ==> r.error == m.error
  {
    if m.Ok? then Ok(Many(m.value)) else Err(m.error)
  }

  /** The /forecast endpoint on an in-memory table: the chosen mode's
      forecast, or the error that becomes the 500 response. */
  function HandleForecast(table: seq<Record>, cfg: ForecastConfig, lib: Library): (r: Result<Response>)
    ensures ChooseMode(cfg).Err? ==> r == Err(ChooseMode(cfg).error)
    ensures r.Ok? && r.value.One? ==> ChooseMode(cfg) == Ok(SingleSelection)
    ensures ChooseMode(cfg) == Ok(AdvancedCombinations) ==>
      r == AsMany(ThreeDim(table, cfg, cfg.selectedProducts, cfg.selectedCustomers, cfg.selectedLocations, lib))
    ensures ChooseMode(cfg) == Ok(FlexibleMultiSelect) ==> r == AsMany(MultiForecast(table, cfg, lib))
    ensures ChooseMode(cfg) == Ok(SimpleMultiSelect) ==> r == AsMany(SimpleMulti(table, cfg, lib))
    ensures ChooseMode(cfg) == Ok(SingleSelection) ==>
      var f := GenerateForecast(table, cfg, lib);
      r == if f.Ok? then Ok(One(f.value)) else Err(f.error)
  {
    var mode :- ChooseMode(cfg);
    match mode
    case AdvancedCombinations =>
      var m :- ThreeDim(table, cfg, cfg.selectedProducts, cfg.selectedCustomers, cfg.selectedLocations, lib);
      Ok(Many(m))
    case FlexibleMultiSelect =>
      var m :- MultiForecast(table, cfg, lib);
      Ok(Many(m))
    case SimpleMultiSelect =>
      var m :- SimpleMulti(table, cfg, lib);
      Ok(Many(m))
    case SingleSelection =>
      var f :- GenerateForecast(table, cfg, lib);
      Ok(One(f))
  }

  /** With all three dimensions selected, multi-select runs the
      three-dimension forecast whether or not advanced mode is on; the two
      paths differ only when a dimension is missing. */
  lemma AllThreeRunThreeDim(table: seq<Record>, cfg: ForecastConfig, lib: Library)
    requires cfg.multiSelect && SelectedDimensions(cfg) == 3
    ensures var t := ThreeDim(table, cfg, cfg.selectedProducts, cfg.selectedCustomers, cfg.selectedLocations, lib);
      HandleForecast(table, cfg, lib) == AsMany(t)
  {
  }

  /** The multi-select responses report one outcome per combination: the
      successful and failed counts add up to the total. */
  lemma MultiSelectCounts(table: seq<Record>, cfg: ForecastConfig, lib: Library)
    requires HandleForecast(table, cfg, lib).Ok? && HandleForecast(table, cfg, lib).value.Many?
    ensures var m := HandleForecast(table, cfg, lib).value.forecasts;
      m.summary.successfulCombinations + m.summary.failedCombinations == m.totalCombinations
  {
    var ps, cs, ls := cfg.selectedProducts, cfg.selectedCustomers, cfg.selectedLocations;
    if cfg.multiSelect && SelectedDimensions(cfg) == 2 {
      var (_, xs, ys) := PairChoice(ps, cs, ls);
    }
  }
}

=== FILE: expander.dfy ===
/** The multi-combination expanders: the simple multi-item forecast (one
    forecast per selected item), the two-dimension forecast (one per pair
    of values of the first two selected dimensions) and the three-dimension
    forecast (one per product, customer and location triple). Each
    combination either succeeds or is recorded as failed, and a summary
    reports the average, best and worst accuracy over the successes. */
module Expander {
  import opened Base
  import opened Config
  import opened Records
  import opened Periods
  import opened Aggregation
  import opened Catalog
  import opened Forecasters
  import opened Orchestrator
  import opened Selection

  datatype Outcome = Success(result: ForecastResult) | Failure(tag: string, error: Error)

  /** One entry of `failedDetails`. */
  datatype Failed = Failed(combination: string, error: Error)

  datatype Summary = Summary(
    averageAccuracy: real,
    bestCombination: Combination,
    bestAccuracy: real,
    worstCombination: Combination,
    worstAccuracy: real,
    successfulCombinations: nat,
    failedCombinations: nat,
    failedDetails: seq<Failed>)

  datatype MultiForecastResult = MultiForecastResult(
    results: seq<ForecastResult>,
    totalCombinations: nat,
    summary: Summary)

  // ---------------------------------------------------------------------
  // Outcomes and the summary

  function Successes(os: seq<Outcome>): (r: seq<ForecastResult>)
    ensures forall x :: x in r <==> Success(x) in os
  {
    if |os| == 0 then []
    else
      assert forall o :: o in os <==> o == os[0] || o in os[1..];
      match os[0]
      case Success(x) => [x] + Successes(os[1..])
      case Failure(_, _) => Successes(os[1..])
  }

  function Failures(os: seq<Outcome>): (r: seq<Failed>)
    ensures forall l, e :: Failed(l, e) in r <==> Failure(l, e) in os
  {
    if |os| == 0 then []
    else
      assert forall o :: o in os <==> o == os[0] || o in os[1..];
      match os[0]
      case Success(_) => Failures(os[1..])
      case Failure(l, e) => [Failed(l, e)] + Failures(os[1..])
  }

  /** There are no successes exactly when every outcome failed. */
  lemma {:induction false} NoSuccesses(os: seq<Outcome>)
    ensures |Successes(os)| == 0 <==> forall o :: o in os ==> o.Failure?
  {
    if |os| > 0 {
      NoSuccesses(os[1..]);
      assert forall o :: o in os <==> o == os[0] || o in os[1..];
    }
  }

  /** Every combination lands in exactly one of the two lists. */
  lemma {:induction false} OutcomesPartition(os: seq<Outcome>)
    ensures |Successes(os)| + |Failures(os)| == |os|
  {
    if |os| > 0 {
      OutcomesPartition(os[1..]);
    }
  }

  /** The accuracies of the successful combinations' forecast results (the
      sweep's algorithm results have their own projection, Accuracies). */
  function ResultAccuracies(rs: seq<ForecastResult>): (r: seq<real>)
    ensures |r| == |rs|
    ensures forall i :: 0 <= i < |rs| ==> r[i] == rs[i].accuracy
  {
    seq(|rs|, i requires 0 <= i < |rs| => rs[i].accuracy)
  }

  /** The closing part every expander shares: no successful combination is
      an error; otherwise the results, the total and the summary, whose best
      and worst combinations are the first most and least accurate. */
  function Summarize(os: seq<Outcome>, total: nat): (r: Result<MultiForecastResult>)
    ensures r.Err? <==> forall o :: o in os ==> o.Failure?
    ensures r.Err? ==> r.error == NoValidForecasts
    ensures r.Ok? ==>
      var rs := r.value.results;
      var s := r.value.summary;
      && rs == Successes(os)
      && r.value.totalCombinations == total
      && s.successfulCombinations + s.failedCombinations == |os|
      && s.failedDetails == Failures(os)
      && s.averageAccuracy == Mean(ResultAccuracies(rs))
      && (forall k :: 0 <= k < |rs| ==> s.worstAccuracy <= rs[k].accuracy <= s.bestAccuracy)
      && (exists b :: 0 <= b < |rs| && s.bestCombination == rs[b].combination && s.bestAccuracy == rs[b].accuracy
            && forall j :: 0 <= j < b ==> rs[j].accuracy < s.bestAccuracy)
      && (exists w :: 0 <= w < |rs| && s.worstCombination == rs[w].combination && s.worstAccuracy == rs[w].accuracy
            && forall j :: 0 <= j < w ==> rs[j].accuracy > s.worstAccuracy)
  {
    var rs := Successes(os);
    OutcomesPartition(os);
    NoSuccesses(os);
    if |rs| == 0 then
      Err(NoValidForecasts)
    else
      assert rs[0] in rs;
      var accs := ResultAccuracies(rs);
      var b := FirstMax(accs);
      var w := FirstMin(accs);
      Ok(MultiForecastResult(rs, total,
        Summary(Mean(accs), rs[b].combination, rs[b].accuracy, rs[w].combination, rs[w].accuracy,
                |rs|, |Failures(os)|, Failures(os))))
  }

  /** The accuracies run_algorithm reports all lie in [0, 99.9], and so does
      the average accuracy of the summary. */
  lemma AverageAccuracyBounds(os: seq<Outcome>, total: nat)
    requires Summarize(os, total).Ok?
    requires forall o :: o in os && o.Success? ==> 0.0 <= o.result.accuracy <= 99.9
    ensures 0.0 <= Summarize(os, total).value.summary.averageAccuracy <= 99.9
  {
    var rs := Successes(os);
    forall k | 0 <= k < |rs| ensures 0.0 <= ResultAccuracies(rs)[k] <= 99.9 {
      assert rs[k] in rs;
      assert Success(rs[k]) in os;
    }
    MeanBounds(ResultAccuracies(rs), 0.0, 99.9);
  }

  // ---------------------------------------------------------------------
  // One combination

  /** What one combination yields once its rows are aggregated (or failed
      to be): fewer than two periods fail as insufficient data; best fit
      sweeps every algorithm and keeps the first most accurate; otherwise
      the named algorithm runs, and an id outside the catalog fails the
      combination. */
  function RunCombination(tag: string, combination: Combination, rows: Result<seq<Row>>,
                          cfg: ForecastConfig, algorithm: string, lib: Library): (r: Outcome)
    ensures rows.Err? ==> r == Failure(tag, rows.error)
    ensures rows.Ok? && |rows.value| < 2 ==> r == Failure(tag, InsufficientData)
    ensures r.Success? ==> r.result.combination == combination && 0.0 <= r.result.accuracy <= 99.9
    ensures r.Success? && algorithm == "best_fit" ==>
      r.result.allAlgorithms == Some(Sweep(rows.value, cfg, lib))
    ensures r.Failure? ==> r.tag == tag
    ensures rows.Ok? && |rows.value| >= 2 && algorithm == "best_fit" ==>
      r == Success(BestOf(combination, Sweep(rows.value, cfg, lib), Sweep(rows.value, cfg, lib)))
    ensures rows.Ok? && |rows.value| >= 2 && algorithm != "best_fit" ==>
      var run := RunAlgorithm(algorithm, rows.value, cfg, lib);
      && (r.Success? <==> run.Ok?)
      && (run.Err? ==> r == Failure(tag, run.error))
      && (run.Ok? ==> r.result.selectedAlgorithm == run.value.algorithm && Carries(r.result, run.value)
                      && r.result.allAlgorithms == None)
  {
    match rows
    case Err(e) => Failure(tag, e)
    case Ok(rs) =>
      if |rs| < 2 then Failure(tag, InsufficientData)
      else if algorithm == "best_fit" then
        var all := Sweep(rs, cfg, lib);
        Success(BestOf(combination, all, all))
      else
        match RunAlgorithm(algorithm, rs, cfg, lib)
        case Err(e) => Failure(tag, e)
        case Ok(res) => Success(FromAlgorithm(combination, res.algorithm, res, None))
  }

  // ---------------------------------------------------------------------
  // Cartesian products

  /** `[(x, y) for x in xs for y in ys]`. */
  function Product<A, B>(xs: seq<A>, ys: seq<B>): (r: seq<(A, B)>)
    ensures |r| == |xs| * |ys|
  {
    if |xs| == 0 then []
    else seq(|ys|, j requires 0 <= j < |ys| => (xs[0], ys[j])) + Product(xs[1..], ys)
  }

  /** The pair (xs[i], ys[j]) sits at position i |ys| + j. */
  lemma {:induction false} ProductAt<A, B>(xs: seq<A>, ys: seq<B>, i: nat, j: nat)
    requires i < |xs| && j < |ys|
    ensures i * |ys| + j < |Product(xs, ys)|
    ensures Product(xs, ys)[i * |ys| + j] == (xs[i], ys[j])
  {
    var m := |ys|;
    var row := seq(m, k requires 0 <= k < m => (xs[0], ys[k]));
    var rest := Product(xs[1..], ys);
    assert Product(xs, ys) == row + rest;
    IndexBound(i, j, m, |xs|);
    if i > 0 {
      ProductAt(xs[1..], ys, i - 1, j);
      RowIndex(i, m, j);
      assert (row + rest)[i * m + j] == rest[(i - 1) * m + j];
    } else {
      assert i * m + j == j;
      assert (row + rest)[j] == row[j];
    }
  }

  lemma RowIndex(i: nat, m: nat, j: nat)
    requires i > 0
    ensures i * m + j == m + ((i - 1) * m + j)
  {
  }

  lemma IndexBound(i: nat, j: nat, m: nat, n: nat)
    requires i < n && j < m
    ensures i * m + j < n * m
  {
    var k := n - i;
    MulAtLeast(k, m);
    Distribute(i, k, m);
  }

  lemma Distribute(a: int, b: int, m: int)
    ensures (a + b) * m == a * m + b * m
  {
  }

  // ---------------------------------------------------------------------
  // The simple multi-item forecast

  /** One selected item: its own records, summed per period, forecast under
      the item's label; an item without records fails with "no data". */
  function ItemOutcome(table: seq<Record>, cfg: ForecastConfig, item: string, lib: Library): (r: Outcome)
    ensures LoadData(table, ItemConfig(cfg, item)).Err? ==>
      r == Failure(item, NoDataFound("No data found for the selected configuration"))
    ensures LoadData(table, ItemConfig(cfg, item)).Ok? ==>
      r == RunCombination(item, Some([(cfg.forecastBy, item)]),
             Ok(GroupAndSum(LoadData(table, ItemConfig(cfg, item)).value, [], IntervalOf(cfg.interval))),
             ItemConfig(cfg, item), cfg.algorithm, lib)
    ensures r.Success? ==> r.result.combination == Some([(cfg.forecastBy, item)])
  {
    ItemAggregatesByPeriod(table, cfg, item);
    var single := ItemConfig(cfg, item);
    var rows := match LoadData(table, single)
      case Err(e) => Err(e)
      case Ok(records) => AggregateByPeriod(records, cfg.interval, single);
    RunCombination(item, Some([(cfg.forecastBy, item)]), rows, single, cfg.algorithm, lib)
  }

  /** The outcomes of the selected items, in selection order. */
  function ItemOutcomes(table: seq<Record>, cfg: ForecastConfig, lib: Library): (r: seq<Outcome>)
    ensures |r| == |cfg.selectedItems|
    ensures forall i :: 0 <= i < |r| ==> r[i] == ItemOutcome(table, cfg, cfg.selectedItems[i], lib)
  {
    var items := cfg.selectedItems;
    seq(|items|, i requires 0 <= i < |items| => ItemOutcome(table, cfg, items[i], lib))
  }

  /** generate_simple_multi_forecast: one combination per selected item. */
  function SimpleMulti(table: seq<Record>, cfg: ForecastConfig, lib: Library): (r: Result<MultiForecastResult>)
    ensures |cfg.selectedItems| == 0 ==> r == Err(NothingSelected(cfg.forecastBy))
    ensures |cfg.selectedItems| > 0 ==> r == Summarize(ItemOutcomes(table, cfg, lib), |cfg.selectedItems|)
    ensures r.Ok? ==>
      && r.value.totalCombinations == |cfg.selectedItems|
      && r.value.summary.successfulCombinations + r.value.summary.failedCombinations == |cfg.selectedItems|
  {
    var items := cfg.selectedItems;
    if |items| == 0 then Err(NothingSelected(cfg.forecastBy))
    else Summarize(ItemOutcomes(table, cfg, lib), |items|)
  }

  /** Each item is forecast on its own records, grouped by period only. */
  lemma ItemAggregatesByPeriod(table: seq<Record>, cfg: ForecastConfig, item: string)
    ensures GroupColumns(ItemConfig(cfg, item)) == Ok([])
  {
  }

  // ---------------------------------------------------------------------
  // The three-dimension forecast

  function TripleLabel(p: string, c: string, l: string): string
  {
    p + " + " + c + " + " + l
  }

  /** One (product, customer, location) triple: the records of exactly that
      triple, forecast under its label; a triple without records fails. */
  function TripleOutcome(table: seq<Record>, cfg: ForecastConfig, t: (string, (string, string)), lib: Library)
    : (r: Outcome)
    ensures LoadCombination(table, t.0, t.1.0, t.1.1).Err? ==>
      r == Failure(TripleLabel(t.0, t.1.0, t.1.1), LoadCombination(table, t.0, t.1.0, t.1.1).error)
    ensures LoadCombination(table, t.0, t.1.0, t.1.1).Ok? ==>
      r == RunCombination(TripleLabel(t.0, t.1.0, t.1.1), Some([("product", t.0), ("customer", t.1.0), ("location", t.1.1)]),
             AggregateByPeriod(LoadCombination(table, t.0, t.1.0, t.1.1).value, cfg.interval, cfg), cfg, cfg.algorithm, lib)
    ensures r.Success? ==>
      && r.result.combination == Some([("product", t.0), ("customer", t.1.0), ("location", t.1.1)])
      && exists x :: x in table && MatchesCombination(x, t.0, t.1.0, t.1.1)
  {
    var (p, (c, l)) := t;
    var rows := match LoadCombination(table, p, c, l)
      case Err(e) => Err(e)
      case Ok(records) => AggregateByPeriod(records, cfg.interval, cfg);
    RunCombination(TripleLabel(p, c, l), Some([("product", p), ("customer", c), ("location", l)]),
                   rows, cfg, cfg.algorithm, lib)
  }

  /** The combinations of the three-dimension forecast, products outermost. */
  function Triples(ps: seq<string>, cs: seq<string>, ls: seq<string>): (r: seq<(string, (string, string))>)
    ensures |r| == |ps| * (|cs| * |ls|)
  {
    Product(ps, Product(cs, ls))
  }

  /** The triple of products[i], customers[j] and locations[k] is the
      combination number (i |C| + j) |L| + k. */
  lemma TripleAt(ps: seq<string>, cs: seq<string>, ls: seq<string>, i: nat, j: nat, k: nat)
    requires i < |ps| && j < |cs| && k < |ls|
    ensures i * (|cs| * |ls|) + (j * |ls| + k) < |Triples(ps, cs, ls)|
    ensures Triples(ps, cs, ls)[i * (|cs| * |ls|) + (j * |ls| + k)] == (ps[i], (cs[j], ls[k]))
  {
    ProductAt(cs, ls, j, k);
    ProductAt(ps, Product(cs, ls), i, j * |ls| + k);
  }

  /** The outcomes of all triples, in combination order. */
  function TripleOutcomes(table: seq<Record>, cfg: ForecastConfig, ps: seq<string>, cs: seq<string>, ls: seq<string>,
                          lib: Library): (r: seq<Outcome>)
    ensures |r| == |Triples(ps, cs, ls)|
    ensures forall i :: 0 <= i < |r| ==> r[i] == TripleOutcome(table, cfg, Triples(ps, cs, ls)[i], lib)
  {
    var ts := Triples(ps, cs, ls);
    seq(|ts|, i requires 0 <= i < |ts| => TripleOutcome(table, cfg, ts[i], lib))
  }

  /** generate_forecast_three_dimensions: one combination per triple. */
  function ThreeDim(table: seq<Record>, cfg: ForecastConfig, ps: seq<string>, cs: seq<string>, ls: seq<string>,
                    lib: Library): (r: Result<MultiForecastResult>)
    ensures r == Summarize(TripleOutcomes(table, cfg, ps, cs, ls, lib), |ps| * (|cs| * |ls|))
    ensures r.Ok? ==>
      && r.value.totalCombinations == |ps| * (|cs| * |ls|)
      && r.value.summary.successfulCombinations + r.value.summary.failedCombinations == |ps| * (|cs| * |ls|)
    ensures |ps| * (|cs| * |ls|) == 0 ==> r == Err(NoValidForecasts)
  {
    Summarize(TripleOutcomes(table, cfg, ps, cs, ls, lib), |Triples(ps, cs, ls)|)
  }

  // ---------------------------------------------------------------------
  // The two-dimension forecast

  /** The combination type and the two value lists: the first non-empty pair
      among product-customer, product-location and customer-location. */
  function PairChoice(ps: seq<string>, cs: seq<string>, ls: seq<string>): (r: (string, seq<string>, seq<string>))
    ensures |ps| > 0 && |cs| > 0 ==> r == ("product_customer", ps, cs)
    ensures (|ps| == 0 || |cs| == 0) && |ps| > 0 && |ls| > 0 ==> r == ("product_location", ps, ls)
    ensures |ps| == 0 && |cs| > 0 && |ls| > 0 ==> r == ("customer_location", cs, ls)
    ensures |r.1| * |r.2| == 0 <==> !(|ps| > 0 && |cs| > 0) && !(|ps| > 0 && |ls| > 0) && !(|cs| > 0 && |ls| > 0)
  {
    if |ps| > 0 && |cs| > 0 then ("product_customer", ps, cs)
    else if |ps| > 0 && |ls| > 0 then ("product_location", ps, ls)
    else if |cs| > 0 && |ls| > 0 then ("customer_location", cs, ls)
    else ("", [], [])
  }

  /** The column names of a combination type's two values. */
  function PairKeys(kind: string): (r: (string, string))
    ensures PairColumns(kind).Some? ==>
      DimensionNamed(r.0) == Some(PairColumns(kind).value.0) && DimensionNamed(r.1) == Some(PairColumns(kind).value.1)
  {
    if kind == "product_customer" then ("product", "customer")
    else if kind == "product_location" then ("product", "location")
    else ("customer", "location")
  }

  function PairLabel(kind: string, v: (string, string)): string
  {
    kind + ": " + v.0 + " + " + v.1
  }

  /** One value pair: the records of that pair summed over the third
      dimension, forecast under the pair's label; a pair without records,
      or an unknown combination type, fails. */
  function PairOutcome(full: seq<Record>, cfg: ForecastConfig, kind: string, v: (string, string), lib: Library)
    : (r: Outcome)
    ensures PairColumns(kind).None? ==> r == Failure(PairLabel(kind, v), UnknownCombinationType(kind))
    ensures AggregateTwo(full, cfg.interval, kind, v.0, v.1).Err? ==>
      r == Failure(PairLabel(kind, v), AggregateTwo(full, cfg.interval, kind, v.0, v.1).error)
    ensures r.Success? ==>
      && r.result.combination == Some([(PairKeys(kind).0, v.0), (PairKeys(kind).1, v.1)])
      && exists x :: x in full && MatchesPair(x, PairColumns(kind).value, v.0, v.1)
    ensures r.Failure? ==> r.tag == PairLabel(kind, v)
  {
    var keys := PairKeys(kind);
    RunCombination(PairLabel(kind, v), Some([(keys.0, v.0), (keys.1, v.1)]),
                   AggregateTwo(full, cfg.interval, kind, v.0, v.1), ItemConfig(cfg, ""), cfg.algorithm, lib)
  }

  /** The outcomes of all value pairs, in combination order. */
  function PairOutcomes(full: seq<Record>, cfg: ForecastConfig, kind: string, xs: seq<string>, ys: seq<string>,
                        lib: Library): (r: seq<Outcome>)
    ensures |r| == |xs| * |ys|
    ensures forall i :: 0 <= i < |r| ==> r[i] == PairOutcome(full, cfg, kind, Product(xs, ys)[i], lib)
  {
    var pairs := Product(xs, ys);
    seq(|pairs|, i requires 0 <= i < |pairs| => PairOutcome(full, cfg, kind, pairs[i], lib))
  }

  /** generate_forecast_two_dimensions: the whole table is loaded once (its
      "no data" error is not caught), then one combination per value pair of
      the chosen dimensions. */
  function TwoDim(table: seq<Record>, cfg: ForecastConfig, ps: seq<string>, cs: seq<string>, ls: seq<string>,
                  lib: Library): (r: Result<MultiForecastResult>)
    ensures |table| == 0 ==> r.Err? && r.error.NoDataFound?
    ensures r.Ok? ==>
      var (_, xs, ys) := PairChoice(ps, cs, ls);
      && r.value.totalCombinations == |xs| * |ys|
      && r.value.summary.successfulCombinations + r.value.summary.failedCombinations == |xs| * |ys|
    ensures var (kind, xs, ys) := PairChoice(ps, cs, ls);
      var load := LoadData(table, PairLoadConfig(cfg, ps, cs, ls));
      && (load.Err? ==> r == Err(load.error))
      && (load.Ok? ==> r == Summarize(PairOutcomes(load.value, cfg, kind, xs, ys, lib), |xs| * |ys|))
  {
    var (kind, xs, ys) := PairChoice(ps, cs, ls);
    var full :- LoadData(table, PairLoadConfig(cfg, ps, cs, ls));
    Summarize(PairOutcomes(full, cfg, kind, xs, ys, lib), |xs| * |ys|)
  }

  /** The load of the two-dimension forecast keeps every record. */
  lemma PairLoadKeepsAll(table: seq<Record>, cfg: ForecastConfig, ps: seq<string>, cs: seq<string>, ls: seq<string>)
    ensures LoadData(table, PairLoadConfig(cfg, ps, cs, ls)).Ok? <==> |table| > 0
    ensures LoadData(table, PairLoadConfig(cfg, ps, cs, ls)).Ok? ==>
      multiset(LoadData(table, PairLoadConfig(cfg, ps, cs, ls)).value) == multiset(table)
  {
    var c := PairLoadConfig(cfg, ps, cs, ls);
    assert forall x :: Selected(c, x);
    if |table| > 0 {
      assert table[0] in table;
    }
  }

  // ---------------------------------------------------------------------
  // The flexible multi-select forecast

  /** How many of the three multi-select lists are non-empty. */
  function SelectedDimensions(cfg: ForecastConfig): (r: nat)
    ensures r <= 3
    ensures r == 3 <==> |cfg.selectedProducts| > 0 && |cfg.selectedCustomers| > 0 && |cfg.selectedLocations| > 0
    ensures r == 0 <==> |cfg.selectedProducts| == 0 && |cfg.selectedCustomers| == 0 && |cfg.selectedLocations| == 0
  {
    (if |cfg.selectedProducts| > 0 then 1 else 0)
    + (if |cfg.selectedCustomers| > 0 then 1 else 0)
    + (if |cfg.selectedLocations| > 0 then 1 else 0)
  }

  /** generate_multi_forecast: fewer than two selected dimensions is an
      error, three go to the three-dimension forecast, two to the
      two-dimension one. */
  function MultiForecast(table: seq<Record>, cfg: ForecastConfig, lib: Library): (r: Result<MultiForecastResult>)
    ensures SelectedDimensions(cfg) < 2 ==> r == Err(TooFewDimensions)
    ensures SelectedDimensions(cfg) == 3 ==>
      r == ThreeDim(table, cfg, cfg.selectedProducts, cfg.selectedCustomers, cfg.selectedLocations, lib)
    ensures SelectedDimensions(cfg) == 2 ==>
      r == TwoDim(table, cfg, cfg.selectedProducts, cfg.selectedCustomers, cfg.selectedLocations, lib)
  {
    var ps, cs, ls := cfg.selectedProducts, cfg.selectedCustomers, cfg.selectedLocations;
    var count := SelectedDimensions(cfg);
    if count < 2 then Err(TooFewDimensions)
    else if count == 3 then ThreeDim(table, cfg, ps, cs, ls, lib)
    else TwoDim(table, cfg, ps, cs, ls, lib)
  }

  /** With exactly two dimensions selected, the pair chosen is those two and
      the number of combinations is the product of their sizes. */
  lemma TwoDimensionsChosen(cfg: ForecastConfig)
    requires SelectedDimensions(cfg) == 2
    ensures var (_, xs, ys) := PairChoice(cfg.selectedProducts, cfg.selectedCustomers, cfg.selectedLocations);
      |xs| * |ys| == (if |cfg.selectedProducts| > 0 then |cfg.selectedProducts| else 1)
                   * (if |cfg.selectedCustomers| > 0 then |cfg.selectedCustomers| else 1)
                   * (if |cfg.selectedLocations| > 0 then |cfg.selectedLocations| else 1)
  {
  }
}

=== FILE: forecasters.dfy ===
/** The forecasting methods of the engine. The closed-form ones (moving
    average, exponential smoothing, Holt-Winters, theta, Croston, damped
    trend, naive seasonal, drift) are modelled exactly; the ones built on a
    fitted scikit-learn or statsmodels model are calls into a `Library` the
    model does not see inside. Each method's in-sample metrics are left out:
    run_algorithm always replaces them. */
module Forecasters {
  import opened Base
  import opened Metrics
  import opened Catalog

  /** The fitted-model code the engine calls: `fit(a, y, h)` is the forecast
      algorithm a's own model produces for h periods after y, or the error it
      raises; `quadratic(y)` the in-sample values of a degree-2 polynomial
      fit; `sqrt` the square root used by the metrics. */
  datatype Library = Library(
    fit: (Algorithm, seq<real>, int) -> Result<seq<real>>,
    quadratic: seq<real> -> seq<real>,
    sqrt: real -> real)

  /** `np.full(h, v)`: h copies of v; a negative h is rejected. */
  function Full(h: int, v: real): (r: Result<seq<real>>)
    ensures r.Ok? <==> h >= 0
    ensures r.Err? ==> r.error == NegativeDimension
    ensures r.Ok? ==> |r.value| == h && forall i :: 0 <= i < h ==> r.value[i] == v
  {
    if h < 0 then Err(NegativeDimension) else Ok(seq(h, _ => v))
  }

  /** `max(0, x)`. */
  function Clip(x: real): (r: real)
    ensures r >= 0.0 && r >= x
    ensures x >= 0.0 ==> r == x
  {
    Max(0.0, x)
  }

  /** A count that `range` treats as empty when it is not positive. */
  function Count(h: int): nat
  {
    if h > 0 then h else 0
  }

  // ---------------------------------------------------------------------
  // Moving average and exponential smoothing

  /** The last min(3, n) values, the window both methods average. */
  function LastWindow(y: seq<real>): (r: seq<real>)
    requires |y| > 0
    ensures |r| == MinInt(3, |y|) && 0 < |r| <= 3
    ensures r == y[|y| - |r|..]
  {
    y[|y| - MinInt(3, |y|)..]
  }

  /** moving_average_forecast: the mean of the last min(3, n) values,
      repeated. An empty series leaves the metric call with no samples. */
  function MovingAverageForecast(y: seq<real>, h: int): (r: Result<seq<real>>)
    ensures r.Ok? <==> |y| > 0 && h >= 0
    ensures h < 0 ==> r == Err(NegativeDimension)
    ensures |y| == 0 && h >= 0 ==> r == Err(InconsistentSamples)
    ensures r.Ok? ==> |r.value| == h && forall i :: 0 <= i < h ==> r.value[i] == Mean(LastWindow(y))
  {
    if h < 0 then Err(NegativeDimension)
    else if |y| == 0 then Err(InconsistentSamples)
    else Full(h, Mean(LastWindow(y)))
  }

  /** The rolling mean of the series with window w, counting only the values
      present near the start (pandas `rolling(w, min_periods=1).mean()`). */
  function RollingMean(y: seq<real>, w: nat): (r: seq<real>)
    requires w > 0
    ensures |r| == |y|
    ensures forall i :: 0 <= i < |y| ==> r[i] == Mean(y[if i + 1 >= w then i + 1 - w else 0..i + 1])
  {
    seq(|y|, i requires 0 <= i < |y| => Mean(y[if i + 1 >= w then i + 1 - w else 0..i + 1]))
  }

  /** exponential_smoothing_forecast: the last value of the rolling mean of
      width min(3, n), repeated. Every alpha of its tuning loop computes the
      same forecast, so the loop is not modelled. A width of zero is rejected
      by pandas. */
  function SmoothingForecast(y: seq<real>, h: int): (r: Result<seq<real>>)
    ensures r.Ok? <==> |y| > 0 && h >= 0
    ensures |y| == 0 ==> r == Err(InvalidWindow)
    ensures |y| > 0 && h < 0 ==> r == Err(NegativeDimension)
    ensures r.Ok? ==> |r.value| == h
    ensures r.Ok? ==> forall i :: 0 <= i < h ==> r.value[i] == RollingMean(y, MinInt(3, |y|))[|y| - 1]
  {
    if |y| == 0 then Err(InvalidWindow)
    else
      var smoothed := RollingMean(y, MinInt(3, |y|));
      Full(h, smoothed[|y| - 1])
  }

  /** Both methods forecast the same mean of the last three values. */
  lemma SmoothingIsMovingAverageForecast(y: seq<real>, h: int)
    requires |y| > 0
    ensures SmoothingForecast(y, h) == MovingAverageForecast(y, h)
  {
    var w := MinInt(3, |y|);
    assert y[|y| - w..|y|] == LastWindow(y);
    assert RollingMean(y, w)[|y| - 1] == Mean(LastWindow(y));
  }

  /** The averaged forecast stays within the range of the last window. */
  lemma MovingAverageBounds(y: seq<real>, h: int, lo: real, hi: real)
    requires |y| > 0 && h >= 0
    requires forall i :: 0 <= i < |y| ==> lo <= y[i] <= hi
    ensures forall i :: 0 <= i < h ==> lo <= MovingAverageForecast(y, h).value[i] <= hi
  {
    var w := LastWindow(y);
    forall i | 0 <= i < |w| ensures lo <= w[i] <= hi {
      assert w[i] == y[|y| - |w| + i];
    }
    MeanBounds(w, lo, hi);
  }

  // ---------------------------------------------------------------------
  // Simple exponential smoothing with alpha 0.3

  /** s[0] = y[0], s[i] = 0.3 y[i] + 0.7 s[i - 1]: the smoothing theta, the
      in-sample fallback and Croston's method all spell out. */
  function Smoothed(y: seq<real>): (r: seq<real>)
    ensures |r| == |y|
    ensures |y| > 0 ==> r[0] == y[0]
    ensures forall i :: 0 < i < |y| ==> r[i] == 0.3 * y[i] + 0.7 * r[i - 1]
  {
    if |y| <= 1 then y
    else
      var p := Smoothed(y[..|y| - 1]);
      var r := p + [0.3 * y[|y| - 1] + 0.7 * p[|p| - 1]];
      assert forall i :: 0 < i < |y| - 1 ==> y[..|y| - 1][i] == y[i];
      r
  }

  function SmoothedLast(y: seq<real>): real
    requires |y| > 0
  {
    Smoothed(y)[|y| - 1]
  }

  /** Each smoothed value is a convex combination of the values so far, so it
      stays within any bounds the series keeps. */
  lemma {:induction false} SmoothedBounds(y: seq<real>, lo: real, hi: real)
    requires forall i :: 0 <= i < |y| ==> lo <= y[i] <= hi
    ensures forall i :: 0 <= i < |y| ==> lo <= Smoothed(y)[i] <= hi
  {
    if |y| > 1 {
      var p := y[..|y| - 1];
      SmoothedBounds(p, lo, hi);
      assert Smoothed(y)[..|y| - 1] == Smoothed(p);
    }
  }

  /** Smoothing a constant series gives the constant. */
  lemma {:induction false} SmoothedConstant(y: seq<real>, c: real)
    requires forall i :: 0 <= i < |y| ==> y[i] == c
    ensures forall i :: 0 <= i < |y| ==> Smoothed(y)[i] == c
  {
    SmoothedBounds(y, c, c);
  }

  // ---------------------------------------------------------------------
  // Holt-Winters (alpha 0.3, beta 0.1, gamma 0.1, season 12)

  const Season: nat := 12

  datatype HwState = HwState(level: real, trend: real, seasonals: seq<real>)

  predicate WellFormed(st: HwState)
  {
    |st.seasonals| == Season
  }

  /** Level: mean of the first season; trend: the change of the seasonal mean
      from the first season to the second, per period; seasonals: the first
      season's deviations from the level. */
  function HwInit(y: seq<real>): (st: HwState)
    requires |y| >= 2 * Season
    ensures WellFormed(st)
    ensures forall i :: 0 <= i < Season ==> st.seasonals[i] == y[i] - st.level
    ensures st.level == Mean(y[..Season])
    ensures st.trend * (Season as real) == Mean(y[Season..2 * Season]) - Mean(y[..Season])
  {
    var level := Mean(y[..Season]);
    var trend := (Mean(y[Season..2 * Season]) - level) / (Season as real);
    HwState(level, trend, seq(Season, i requires 0 <= i < Season => y[i] - level))
  }

  /** One update at position i >= 1. The seasonal list always has twelve
      entries, so the engine's `len(seasonals) > i` test lets only the first
      season update its seasonal factors; later positions reuse them. */
  function HwStep(st: HwState, x: real, i: nat): (r: HwState)
    requires WellFormed(st)
    ensures WellFormed(r)
    ensures i >= Season ==> r.seasonals == st.seasonals
    ensures r.level == 0.3 * (x - st.seasonals[i % Season]) + 0.7 * (st.level + st.trend)
    ensures r.trend == 0.1 * (r.level - st.level) + 0.9 * st.trend
  {
    var s := st.seasonals[i % Season];
    var level := 0.3 * (x - s) + 0.7 * (st.level + st.trend);
    var trend := 0.1 * (level - st.level) + 0.9 * st.trend;
    var seasonals := if i < Season then st.seasonals[i := 0.1 * (x - level) + 0.9 * s] else st.seasonals;
    HwState(level, trend, seasonals)
  }

  /** The updates for positions i, i + 1, ..., |y| - 1. */
  function HwRun(st: HwState, y: seq<real>, i: nat): (r: HwState)
    requires WellFormed(st)
    ensures WellFormed(r)
    decreases |y| - i
  {
    if i >= |y| then st else HwRun(HwStep(st, y[i], i), y, i + 1)
  }

  /** From the second season on, the seasonal factors no longer change. */
  lemma {:induction false} SeasonalsFrozen(st: HwState, y: seq<real>, i: nat)
    requires WellFormed(st) && i >= Season
    ensures HwRun(st, y, i).seasonals == st.seasonals
    decreases |y| - i
  {
    if i < |y| {
      SeasonalsFrozen(HwStep(st, y[i], i), y, i + 1);
    }
  }

  /** The unclipped forecast i + 1 steps ahead of a series of length n. */
  function HwRaw(st: HwState, n: nat, i: nat): real
    requires WellFormed(st)
  {
    st.level + ((i + 1) as real) * st.trend + st.seasonals[(n + i) % Season]
  }

  /** holt_winters_forecast on a series of at least two seasons: fit, then
      project level plus trend plus the seasonal factor of each future
      position, clipped at zero. A shorter series goes to exponential
      smoothing (see `Forecast`). */
  function HoltWintersForecast(y: seq<real>, h: int): (r: seq<real>)
    requires |y| >= 2 * Season
    ensures |r| == Count(h)
    ensures forall i :: 0 <= i < |r| ==> r[i] >= 0.0
    ensures forall i :: 0 <= i < |r| ==> r[i] == Clip(HwRaw(HwFit(y), |y|, i))
  {
    var st := HwFit(y);
    seq(Count(h), i requires 0 <= i < Count(h) => Clip(HwRaw(st, |y|, i)))
  }

  /** The state Holt-Winters ends in: initialised from the first two seasons,
      then updated at every position from the second on. */
  function HwFit(y: seq<real>): (st: HwState)
    requires |y| >= 2 * Season
    ensures WellFormed(st)
  {
    HwRun(HwInit(y), y, 1)
  }

  /** One season later the same seasonal factor returns and the trend has
      added twelve more steps; so under a non-negative fitted trend every
      forecast is at least the one a season before. */
  lemma HwSeasonLater(st: HwState, n: nat, i: nat)
    requires WellFormed(st)
    ensures HwRaw(st, n, i + Season) == HwRaw(st, n, i) + 12.0 * st.trend
    ensures st.trend >= 0.0 ==> Clip(HwRaw(st, n, i + Season)) >= Clip(HwRaw(st, n, i))
  {
    assert (n + (i + Season)) % Season == (n + i) % Season;
  }

  /** The forecast itself: a season later it has grown by twelve fitted trend
      steps before clipping, and never shrinks under a non-negative trend. */
  lemma HoltWintersSeasonLater(y: seq<real>, h: int, i: nat)
    requires |y| >= 2 * Season
    requires i + Season < Count(h)
    ensures HoltWintersForecast(y, h)[i + Season] == Clip(HwRaw(HwFit(y), |y|, i) + 12.0 * HwFit(y).trend)
    ensures HwFit(y).trend >= 0.0 ==> HoltWintersForecast(y, h)[i + Season] >= HoltWintersForecast(y, h)[i]
  {
    HwSeasonLater(HwFit(y), |y|, i);
  }

  /** On a constant series the state stays at level c, trend 0 and seasonal
      factors 0, so every forecast is max(0, c). */
  lemma HoltWintersConstant(y: seq<real>, h: int, c: real)
    requires |y| >= 2 * Season
    requires forall i :: 0 <= i < |y| ==> y[i] == c
    ensures HoltWintersForecast(y, h) == seq(Count(h), _ => Clip(c))
  {
    SumConstant(y[..Season], c);
    SumConstant(y[Season..2 * Season], c);
    var st0 := HwInit(y);
    assert st0.level == c;
    assert st0.trend * 12.0 == 0.0;
    var zeros := seq(Season, _ => 0.0);
    assert st0 == HwState(c, 0.0, zeros);
    HwRunConstant(y, c, 1);
    var st := HwRun(st0, y, 1);
    var r := HoltWintersForecast(y, h);
    forall i | 0 <= i < Count(h) ensures r[i] == Clip(c) {
      assert HwRaw(st, |y|, i) == c;
    }
  }

  lemma {:induction false} HwRunConstant(y: seq<real>, c: real, i: nat)
    requires forall k :: 0 <= k < |y| ==> y[k] == c
    ensures HwRun(HwState(c, 0.0, seq(Season, _ => 0.0)), y, i) == HwState(c, 0.0, seq(Season, _ => 0.0))
    decreases |y| - i
  {
    var st := HwState(c, 0.0, seq(Season, _ => 0.0));
    if i < |y| {
      var next := HwStep(st, y[i], i);
      assert next.level == c && next.trend == 0.0;
      assert next.seasonals == st.seasonals;
      HwRunConstant(y, c, i + 1);
    }
  }

  // ---------------------------------------------------------------------
  // Damped trend (alpha 0.3, beta 0.1, phi 0.8)

  datatype DampState = DampState(level: real, trend: real)

  function DampStep(st: DampState, x: real): (r: DampState)
    ensures r.level == 0.3 * x + 0.7 * (st.level + 0.8 * st.trend)
    ensures r.trend == 0.1 * (r.level - st.level) + 0.9 * 0.8 * st.trend
  {
    var level := 0.3 * x + 0.7 * (st.level + 0.8 * st.trend);
    DampState(level, 0.1 * (level - st.level) + 0.9 * 0.8 * st.trend)
  }

  function DampRun(st: DampState, y: seq<real>, i: nat): DampState
    decreases |y| - i
  {
    if i >= |y| then st else DampRun(DampStep(st, y[i]), y, i + 1)
  }

  function Power(x: real, k: nat): real
  {
    if k == 0 then 1.0 else x * Power(x, k - 1)
  }

  /** phi + phi^2 + ... + phi^k for phi = 0.8. */
  function DampSum(k: nat): real
  {
    if k == 0 then 0.0 else DampSum(k - 1) + Power(0.8, k)
  }

  /** The damping sum has the closed form 4 (1 - 0.8^k): it grows with k and
      never reaches 4, so the trend's total contribution is bounded. */
  lemma {:induction false} DampSumClosed(k: nat)
    ensures DampSum(k) == 4.0 * (1.0 - Power(0.8, k))
    ensures 0.0 < Power(0.8, k) <= 1.0
    ensures 0.0 <= DampSum(k) < 4.0
  {
    if k > 0 {
      DampSumClosed(k - 1);
    }
  }

  lemma DampSumGrows(k: nat)
    ensures DampSum(k) < DampSum(k + 1)
  {
    DampSumClosed(k + 1);
  }

  /** The unclipped forecast k steps ahead: the level plus the damped sum of
      the trend. */
  function DampRaw(st: DampState, k: nat): real
  {
    st.level + st.trend * DampSum(k)
  }

  /** Each further step moves the raw forecast in the direction of the trend,
      and never past level + 4 trend. */
  lemma DampRawSteps(st: DampState, k: nat)
    ensures st.trend >= 0.0 ==> DampRaw(st, k) <= DampRaw(st, k + 1) <= st.level + 4.0 * st.trend
    ensures st.trend <= 0.0 ==> DampRaw(st, k) >= DampRaw(st, k + 1) >= st.level + 4.0 * st.trend
  {
    DampSumGrows(k);
    DampSumClosed(k + 1);
    ScaleMonotone(st.trend, DampSum(k), DampSum(k + 1));
    ScaleMonotone(st.trend, DampSum(k + 1), 4.0);
  }

  /** The state the damped trend method ends in on a series of at least two
      points. */
  function DampFit(y: seq<real>): DampState
    requires |y| >= 2
  {
    DampRun(DampState(y[0], y[1] - y[0]), y, 1)
  }

  /** damped_trend_forecast on at least three points: start from level y[0]
      and trend y[1] - y[0], smooth through y[1..], and add the damped trend
      sum to the level for each step ahead, clipped at zero. */
  function DampedForecast(y: seq<real>, h: int): (r: seq<real>)
    requires |y| >= 3
    ensures |r| == Count(h)
    ensures forall i :: 0 <= i < |r| ==> r[i] == Clip(DampRaw(DampFit(y), i + 1))
  {
    var st := DampFit(y);
    seq(Count(h), i requires 0 <= i < Count(h) => Clip(DampRaw(st, i + 1)))
  }

  /** The forecast is never negative and moves in the direction of the fitted
      trend step by step, never past max(0, level + 4 trend). */
  lemma DampedShape(y: seq<real>, h: int, i: nat)
    requires |y| >= 3 && i + 1 < Count(h)
    ensures DampedForecast(y, h)[i] >= 0.0
    ensures DampFit(y).trend >= 0.0 ==>
      DampedForecast(y, h)[i] <= DampedForecast(y, h)[i + 1] <= Clip(DampFit(y).level + 4.0 * DampFit(y).trend)
    ensures DampFit(y).trend <= 0.0 ==> DampedForecast(y, h)[i] >= DampedForecast(y, h)[i + 1]
  {
    DampRawSteps(DampFit(y), i + 1);
  }

  /** On a constant series the level stays c and the trend 0. */
  lemma DampedConstant(y: seq<real>, h: int, c: real)
    requires |y| >= 3
    requires forall i :: 0 <= i < |y| ==> y[i] == c
    ensures DampedForecast(y, h) == seq(Count(h), _ => Clip(c))
  {
    assert DampState(y[0], y[1] - y[0]) == DampState(c, 0.0);
    DampRunConstant(y, c, 1);
    var r := DampedForecast(y, h);
    forall i | 0 <= i < |r| ensures r[i] == Clip(c) {
      assert DampRaw(DampState(c, 0.0), i + 1) == c + 0.0 * DampSum(i + 1);
    }
  }

  lemma {:induction false} DampRunConstant(y: seq<real>, c: real, i: nat)
    requires forall k :: 0 <= k < |y| ==> y[k] == c
    ensures DampRun(DampState(c, 0.0), y, i) == DampState(c, 0.0)
    decreases |y| - i
  {
    if i < |y| {
      assert DampStep(DampState(c, 0.0), y[i]) == DampState(c, 0.0);
      DampRunConstant(y, c, i + 1);
    }
  }

  // ---------------------------------------------------------------------
  // Theta method

  /** The two theta lines: theta 0 flattens the series to its mean, theta 2
      doubles each deviation from the mean. */
  function ThetaLine(y: seq<real>, theta: real): (r: seq<real>)
    requires |y| > 0
    ensures |r| == |y|
    ensures forall i :: 0 <= i < |y| ==> r[i] == Mean(y) + (y[i] - Mean(y)) * theta
  {
    var m := Mean(y);
    seq(|y|, i requires 0 <= i < |y| => m + (y[i] - m) * theta)
  }

  /** The theta-0 line is the mean everywhere, so its least-squares fit is
      the flat line at the mean. */
  lemma ThetaZeroFit(y: seq<real>)
    requires |y| > 0
    ensures Ols(Positions(|y|), ThetaLine(y, 0.0)) == Line(0.0, Mean(y))
  {
    var m := Mean(y);
    var line := ThetaLine(y, 0.0);
    forall i | 0 <= i < |y| ensures line[i] == m {
      assert line[i] == m + (y[i] - m) * 0.0;
    }
    OlsConstant(Positions(|y|), line, m);
  }

  /** A fitted line's unclipped values at positions n, ..., n + h - 1. */
  function Predictions(line: Line, n: nat, h: nat): (r: seq<real>)
    ensures |r| == h
    ensures forall i :: 0 <= i < h ==> r[i] == Predict(line, (n + i) as real)
  {
    seq(h, i requires 0 <= i < h => Predict(line, (n + i) as real))
  }

  /** The value the theta method forecasts at every step. */
  function ThetaLevel(y: seq<real>): real
    requires |y| > 0
  {
    Clip((Mean(y) + SmoothedLast(ThetaLine(y, 2.0))) / 2.0)
  }

  /** theta_method_forecast on at least three points: the average of the
      least-squares extrapolation of the theta-0 line and the last smoothed
      value of the theta-2 line, clipped at zero. Predicting no future
      points is rejected by scikit-learn. */
  function ThetaForecast(y: seq<real>, h: int): (r: Result<seq<real>>)
    requires |y| >= 3
    ensures r.Ok? <==> h > 0
    ensures r.Err? ==> r.error == InconsistentSamples
    ensures r.Ok? ==> |r.value| == h && forall i :: 0 <= i < h ==> r.value[i] == ThetaLevel(y)
  {
    var model := Ols(Positions(|y|), ThetaLine(y, 0.0));
    var s := SmoothedLast(ThetaLine(y, 2.0));
    if h <= 0 then Err(InconsistentSamples)
    else
      var forecast1 := Predictions(model, |y|, h);
      ThetaZeroFit(y);
      assert forall i :: 0 <= i < h ==> forecast1[i] == Mean(y);
      Ok(seq(h, i requires 0 <= i < h => Clip((forecast1[i] + s) / 2.0)))
  }

  /** On a constant series both theta lines are the constant, and so is the
      forecast (clipped at zero). */
  lemma ThetaConstant(y: seq<real>, h: int, c: real)
    requires |y| >= 3 && h > 0
    requires forall i :: 0 <= i < |y| ==> y[i] == c
    ensures ThetaForecast(y, h) == Ok(seq(h, _ => Clip(c)))
  {
    SumConstant(y, c);
    assert Mean(y) == c;
    var line2 := ThetaLine(y, 2.0);
    forall i | 0 <= i < |y| ensures line2[i] == c {
      assert line2[i] == c + (c - c) * 2.0;
    }
    SmoothedConstant(line2, c);
    assert SmoothedLast(line2) == c;
    assert ThetaLevel(y) == Clip(c);
    var r := ThetaForecast(y, h).value;
    assert r == seq(h, _ => Clip(c));
  }

  // ---------------------------------------------------------------------
  // Croston's method

  /** The positions (counted from off) of the strictly positive values. */
  function PositiveIndices(y: seq<real>, off: nat): (r: seq<nat>)
    ensures |r| == CountPositive(y)
    ensures forall i :: 0 <= i < |r| ==> off <= r[i] < off + |y| && y[r[i] - off] > 0.0
    ensures forall i, j :: 0 <= i < j < |r| ==> r[i] < r[j]
  {
    if |y| == 0 then []
    else
      var rest := PositiveIndices(y[1..], off + 1);
      if y[0] > 0.0 then [off] + rest else rest
  }

  /** No demand is missed: every positive value's position is listed. */
  lemma {:induction false} PositiveIndicesComplete(y: seq<real>, off: nat, k: nat)
    requires k < |y| && y[k] > 0.0
    ensures off + k in PositiveIndices(y, off)
  {
    if k > 0 {
      assert y[1..][k - 1] == y[k];
      PositiveIndicesComplete(y[1..], off + 1, k - 1);
    }
  }

  /** Each value smoothed from positive values is positive. */
  lemma {:induction false} SmoothedPositive(y: seq<real>)
    requires forall i :: 0 <= i < |y| ==> y[i] > 0.0
    ensures forall i :: 0 <= i < |y| ==> Smoothed(y)[i] > 0.0
  {
    if |y| > 1 {
      var p := y[..|y| - 1];
      SmoothedPositive(p);
      assert Smoothed(y)[..|y| - 1] == Smoothed(p);
    }
  }

  /** The demand sizes and the gaps between consecutive demands. */
  function DemandSizes(y: seq<real>): (r: seq<real>)
    ensures |r| == CountPositive(y)
    ensures forall i :: 0 <= i < |r| ==> r[i] > 0.0
  {
    var idx := PositiveIndices(y, 0);
    seq(|idx|, i requires 0 <= i < |idx| => y[idx[i]])
  }

  function DemandGaps(y: seq<real>): (r: seq<real>)
    requires CountPositive(y) >= 1
    ensures |r| == CountPositive(y) - 1
    ensures forall i :: 0 <= i < |r| ==> 1.0 <= r[i] <= |y| as real
  {
    var idx := PositiveIndices(y, 0);
    seq(|idx| - 1, i requires 0 <= i < |idx| - 1 => (idx[i + 1] - idx[i]) as real)
  }

  /** Smoothed demand size over smoothed gap; both are positive, the gap at
      least one period. */
  function CrostonRate(y: seq<real>): (r: real)
    requires CountPositive(y) >= 2
    ensures r > 0.0
  {
    var sizes, gaps := DemandSizes(y), DemandGaps(y);
    SmoothedPositive(sizes);
    SmoothedBounds(gaps, 1.0, |y| as real);
    DivBounds(SmoothedLast(sizes), SmoothedLast(gaps));
    SmoothedLast(sizes) / SmoothedLast(gaps)
  }

  /** croston_forecast on at least three points with two demands: the
      smoothed demand size over the smoothed gap between demands, repeated
      (the engine's clipping at zero never bites, the rate being positive). */
  function CrostonForecast(y: seq<real>, h: int): (r: Result<seq<real>>)
    requires |y| >= 3 && CountPositive(y) >= 2
    ensures r.Ok? <==> h >= 0
    ensures r.Ok? ==> |r.value| == h && forall i :: 0 <= i < h ==> r.value[i] == CrostonRate(y) > 0.0
  {
    Full(h, Clip(CrostonRate(y)))
  }

  /** Croston's forecast never exceeds the largest demand, since the smoothed
      gap is at least one period. */
  lemma CrostonBounds(y: seq<real>, h: int, hi: real)
    requires |y| >= 3 && CountPositive(y) >= 2 && h >= 0
    requires forall i :: 0 <= i < |y| ==> y[i] <= hi
    ensures forall i :: 0 <= i < h ==> CrostonForecast(y, h).value[i] <= hi
  {
    var sizes, gaps := DemandSizes(y), DemandGaps(y);
    var idx := PositiveIndices(y, 0);
    SmoothedPositive(sizes);
    forall i | 0 <= i < |sizes| ensures 0.0 <= sizes[i] <= hi {
      assert sizes[i] == y[idx[i]];
    }
    SmoothedBounds(sizes, 0.0, hi);
    SmoothedBounds(gaps, 1.0, |y| as real);
    DivBounds(SmoothedLast(sizes), SmoothedLast(gaps));
  }

  // ---------------------------------------------------------------------
  // Methods with a short-series branch of their own

  /** The fallback of the short-series branches: the first observation (zero
      for an empty series) repeated h times; a negative h is rejected as
      `np.full` rejects it. */
  function FirstValueRepeated(y: seq<real>, h: int): (r: Result<seq<real>>)
    ensures r.Ok? <==> h >= 0
    ensures r.Err? ==> r.error == NegativeDimension
    ensures r.Ok? ==> |r.value| == h
    ensures r.Ok? && |y| > 0 ==> forall i :: 0 <= i < h ==> r.value[i] == y[0]
    ensures r.Ok? && |y| == 0 ==> forall i :: 0 <= i < h ==> r.value[i] == 0.0
  {
    Full(h, if |y| > 0 then y[0] else 0.0)
  }

  /** ses_forecast: below two points, the first value repeated; otherwise the
      statsmodels search. When no configuration fits, the method calls itself
      on the same data without end. */
  function SesForecast(y: seq<real>, h: int, lib: Library): (r: Result<seq<real>>)
    ensures |y| < 2 ==> r == FirstValueRepeated(y, h)
    ensures |y| >= 2 && lib.fit(Ses, y, h).Err? ==> r == Err(RecursionLimit)
    ensures |y| >= 2 && lib.fit(Ses, y, h).Ok? ==> r == lib.fit(Ses, y, h)
  {
    if |y| < 2 then FirstValueRepeated(y, h)
    else
      match lib.fit(Ses, y, h)
      case Ok(f) => Ok(f)
      case Err(_) => Err(RecursionLimit)
  }

  /** Python indexing: a negative index counts from the end. */
  function PyIndex(y: seq<real>, k: int): (r: Result<real>)
    ensures r.Ok? <==> -|y| <= k < |y|
    ensures r.Ok? ==> r.value == y[if k < 0 then |y| + k else k]
    ensures r.Err? ==> r.error == IndexOutOfRange
  {
    if 0 <= k < |y| then Ok(y[k])
    else if -|y| <= k < 0 then Ok(y[|y| + k])
    else Err(IndexOutOfRange)
  }

  /** The value naive_seasonal_forecast reads for future position i with
      season s: y[-(s - idx)] when idx < n, else y[-1]. */
  function NaiveValue(y: seq<real>, s: nat, i: nat): Result<real>
    requires s > 0
  {
    var idx := (|y| + i) % s;
    if idx < |y| then PyIndex(y, -(s - idx)) else PyIndex(y, -1)
  }

  /** The values of a sequence of results, or the first error among them. */
  function Collect(rs: seq<Result<real>>): (r: Result<seq<real>>)
    ensures r.Ok? <==> forall i :: 0 <= i < |rs| ==> rs[i].Ok?
    ensures r.Ok? ==> |r.value| == |rs| && forall i :: 0 <= i < |rs| ==> r.value[i] == rs[i].value
  {
    if |rs| == 0 then Ok([])
    else
      match rs[0]
      case Err(e) => Err(e)
      case Ok(v) =>
        match Collect(rs[1..])
        case Err(e) => Err(e)
        case Ok(vs) => Ok([v] + vs)
  }

  /** With a season no longer than the series, every read lands inside it,
      on the value one whole season before the position it fills. */
  lemma NaiveValueReads(y: seq<real>, s: nat, i: nat)
    requires 0 < s <= |y|
    ensures NaiveValue(y, s, i) == Ok(y[|y| - s + (|y| + i) % s])
  {
  }

  /** naive_seasonal_forecast: below two points, the first value repeated;
      otherwise the last season (of length min(12, n)) repeated in step with
      the calendar position. */
  function NaiveForecast(y: seq<real>, h: int): (r: Result<seq<real>>)
    ensures |y| < 2 ==> r == FirstValueRepeated(y, h)
    ensures |y| >= 2 ==> r.Ok? && |r.value| == Count(h)
    ensures |y| >= 2 ==> forall i :: 0 <= i < Count(h) ==>
      r.value[i] == y[|y| - MinInt(12, |y|) + (|y| + i) % MinInt(12, |y|)]
  {
    if |y| < 2 then FirstValueRepeated(y, h)
    else
      var s := MinInt(12, |y|);
      var rs := seq(Count(h), i requires 0 <= i < Count(h) => NaiveValue(y, s, i));
      forall i | 0 <= i < Count(h) ensures rs[i] == Ok(y[|y| - s + (|y| + i) % s]) {
        NaiveValueReads(y, s, i);
      }
      Collect(rs)
  }

  /** The naive seasonal forecast repeats with the season length, and each
      of its values is one of the last season's observations. */
  lemma NaivePeriodic(y: seq<real>, h: int, i: nat)
    requires |y| >= 2 && i < Count(h)
    ensures i + MinInt(12, |y|) < Count(h) ==>
      NaiveForecast(y, h).value[i + MinInt(12, |y|)] == NaiveForecast(y, h).value[i]
    ensures NaiveForecast(y, h).value[i] in y[|y| - MinInt(12, |y|)..]
  {
    var n, s := |y|, MinInt(12, |y|);
    if i + s < Count(h) {
      SameResidue(n + i, s);
      assert n + (i + s) == (n + i) + s;
    }
    NaiveInWindow(y, s, (n + i) % s);
  }

  lemma NaiveInWindow(y: seq<real>, s: nat, k: nat)
    requires 0 <= k < s <= |y|
    ensures y[|y| - s + k] in y[|y| - s..]
  {
    assert y[|y| - s..][k] == y[|y| - s + k];
  }

  /** The fitted line's value at position t, clipped at zero. */
  function Extend(line: Line, t: nat): (r: real)
    ensures r >= 0.0 && r >= Predict(line, t as real)
  {
    Clip(Predict(line, t as real))
  }

  /** The line's clipped values at positions n, n + 1, ..., n + h - 1. */
  function Extrapolate(line: Line, n: nat, h: nat): (r: seq<real>)
    ensures |r| == h
    ensures forall i :: 0 <= i < h ==> r[i] == Extend(line, n + i) && r[i] >= 0.0
  {
    seq(h, i requires 0 <= i < h => Extend(line, n + i))
  }

  /** drift_method_forecast: below two points, the first value repeated;
      otherwise the least-squares line through (t, y[t]) extended to
      t = n, n + 1, ..., clipped at zero. Predicting no points is rejected. */
  function DriftForecast(y: seq<real>, h: int): (r: Result<seq<real>>)
    ensures |y| < 2 ==> r == FirstValueRepeated(y, h)
    ensures |y| >= 2 ==> (r.Ok? <==> h > 0)
    ensures |y| >= 2 && r.Err? ==> r.error == InconsistentSamples
    ensures |y| >= 2 && r.Ok? ==> |r.value| == h && forall i :: 0 <= i < h ==> r.value[i] >= 0.0
  {
    if |y| < 2 then FirstValueRepeated(y, h)
    else if h <= 0 then Err(InconsistentSamples)
    else
      Ok(Extrapolate(Ols(Positions(|y|), y), |y|, h))
  }

  /** On a series lying on the line a t + b the drift forecast continues the
      line (clipped at zero). */
  lemma DriftOnLine(y: seq<real>, h: int, a: real, b: real)
    requires |y| >= 2 && h > 0
    requires forall i :: 0 <= i < |y| ==> y[i] == a * (i as real) + b
    ensures forall i :: 0 <= i < h ==> DriftForecast(y, h).value[i] == Clip(a * ((|y| + i) as real) + b)
  {
    DriftRecoversLine(y, a, b);
    DriftUsesOls(y, h);
    ExtrapolateLine(a, b, |y|, h);
  }

  lemma DriftRecoversLine(y: seq<real>, a: real, b: real)
    requires |y| >= 2
    requires forall i :: 0 <= i < |y| ==> y[i] == a * (i as real) + b
    ensures Ols(Positions(|y|), y) == Line(a, b)
  {
    var xs := Positions(|y|);
    PositionsSpread(|y|);
    forall i | 0 <= i < |xs| ensures y[i] == a * xs[i] + b {
      assert xs[i] == i as real;
    }
    OlsRecoversLine(xs, y, a, b);
  }

  lemma DriftUsesOls(y: seq<real>, h: int)
    requires |y| >= 2 && h > 0
    ensures DriftForecast(y, h) == Ok(Extrapolate(Ols(Positions(|y|), y), |y|, h))
  {
  }

  lemma ExtrapolateLine(a: real, b: real, n: nat, h: nat)
    ensures forall i :: 0 <= i < h ==> Extrapolate(Line(a, b), n, h)[i] == Clip(a * ((n + i) as real) + b)
  {
    forall i | 0 <= i < h ensures Extrapolate(Line(a, b), n, h)[i] == Clip(a * ((n + i) as real) + b) {
      assert Predict(Line(a, b), (n + i) as real) == a * ((n + i) as real) + b;
    }
  }

  lemma DriftExample(y: seq<real>)
    requires y == [10.0, 12.0, 14.0, 16.0, 18.0, 20.0]
    ensures DriftForecast(y, 3) == Ok([22.0, 24.0, 26.0])
  {
    assert forall i :: 0 <= i < |y| ==> y[i] == 2.0 * (i as real) + 10.0 by {
      forall i | 0 <= i < |y| ensures y[i] == 2.0 * (i as real) + 10.0 {
      }
    }
    DriftOnLine(y, 3, 2.0, 10.0);
    var r := DriftForecast(y, 3).value;
    assert r == [22.0, 24.0, 26.0] by {
      assert r[0] == Clip(2.0 * ((6 + 0) as real) + 10.0) == 22.0;
      assert r[1] == Clip(2.0 * ((6 + 1) as real) + 10.0) == 24.0;
      assert r[2] == Clip(2.0 * ((6 + 2) as real) + 10.0) == 26.0;
    }
  }

  // ---------------------------------------------------------------------
  // Dispatch

  /** The number of training rows a sliding window of min(w, n - 1) lags
      leaves; random forest, XGBoost, SVR, KNN, the neural network and the
      LSTM-like method fall back when it is too small. */
  function WindowRows(n: nat, w: nat): int
  {
    n - MinInt(w, n - 1)
  }

  /** The forecast each algorithm's method returns for h periods after y,
      following the source's own chain of size checks and hand-offs. */
  function Forecast(a: Algorithm, y: seq<real>, h: int, lib: Library): (r: Result<seq<real>>)
    ensures Fallback(a, y).Some? ==> r == Forecast(Fallback(a, y).value, y, h, lib)
    decreases Depth(a)
  {
    var n := |y|;
    var linear := lib.fit(LinearRegression, y, h);
    match a
    case LinearRegression => linear
    case PolynomialRegression => lib.fit(a, y, h)
    case ExponentialSmoothing => SmoothingForecast(y, h)
    case HoltWinters => if n < 2 * Season then SmoothingForecast(y, h) else Ok(HoltWintersForecast(y, h))
    case Arima => if n < 3 then SmoothingForecast(y, h) else lib.fit(a, y, h)
    case RandomForest =>
      if n == 0 then Err(IndexOutOfRange)
      else if WindowRows(n, 5) < 3 then linear
      else lib.fit(a, y, h)
    case SeasonalDecomposition => if n < 2 * Season then linear else lib.fit(a, y, h)
    case MovingAverage => MovingAverageForecast(y, h)
    case Sarima => if n < 24 then Forecast(Arima, y, h, lib) else lib.fit(a, y, h)
    case ProphetLike => if n < 4 then linear else lib.fit(a, y, h)
    case LstmLike =>
      if n < 6 || WindowRows(n, 5) < 2 then linear
      else (match lib.fit(a, y, h) case Ok(f) => Ok(f) case Err(_) => linear)
    case Xgboost =>
      if n < 6 then linear
      else if WindowRows(n, 4) < 3 then Forecast(RandomForest, y, h, lib)
      else lib.fit(a, y, h)
    case Svr => if n < 4 || WindowRows(n, 3) < 2 then linear else lib.fit(a, y, h)
    case Knn => if n < 6 || WindowRows(n, 4) < 3 then linear else lib.fit(a, y, h)
    case GaussianProcess =>
      if n < 4 then linear
      else (match lib.fit(a, y, h) case Ok(f) => Ok(f) case Err(_) => linear)
    case NeuralNetwork => if n < 6 || WindowRows(n, 5) < 3 then linear else lib.fit(a, y, h)
    case ThetaMethod => if n < 3 then linear else ThetaForecast(y, h)
    case Croston => if n < 3 || CountPositive(y) < 2 then SmoothingForecast(y, h) else CrostonForecast(y, h)
    case Ses => SesForecast(y, h, lib)
    case DampedTrend => if n < 3 then SmoothingForecast(y, h) else Ok(DampedForecast(y, h))
    case NaiveSeasonal => NaiveForecast(y, h)
    case DriftMethod => DriftForecast(y, h)
  }

  /** What an algorithm's own method does with a series it keeps (the
      LSTM-like and Gaussian process methods still turn a library failure
      into linear regression). */
  function Own(a: Algorithm, y: seq<real>, h: int, lib: Library): Result<seq<real>>
    requires Fallback(a, y) == None
  {
    match a
    case ExponentialSmoothing => SmoothingForecast(y, h)
    case MovingAverage => MovingAverageForecast(y, h)
    case HoltWinters => Ok(HoltWintersForecast(y, h))
    case RandomForest => if |y| == 0 then Err(IndexOutOfRange) else lib.fit(a, y, h)
    case LstmLike | GaussianProcess =>
      (match lib.fit(a, y, h) case Ok(f) => Ok(f) case Err(_) => lib.fit(LinearRegression, y, h))
    case ThetaMethod => ThetaForecast(y, h)
    case Croston => CrostonForecast(y, h)
    case Ses => SesForecast(y, h, lib)
    case DampedTrend => Ok(DampedForecast(y, h))
    case NaiveSeasonal => NaiveForecast(y, h)
    case DriftMethod => DriftForecast(y, h)
    case _ => lib.fit(a, y, h)
  }

  /** The source's chain of size checks computes exactly the hand-off table:
      every algorithm's forecast is the own method of the algorithm its
      series is routed to. */
  lemma ForecastFollowsRoute(a: Algorithm, y: seq<real>, h: int, lib: Library)
    ensures Forecast(a, y, h, lib) == Own(Route(a, y), y, h, lib)
  {
    match a
    case Sarima =>
      if |y| < 24 {
        StatisticalFollowsRoute(Arima, y, h, lib);
        assert Route(Sarima, y) == Route(Arima, y);
        assert Forecast(Sarima, y, h, lib) == Forecast(Arima, y, h, lib);
      } else {
        assert Forecast(Sarima, y, h, lib) == lib.fit(Sarima, y, h);
      }
    case Xgboost =>
      if |y| == 6 {
        WindowedFollowsRoute(RandomForest, y, h, lib);
        assert Route(Xgboost, y) == Route(RandomForest, y);
        assert Forecast(Xgboost, y, h, lib) == Forecast(RandomForest, y, h, lib);
      } else {
        assert Route(Xgboost, y) == if |y| < 6 then LinearRegression else Xgboost;
      }
    case LinearRegression | PolynomialRegression | ExponentialSmoothing | MovingAverage | Ses | NaiveSeasonal | DriftMethod =>
      KeptFollowsRoute(a, y, h, lib);
    case HoltWinters | Arima | SeasonalDecomposition | ProphetLike | ThetaMethod | Croston | DampedTrend =>
      StatisticalFollowsRoute(a, y, h, lib);
    case RandomForest | LstmLike | Svr | Knn | GaussianProcess | NeuralNetwork =>
      WindowedFollowsRoute(a, y, h, lib);
  }

  /** The algorithms that never hand a series on. */
  lemma KeptFollowsRoute(a: Algorithm, y: seq<real>, h: int, lib: Library)
    requires a.LinearRegression? || a.PolynomialRegression? || a.ExponentialSmoothing? || a.MovingAverage?
      || a.Ses? || a.NaiveSeasonal? || a.DriftMethod?
    ensures Forecast(a, y, h, lib) == Own(Route(a, y), y, h, lib)
  {
  }

  /** The statistical methods, which hand short series to exponential
      smoothing or linear regression. */
  lemma StatisticalFollowsRoute(a: Algorithm, y: seq<real>, h: int, lib: Library)
    requires a.HoltWinters? || a.Arima? || a.SeasonalDecomposition? || a.ProphetLike?
      || a.ThetaMethod? || a.Croston? || a.DampedTrend?
    ensures Forecast(a, y, h, lib) == Own(Route(a, y), y, h, lib)
  {
  }

  /** The sliding-window learners, which hand short series to linear
      regression. */
  lemma WindowedFollowsRoute(a: Algorithm, y: seq<real>, h: int, lib: Library)
    requires a.RandomForest? || a.LstmLike? || a.Svr? || a.Knn? || a.GaussianProcess? || a.NeuralNetwork?
    ensures Forecast(a, y, h, lib) == Own(Route(a, y), y, h, lib)
  {
  }
}

=== FILE: metrics.dfy ===
/** Accuracy metrics (calculate_metrics), ordinary least squares as the
    engine's LinearRegression and linregress calls compute it on one feature,
    and the trend classification (calculate_trend). */
module Metrics {
  import opened Base

  datatype Metrics = Metrics(accuracy: real, mae: real, rmse: real)

  datatype Trend = Increasing | Decreasing | Stable

  /** |a - p| relative to the actual value, where a zero actual divides by 1. */
  function RelativeError(a: real, p: real): (r: real)
    ensures r >= 0.0
    ensures a == 0.0 ==> r == Abs(p)
    ensures a != 0.0 ==> r * Abs(a) == Abs(a - p)
  {
    var d := if a != 0.0 then a else 1.0;
    var q := (a - p) / d;
    assert q * d == a - p;
    AbsProduct(q, d);
    Abs(q)
  }

  function RelativeErrors(actual: seq<real>, predicted: seq<real>): (r: seq<real>)
    requires |actual| == |predicted|
    ensures |r| == |actual|
    ensures forall i :: 0 <= i < |r| ==> r[i] == RelativeError(actual[i], predicted[i])
  {
    seq(|actual|, i requires 0 <= i < |actual| => RelativeError(actual[i], predicted[i]))
  }

  function AbsoluteErrors(actual: seq<real>, predicted: seq<real>): (r: seq<real>)
    requires |actual| == |predicted|
    ensures |r| == |actual|
    ensures forall i :: 0 <= i < |r| ==> r[i] == Abs(actual[i] - predicted[i])
  {
    seq(|actual|, i requires 0 <= i < |actual| => Abs(actual[i] - predicted[i]))
  }

  function SquaredErrors(actual: seq<real>, predicted: seq<real>): (r: seq<real>)
    requires |actual| == |predicted|
    ensures |r| == |actual|
    ensures forall i :: 0 <= i < |r| ==> r[i] == (actual[i] - predicted[i]) * (actual[i] - predicted[i])
  {
    seq(|actual|, i requires 0 <= i < |actual| => (actual[i] - predicted[i]) * (actual[i] - predicted[i]))
  }

  /** Mean absolute percentage error, in percent. */
  function Mape(actual: seq<real>, predicted: seq<real>): real
    requires |actual| == |predicted| > 0
  {
    Mean(RelativeErrors(actual, predicted)) * 100.0
  }

  /** calculate_metrics: accuracy is 100 - MAPE held within [0, 99.9], mae the
      mean absolute error, rmse the square root of the mean squared error.
      sklearn rejects empty or mismatched inputs. */
  function CalculateMetrics(actual: seq<real>, predicted: seq<real>, sqrt: real -> real): (r: Result<Metrics>)
    ensures r.Ok? <==> |actual| == |predicted| > 0
    ensures r.Err? ==> r.error == InconsistentSamples
    ensures r.Ok? ==> 0.0 <= r.value.accuracy <= 99.9 && r.value.mae >= 0.0
    ensures r.Ok? ==> r.value.rmse == sqrt(Mean(SquaredErrors(actual, predicted)))
  {
    if |actual| != |predicted| || |actual| == 0 then Err(InconsistentSamples)
    else
      var mape := Mape(actual, predicted);
      var accuracy := if 100.0 - mape > 0.0 then 100.0 - mape else 0.0;
      var mae := Mean(AbsoluteErrors(actual, predicted));
      MeanNonNegative(AbsoluteErrors(actual, predicted));
      Ok(Metrics(Min(accuracy, 99.9), mae, sqrt(Mean(SquaredErrors(actual, predicted)))))
  }

  lemma MeanNonNegative(s: seq<real>)
    requires |s| > 0
    requires forall i :: 0 <= i < |s| ==> s[i] >= 0.0
    ensures Mean(s) >= 0.0
  {
    SumNonNegative(s);
  }

  /** MAPE is never negative, and is zero exactly on a perfect prediction. */
  lemma MapeZeroIffExact(actual: seq<real>, predicted: seq<real>)
    requires |actual| == |predicted| > 0
    ensures Mape(actual, predicted) >= 0.0
    ensures Mape(actual, predicted) == 0.0 <==> actual == predicted
  {
    var e := RelativeErrors(actual, predicted);
    SumNonNegative(e);
    SumZeroIffAllZero(e);
    if Mape(actual, predicted) == 0.0 {
      assert Sum(e) == 0.0;
      forall i | 0 <= i < |actual| ensures actual[i] == predicted[i] {
        assert e[i] == 0.0;
      }
    }
  }

  /** The accuracy reaches its cap of 99.9 exactly when MAPE is at most 0.1%,
      and is zero exactly when MAPE is at least 100%. */
  lemma AccuracyCaps(actual: seq<real>, predicted: seq<real>, sqrt: real -> real)
    requires |actual| == |predicted| > 0
    ensures CalculateMetrics(actual, predicted, sqrt).value.accuracy == 99.9 <==> Mape(actual, predicted) <= 0.1
    ensures CalculateMetrics(actual, predicted, sqrt).value.accuracy == 0.0 <==> Mape(actual, predicted) >= 100.0
  {
  }

  /** The mean absolute error is zero exactly on a perfect prediction. */
  lemma MaeZeroIffExact(actual: seq<real>, predicted: seq<real>, sqrt: real -> real)
    requires |actual| == |predicted| > 0
    ensures CalculateMetrics(actual, predicted, sqrt).value.mae == 0.0 <==> actual == predicted
  {
    var e := AbsoluteErrors(actual, predicted);
    SumNonNegative(e);
    SumZeroIffAllZero(e);
    if Mean(e) == 0.0 {
      assert Sum(e) == 0.0;
      forall i | 0 <= i < |actual| ensures actual[i] == predicted[i] {
        assert e[i] == 0.0;
      }
    }
  }

  /** A perfect prediction scores 99.9, mae 0 and rmse sqrt(0). */
  lemma PerfectFit(actual: seq<real>, sqrt: real -> real)
    requires |actual| > 0
    ensures CalculateMetrics(actual, actual, sqrt) == Ok(Metrics(99.9, 0.0, sqrt(0.0)))
  {
    MapeZeroIffExact(actual, actual);
    MaeZeroIffExact(actual, actual, sqrt);
    var sq := SquaredErrors(actual, actual);
    SumConstant(sq, 0.0);
  }

  /** Positions 0, 1, ..., n - 1 as reals. */
  function Positions(n: nat): (r: seq<real>)
    ensures |r| == n
    ensures forall i :: 0 <= i < n ==> r[i] == i as real
  {
    seq(n, i requires 0 <= i < n => i as real)
  }

  function Centered(s: seq<real>): (r: seq<real>)
    requires |s| > 0
    ensures |r| == |s|
    ensures forall i :: 0 <= i < |s| ==> r[i] == s[i] - Mean(s)
  {
    var m := Mean(s);
    seq(|s|, i requires 0 <= i < |s| => s[i] - m)
  }

  function Dot(a: seq<real>, b: seq<real>): real
    requires |a| == |b|
  {
    if |a| == 0 then 0.0 else a[0] * b[0] + Dot(a[1..], b[1..])
  }

  datatype Line = Line(slope: real, intercept: real)

  function Predict(line: Line, x: real): real
  {
    line.intercept + line.slope * x
  }

  /** What is left of each target after the line's prediction. */
  function Residuals(xs: seq<real>, ys: seq<real>, line: Line): (r: seq<real>)
    requires |xs| == |ys|
    ensures |r| == |xs|
    ensures forall i :: 0 <= i < |xs| ==> r[i] == ys[i] - Predict(line, xs[i])
  {
    seq(|xs|, i requires 0 <= i < |xs| => ys[i] - Predict(line, xs[i]))
  }

  /** Least squares on one feature: slope Sxy / Sxx (zero when the feature is
      constant, the minimum-norm solution), through the point of means. The
      two ensures that mention residuals are the normal equations: the line
      passes through the means, and the residuals are uncorrelated with the
      feature, which (see OlsUnique) singles the least-squares line out. */
  function Ols(xs: seq<real>, ys: seq<real>): (r: Line)
    requires |xs| == |ys| > 0
    ensures Predict(r, Mean(xs)) == Mean(ys)
    ensures Dot(Centered(xs), Centered(xs)) != 0.0 ==> Dot(Centered(xs), Residuals(xs, ys, r)) == 0.0
    ensures Dot(Centered(xs), Centered(xs)) == 0.0 ==> r.slope == 0.0
  {
    var cx := Centered(xs);
    var sxx := Dot(cx, cx);
    var slope := if sxx == 0.0 then 0.0 else Dot(cx, Centered(ys)) / sxx;
    ResidualsCentered(xs, ys, slope);
    QuotientScaled(Dot(cx, Centered(ys)), sxx);
    Line(slope, Mean(ys) - slope * Mean(xs))
  }

  lemma QuotientScaled(a: real, s: real)
    ensures s != 0.0 ==> a / s * s == a
  {
  }

  /** For a line through the point of means, the residuals' product with the
      centred feature is Sxy - slope * Sxx. */
  lemma ResidualsCentered(xs: seq<real>, ys: seq<real>, slope: real)
    requires |xs| == |ys| > 0
    ensures Dot(Centered(xs), Residuals(xs, ys, Line(slope, Mean(ys) - slope * Mean(xs))))
      == Dot(Centered(xs), Centered(ys)) - slope * Dot(Centered(xs), Centered(xs))
  {
    var cx, cy := Centered(xs), Centered(ys);
    var res := Residuals(xs, ys, Line(slope, Mean(ys) - slope * Mean(xs)));
    forall i | 0 <= i < |xs| ensures res[i] == cy[i] - slope * cx[i] {
    }
    DotMinusScaled(cx, res, cy, slope);
  }

  lemma {:induction false} DotMinusScaled(u: seq<real>, v: seq<real>, w: seq<real>, a: real)
    requires |u| == |v| == |w|
    requires forall i :: 0 <= i < |u| ==> v[i] == w[i] - a * u[i]
    ensures Dot(u, v) == Dot(u, w) - a * Dot(u, u)
  {
    if |u| > 0 {
      DotMinusScaled(u[1..], v[1..], w[1..], a);
    }
  }

  /** The normal equations have one solution when the feature is not constant:
      a line through the point of means whose residuals are uncorrelated with
      the feature is the least-squares line. */
  lemma OlsUnique(xs: seq<real>, ys: seq<real>, line: Line)
    requires |xs| == |ys| > 0
    requires Dot(Centered(xs), Centered(xs)) != 0.0
    requires Predict(line, Mean(xs)) == Mean(ys)
    requires Dot(Centered(xs), Residuals(xs, ys, line)) == 0.0
    ensures line == Ols(xs, ys)
  {
    var sxx, sxy := Dot(Centered(xs), Centered(xs)), Dot(Centered(xs), Centered(ys));
    var a := line.slope;
    assert line.intercept == Mean(ys) - a * Mean(xs);
    assert line == Line(a, Mean(ys) - a * Mean(xs));
    ResidualsCentered(xs, ys, a);
    SolveScaled(a, sxx, sxy);
    OlsSlope(xs, ys);
  }

  lemma OlsSlope(xs: seq<real>, ys: seq<real>)
    requires |xs| == |ys| > 0
    requires Dot(Centered(xs), Centered(xs)) != 0.0
    ensures Ols(xs, ys).slope == Dot(Centered(xs), Centered(ys)) / Dot(Centered(xs), Centered(xs))
    ensures Ols(xs, ys).intercept == Mean(ys) - Ols(xs, ys).slope * Mean(xs)
  {
  }

  lemma SolveScaled(a: real, s: real, p: real)
    requires s != 0.0 && p - a * s == 0.0
    ensures a == p / s
  {
  }

  lemma {:induction false} SumAffine(xs: seq<real>, ys: seq<real>, a: real, b: real)
    requires |xs| == |ys|
    requires forall i :: 0 <= i < |xs| ==> ys[i] == a * xs[i] + b
    ensures Sum(ys) == a * Sum(xs) + (|xs| as real) * b
  {
    if |xs| > 0 {
      SumAffine(xs[1..], ys[1..], a, b);
    }
  }

  lemma {:induction false} DotScaled(u: seq<real>, v: seq<real>, a: real)
    requires |u| == |v|
    requires forall i :: 0 <= i < |u| ==> v[i] == a * u[i]
    ensures Dot(u, v) == a * Dot(u, u)
  {
    if |u| > 0 {
      DotScaled(u[1..], v[1..], a);
    }
  }

  /** Means follow an affine map. */
  lemma MeanOfAffine(xs: seq<real>, ys: seq<real>, a: real, b: real)
    requires |xs| == |ys| > 0
    requires forall i :: 0 <= i < |xs| ==> ys[i] == a * xs[i] + b
    ensures Mean(ys) == a * Mean(xs) + b
  {
    SumAffine(xs, ys, a, b);
    AffineMean(a, Sum(xs), |xs| as real, b);
  }

  /** When the points lie exactly on a line with a non-constant feature, least
      squares finds that line. */
  lemma OlsRecoversLine(xs: seq<real>, ys: seq<real>, a: real, b: real)
    requires |xs| == |ys| > 0
    requires forall i :: 0 <= i < |xs| ==> ys[i] == a * xs[i] + b
    requires Dot(Centered(xs), Centered(xs)) != 0.0
    ensures Ols(xs, ys) == Line(a, b)
  {
    var cx, cy := Centered(xs), Centered(ys);
    CenteredAffine(xs, ys, a, b);
    DotScaled(cx, cy, a);
    ScaledQuotient(a, Dot(cx, cx));
    MeanOfAffine(xs, ys, a, b);
  }

  /** Centering removes the intercept of an affine map. */
  lemma CenteredAffine(xs: seq<real>, ys: seq<real>, a: real, b: real)
    requires |xs| == |ys| > 0
    requires forall i :: 0 <= i < |xs| ==> ys[i] == a * xs[i] + b
    ensures forall i :: 0 <= i < |xs| ==> Centered(ys)[i] == a * Centered(xs)[i]
  {
    MeanOfAffine(xs, ys, a, b);
    var m := Mean(xs);
    forall i | 0 <= i < |xs| ensures Centered(ys)[i] == a * Centered(xs)[i] {
      assert Centered(ys)[i] == (a * xs[i] + b) - (a * m + b);
    }
  }

  lemma ScaledQuotient(a: real, s: real)
    requires s != 0.0
    ensures a * s / s == a
  {
  }

  /** A constant target has slope 0 and intercept equal to the constant. */
  lemma OlsConstant(xs: seq<real>, ys: seq<real>, c: real)
    requires |xs| == |ys| > 0
    requires forall i :: 0 <= i < |ys| ==> ys[i] == c
    ensures Ols(xs, ys) == Line(0.0, c)
  {
    forall i | 0 <= i < |xs| ensures ys[i] == 0.0 * xs[i] + c {
    }
    MeanOfAffine(xs, ys, 0.0, c);
    CenteredAffine(xs, ys, 0.0, c);
    var cx, cy := Centered(xs), Centered(ys);
    DotScaled(cx, cy, 0.0);
    assert Dot(cx, cy) == 0.0;
  }

  /** A sum of squares is non-negative and at least each of its terms. */
  lemma {:induction false} DotSelfBounds(u: seq<real>)
    ensures Dot(u, u) >= 0.0
    ensures forall i :: 0 <= i < |u| ==> Square(u[i]) <= Dot(u, u)
  {
    if |u| > 0 {
      DotSelfBounds(u[1..]);
      SquareNonNegative(u[0]);
      forall i | 0 < i < |u| ensures Square(u[i]) <= Dot(u, u) {
        assert u[i] == u[1..][i - 1];
      }
    }
  }

  /** Positions 0..n-1 are not constant once n >= 2, so their spread is positive:
      two neighbouring centred positions differ by one, so one of them is at
      least a half away from zero. */
  lemma PositionsSpread(n: nat)
    requires n >= 2
    ensures Dot(Centered(Positions(n)), Centered(Positions(n))) > 0.0
  {
    var c := Centered(Positions(n));
    assert c[1] - c[0] == 1.0;
    DotSelfBounds(c);
    if c[0] >= 0.5 || c[0] <= -0.5 {
      SquareAtLeastQuarter(c[0]);
    } else {
      SquareAtLeastQuarter(c[1]);
    }
  }

  /** The slope linregress reports for the series against 0, 1, ..., n - 1. */
  function Slope(y: seq<real>): real
    requires |y| >= 2
  {
    Ols(Positions(|y|), y).slope
  }

  /** calculate_trend: fewer than two points are stable; otherwise the slope is
      compared with 2% of the mean in either direction. */
  function TrendOf(y: seq<real>): (r: Trend)
    ensures |y| < 2 ==> r == Stable
    ensures |y| >= 2 ==> (r == Increasing <==> Slope(y) > 0.02 * Mean(y))
    ensures |y| >= 2 ==> (r == Decreasing <==> Slope(y) <= 0.02 * Mean(y) && Slope(y) < -0.02 * Mean(y))
  {
    if |y| < 2 then Stable
    else
      var threshold := Mean(y) * 0.02;
      var slope := Slope(y);
      if slope > threshold then Increasing
      else if slope < -threshold then Decreasing
      else Stable
  }

  /** For any series of two or more points: a line through the point of means
      whose residuals are uncorrelated with the positions has the least-squares
      slope, and the trend compares that slope with 2% of the mean. */
  lemma TrendOfLeastSquares(y: seq<real>, line: Line)
    requires |y| >= 2
    requires Predict(line, Mean(Positions(|y|))) == Mean(y)
    requires Dot(Centered(Positions(|y|)), Residuals(Positions(|y|), y, line)) == 0.0
    ensures Slope(y) == line.slope
    ensures TrendOf(y) == Increasing <==> line.slope > 0.02 * Mean(y)
    ensures TrendOf(y) == Decreasing <==> line.slope <= 0.02 * Mean(y) && line.slope < -0.02 * Mean(y)
  {
    PositionsSpread(|y|);
    OlsUnique(Positions(|y|), y, line);
  }

  /** A series whose ends are nearly level but whose least-squares slope is
      -0.7 against a threshold of 0.055: decreasing. */
  lemma DecreasingExample()
    ensures TrendOf([0.0, 10.0, 0.0, 1.0]) == Decreasing
  {
    var y := [0.0, 10.0, 0.0, 1.0];
    var xs := Positions(4);
    assert xs == [0.0, 1.0, 2.0, 3.0];
    assert Sum(y) == 11.0;
    assert Sum(xs) == 6.0;
    var cx := Centered(xs);
    var cy := Centered(y);
    assert cx == [-1.5, -0.5, 0.5, 1.5];
    assert cy == [-2.75, 7.25, -2.75, -1.75];
    assert Dot(cx[3..], cx[3..]) == 2.25;
    assert Dot(cx[2..], cx[2..]) == 2.5;
    assert Dot(cx[1..], cx[1..]) == 2.75;
    assert Dot(cx, cx) == 5.0;
    assert Dot(cx[3..], cy[3..]) == -2.625;
    assert Dot(cx[2..], cy[2..]) == -4.0;
    assert Dot(cx[1..], cy[1..]) == -7.625;
    assert Dot(cx, cy) == -3.5;
  }

  /** A series on the straight line a * t + b: its trend follows a against 2% of
      the mean value b + a (n - 1) / 2. */
  lemma TrendOfLine(y: seq<real>, a: real, b: real)
    requires |y| >= 2
    requires forall i :: 0 <= i < |y| ==> y[i] == a * (i as real) + b
    ensures Slope(y) == a
    ensures Mean(y) == b + a * ((|y| - 1) as real) / 2.0
    ensures TrendOf(y) == Increasing <==> a > 0.02 * (b + a * ((|y| - 1) as real) / 2.0)
    ensures TrendOf(y) == Decreasing <==>
      a <= 0.02 * (b + a * ((|y| - 1) as real) / 2.0) && a < -0.02 * (b + a * ((|y| - 1) as real) / 2.0)
  {
    var xs := Positions(|y|);
    PositionsSpread(|y|);
    OlsRecoversLine(xs, y, a, b);
    PositionsMean(|y|);
    MeanOfAffine(xs, y, a, b);
  }

  lemma DivCancel(m: real, t: real)
    requires m > 0.0
    ensures m * t / m == t
  {
  }

  lemma PositionsMean(n: nat)
    requires n > 0
    ensures Mean(Positions(n)) == ((n as real) - 1.0) / 2.0
  {
    PositionsSum(n);
    var m := n as real;
    assert m > 0.0;
    var t := (m - 1.0) / 2.0;
    assert Sum(Positions(n)) == m * t;
    DivCancel(m, t);
    assert Mean(Positions(n)) == Sum(Positions(n)) / m;
  }

  lemma {:induction false} PositionsSum(n: nat)
    ensures Sum(Positions(n)) == (n as real) * ((n as real) - 1.0) / 2.0
  {
    if n > 0 {
      PositionsSum(n - 1);
      SumLast(Positions(n));
      assert Positions(n)[..n - 1] == Positions(n - 1);
    }
  }

  /** A constant series is stable when the constant is non-negative; a negative
      constant reads as increasing, because the slope 0 exceeds 2% of a
      negative mean. */
  lemma ConstantTrend(y: seq<real>, c: real)
    requires |y| >= 2
    requires forall i :: 0 <= i < |y| ==> y[i] == c
    ensures c >= 0.0 ==> TrendOf(y) == Stable
    ensures c < 0.0 ==> TrendOf(y) == Increasing
  {
    TrendOfLine(y, 0.0, c);
  }

  lemma TrendExamples()
    ensures TrendOf([10.0, 20.0, 30.0, 40.0]) == Increasing
    ensures TrendOf([40.0, 30.0, 20.0, 10.0]) == Decreasing
  {
    TrendOfLine([10.0, 20.0, 30.0, 40.0], 10.0, 10.0);
    TrendOfLine([40.0, 30.0, 20.0, 10.0], -10.0, 40.0);
  }

  /** A series that wobbles around a level has slope -0.2 against a threshold
      of 0.4 and is stable. */
  lemma StableExample()
    ensures TrendOf([20.0, 21.0, 19.0, 20.0]) == Stable
  {
    var y := [20.0, 21.0, 19.0, 20.0];
    var xs := Positions(4);
    assert xs == [0.0, 1.0, 2.0, 3.0];
    assert Sum(y) == 80.0;
    assert Sum(xs) == 6.0;
    var cx := Centered(xs);
    var cy := Centered(y);
    assert cx == [-1.5, -0.5, 0.5, 1.5];
    assert cy == [0.0, 1.0, -1.0, 0.0];
    assert Dot(cx[3..], cx[3..]) == 2.25;
    assert Dot(cx[2..], cx[2..]) == 2.5;
    assert Dot(cx[1..], cx[1..]) == 2.75;
    assert Dot(cx, cx) == 5.0;
    assert Dot(cx[3..], cy[3..]) == 0.0;
    assert Dot(cx[2..], cy[2..]) == -0.5;
    assert Dot(cx[1..], cy[1..]) == -1.0;
    assert Dot(cx, cy) == -1.0;
  }
}

=== FILE: orchestrator.dfy ===
/** run_algorithm: one algorithm on one aggregated series. The series is
    split 80/20 when it has at least six rows, the algorithm forecasts the
    held-out part (or, on a short series, the requested periods), the
    forecast is scored against the held-out part (or in-sample), and the
    result carries the tail of the history, the forecast on the forecast
    calendar and the trend of the whole series. Any failure on the way
    yields the degraded result instead. */
module Orchestrator {
  import opened Base
  import opened Calendar
  import opened Periods
  import opened Config
  import opened Metrics
  import opened Catalog
  import opened Forecasters
  import opened Aggregation

  datatype DataPoint = DataPoint(date: CalendarDate, quantity: real, period: string)

  datatype AlgorithmResult = AlgorithmResult(
    algorithm: string,
    accuracy: real,
    mae: real,
    rmse: real,
    historicData: seq<DataPoint>,
    forecastData: seq<DataPoint>,
    trend: Trend)

  /** The result run_algorithm returns when anything goes wrong. */
  function Degraded(name: string): (r: AlgorithmResult)
    ensures r.algorithm == name && r.accuracy == 0.0 && r.mae == 999.0 && r.rmse == 999.0
    ensures |r.historicData| == 0 && |r.forecastData| == 0 && r.trend == Stable
  {
    AlgorithmResult(name, 0.0, 999.0, 999.0, [], [], Stable)
  }

  function Quantities(rows: seq<Row>): (r: seq<real>)
    ensures |r| == |rows|
    ensures forall i :: 0 <= i < |r| ==> r[i] == rows[i].quantity
  {
    seq(|rows|, i requires 0 <= i < |rows| => rows[i].quantity)
  }

  /** The number of training rows: all of a series shorter than six rows,
      otherwise int(0.8 n), which is floor(4 n / 5) because the floating
      product never falls below an integer it equals exactly. */
  function TrainSize(n: nat): (r: nat)
    ensures r <= n
    ensures n < 6 ==> r == n
    ensures n >= 6 ==> 5 * r <= 4 * n < 5 * r + 5
  {
    if n < 6 then n else 4 * n / 5
  }

  /** The number of periods the algorithm is asked for: the held-out rows,
      or the requested forecast period on a short series. */
  function Horizon(n: nat, forecastPeriod: int): (r: int)
    ensures n >= 6 ==> r == n - TrainSize(n) && r > 0
    ensures n < 6 ==> r == forecastPeriod
  {
    if n < 6 then forecastPeriod else n - TrainSize(n)
  }

  /** The split keeps at least four training and two held-out rows, and the
      held-out part is never longer than the training part. */
  lemma SplitSizes(n: nat)
    requires n >= 6
    ensures TrainSize(n) >= 4 && n - TrainSize(n) >= 2
    ensures n - TrainSize(n) <= TrainSize(n)
  {
  }

  /** The in-sample values run_algorithm scores a short series with: the
      least-squares line for linear regression, the quadratic fit for the
      polynomial, the alpha 0.3 smoothing for the two smoothing methods, and
      the series itself for every other algorithm. */
  function InSample(a: Algorithm, y: seq<real>, lib: Library): (r: Result<seq<real>>)
    ensures a == LinearRegression && |y| > 0 ==>
      r.Ok? && |r.value| == |y| &&
      forall i :: 0 <= i < |y| ==> r.value[i] == Predict(Ols(Positions(|y|), y), i as real)
    ensures a in {ExponentialSmoothing, Ses} && |y| > 0 ==> r == Ok(Smoothed(y))
    ensures a !in {LinearRegression, PolynomialRegression, ExponentialSmoothing, Ses} ==> r == Ok(y)
    ensures r.Err? <==> |y| == 0 && a in {LinearRegression, PolynomialRegression, ExponentialSmoothing, Ses}
  {
    match a
    case LinearRegression =>
      if |y| == 0 then Err(InconsistentSamples) else Ok(Predictions(Ols(Positions(|y|), y), 0, |y|))
    case PolynomialRegression =>
      if |y| == 0 then Err(LibraryError("polyfit of an empty series")) else Ok(lib.quadratic(y))
    case ExponentialSmoothing => if |y| == 0 then Err(IndexOutOfRange) else Ok(Smoothed(y))
    case Ses => if |y| == 0 then Err(IndexOutOfRange) else Ok(Smoothed(y))
    case _ => Ok(y)
  }

  /** The metrics of a forecast: against the held-out rows (on the first
      |test| forecast values) when the series was split, otherwise in-sample. */
  function Score(a: Algorithm, y: seq<real>, forecast: seq<real>, lib: Library): (r: Result<Metrics>)
    ensures |y| >= 6 ==>
      (r.Ok? <==> |forecast| >= |y| - TrainSize(|y|))
    ensures |y| >= 6 && r.Ok? ==>
      r == CalculateMetrics(y[TrainSize(|y|)..], forecast[..|y| - TrainSize(|y|)], lib.sqrt)
    ensures |y| < 6 && InSample(a, y, lib).Ok? ==> r == CalculateMetrics(y, InSample(a, y, lib).value, lib.sqrt)
    ensures |y| < 6 && InSample(a, y, lib).Err? ==> r.Err?
  {
    var n := |y|;
    if n >= 6 then
      var test := y[TrainSize(n)..];
      CalculateMetrics(test, forecast[..MinInt(|test|, |forecast|)], lib.sqrt)
    else
      match InSample(a, y, lib)
      case Err(e) => Err(e)
      case Ok(p) => CalculateMetrics(y, p, lib.sqrt)
  }

  /** `data.tail(k)`: the last k rows (all of them when k exceeds the
      length); a negative k drops the first |k| rows instead. */
  function Tail<T>(s: seq<T>, k: int): (r: seq<T>)
    ensures k >= 0 ==> |r| == MinInt(k, |s|)
    ensures k < 0 ==> |r| == if |s| + k > 0 then |s| + k else 0
    ensures r == s[|s| - |r|..]
  {
    if k >= 0 then s[|s| - MinInt(k, |s|)..] else s[MinInt(-k, |s|)..]
  }

  /** The historic points: the tail rows with their own period labels. */
  function HistoricPoints(rows: seq<Row>, k: int): (r: seq<DataPoint>)
    ensures |r| == |Tail(rows, k)|
    ensures forall i :: 0 <= i < |r| ==>
      var row := Tail(rows, k)[i];
      r[i] == DataPoint(row.date, row.quantity, row.period)
  {
    var t := Tail(rows, k);
    seq(|t|, i requires 0 <= i < |t| => DataPoint(t[i].date, t[i].quantity, t[i].period))
  }

  /** The forecast points: forecast dates zipped with forecast values, so as
      many as the shorter of the two, each labelled with its own period. */
  function ForecastPoints(dates: seq<CalendarDate>, forecast: seq<real>, iv: Interval): (r: seq<DataPoint>)
    ensures |r| == MinInt(|dates|, |forecast|)
    ensures forall i :: 0 <= i < |r| ==>
      r[i] == DataPoint(dates[i], forecast[i], FormatPeriod(dates[i], iv))
  {
    var k := MinInt(|dates|, |forecast|);
    seq(k, i requires 0 <= i < k => DataPoint(dates[i], forecast[i], FormatPeriod(dates[i], iv)))
  }

  /** The forecast an algorithm makes from the training rows of a series. */
  function TrainForecast(a: Algorithm, y: seq<real>, cfg: ForecastConfig, lib: Library): (r: Result<seq<real>>)
    ensures var train := y[..TrainSize(|y|)];
      r == Own(Route(a, train), train, Horizon(|y|, cfg.forecastPeriod), lib)
    ensures |y| < 6 ==> r == Forecast(a, y, cfg.forecastPeriod, lib)
  {
    ForecastFollowsRoute(a, y[..TrainSize(|y|)], Horizon(|y|, cfg.forecastPeriod), lib);
    assert |y| < 6 ==> y[..TrainSize(|y|)] == y;
    Forecast(a, y[..TrainSize(|y|)], Horizon(|y|, cfg.forecastPeriod), lib)
  }

  /** The body of run_algorithm's try block for one catalog algorithm: the
      result, or the error that sends it to the degraded result. */
  function Evaluate(a: Algorithm, rows: seq<Row>, cfg: ForecastConfig, lib: Library): (r: Result<AlgorithmResult>)
    ensures r.Ok? <==>
      |rows| > 0 && TrainForecast(a, Quantities(rows), cfg, lib).Ok? &&
      Score(a, Quantities(rows), TrainForecast(a, Quantities(rows), cfg, lib).value, lib).Ok?
    ensures r.Ok? ==>
      var y := Quantities(rows);
      var forecast := TrainForecast(a, y, cfg, lib).value;
      var m := Score(a, y, forecast, lib).value;
      var dates := ForecastDates(rows[|rows| - 1].date, cfg.forecastPeriod, IntervalOf(cfg.interval));
      && r.value.algorithm == DisplayName(a)
      && 0.0 <= r.value.accuracy <= 99.9 && r.value.mae >= 0.0
      && r.value.accuracy == m.accuracy && r.value.mae == m.mae && r.value.rmse == m.rmse
      && r.value.historicData == HistoricPoints(rows, cfg.historicPeriod)
      && r.value.forecastData == ForecastPoints(dates, forecast, IntervalOf(cfg.interval))
      && r.value.trend == TrendOf(y)
  {
    var y := Quantities(rows);
    var forecast :- TrainForecast(a, y, cfg, lib);
    var m :- Score(a, y, forecast, lib);
    if |rows| == 0 then Err(IndexOutOfRange)
    else
      var iv := IntervalOf(cfg.interval);
      var dates := ForecastDates(rows[|rows| - 1].date, cfg.forecastPeriod, iv);
      Ok(AlgorithmResult(DisplayName(a), m.accuracy, m.mae, m.rmse,
                         HistoricPoints(rows, cfg.historicPeriod), ForecastPoints(dates, forecast, iv), TrendOf(y)))
  }

  /** run_algorithm for a catalog entry. It never fails: an error inside
      gives the degraded result under the entry's display name, and the
      "best_fit" entry, which has no method of its own, always degrades.
      Either way the accuracy lies in [0, 99.9]. */
  function RunEntry(e: Entry, rows: seq<Row>, cfg: ForecastConfig, lib: Library): (r: AlgorithmResult)
    ensures r.algorithm == EntryName(e)
    ensures e.BestFit? || Evaluate(e.algorithm, rows, cfg, lib).Err? ==> r == Degraded(EntryName(e))
    ensures e.Single? && Evaluate(e.algorithm, rows, cfg, lib).Ok? ==> r == Evaluate(e.algorithm, rows, cfg, lib).value
    ensures 0.0 <= r.accuracy <= 99.9 && r.mae >= 0.0
  {
    match e
    case BestFit => Degraded(EntryName(e))
    case Single(a) =>
      match Evaluate(a, rows, cfg, lib)
      case Ok(res) => res
      case Err(_) => Degraded(DisplayName(a))
  }

  /** run_algorithm by id. An id outside the catalog makes the error handler
      itself fail looking up the display name, so the error escapes. */
  function RunAlgorithm(id: string, rows: seq<Row>, cfg: ForecastConfig, lib: Library): (r: Result<AlgorithmResult>)
    ensures r.Err? <==> forall e: Entry :: EntryId(e) != id
    ensures r.Err? ==> r.error == MissingCatalogKey(id)
    ensures r.Ok? ==> exists e: Entry :: EntryId(e) == id && r.value == RunEntry(e, rows, cfg, lib)
  {
    match Lookup(id)
    case None => Err(MissingCatalogKey(id))
    case Some(e) => Ok(RunEntry(e, rows, cfg, lib))
  }

  /** The forecast points never outnumber the requested periods, lie strictly
      after the last observed date and strictly increase; on a split series
      a successful run holds at least min(forecastPeriod, held-out rows) of
      them, because scoring needs a forecast value per held-out row. */
  lemma ForecastPointsShape(a: Algorithm, rows: seq<Row>, cfg: ForecastConfig, lib: Library)
    requires Evaluate(a, rows, cfg, lib).Ok?
    ensures var f := Evaluate(a, rows, cfg, lib).value.forecastData;
      && |f| <= Count(cfg.forecastPeriod)
      && (forall i :: 0 <= i < |f| ==> Before(rows[|rows| - 1].date, f[i].date))
      && (forall i, j :: 0 <= i < j < |f| ==> Before(f[i].date, f[j].date))
    ensures |rows| >= 6 ==>
      |Evaluate(a, rows, cfg, lib).value.forecastData| >= MinInt(Count(cfg.forecastPeriod), |rows| - TrainSize(|rows|))
  {
    var y := Quantities(rows);
    var iv := IntervalOf(cfg.interval);
    var last := rows[|rows| - 1].date;
    var dates := ForecastDates(last, cfg.forecastPeriod, iv);
    var forecast := TrainForecast(a, y, cfg, lib).value;
    var f := Evaluate(a, rows, cfg, lib).value.forecastData;
    assert f == ForecastPoints(dates, forecast, iv);
    ForecastDatesIncrease(last, cfg.forecastPeriod, iv);
    forall i, j | 0 <= i < j < |f| ensures Before(f[i].date, f[j].date) {
      assert f[i].date == dates[i] && f[j].date == dates[j];
    }
    forall i | 0 <= i < |f| ensures Before(last, f[i].date) {
      assert f[i].date == dates[i];
    }
  }

  /** On a split series the moving average always succeeds, and its forecast
      points number min(forecastPeriod, held-out rows), all equal to the mean
      of the last three training values: the held-out size, not the requested
      period, bounds how far the result looks ahead. */
  lemma MovingAverageRun(rows: seq<Row>, cfg: ForecastConfig, lib: Library)
    requires |rows| >= 6
    ensures Evaluate(MovingAverage, rows, cfg, lib).Ok?
    ensures var r := Evaluate(MovingAverage, rows, cfg, lib).value;
      var train := Quantities(rows)[..TrainSize(|rows|)];
      && |r.forecastData| == MinInt(Count(cfg.forecastPeriod), |rows| - TrainSize(|rows|))
      && forall i :: 0 <= i < |r.forecastData| ==> r.forecastData[i].quantity == Mean(LastWindow(train))
  {
    var y := Quantities(rows);
    var n := |rows|;
    var h := Horizon(n, cfg.forecastPeriod);
    var train := y[..TrainSize(n)];
    assert |train| > 0 && h == |y| - TrainSize(n);
    var forecast := MovingAverageForecast(train, h);
    assert TrainForecast(MovingAverage, y, cfg, lib) == forecast;
    assert forecast.Ok? && |forecast.value| == h;
    ScoreOnFullForecast(MovingAverage, y, forecast.value, lib);
    EvaluateSucceeds(MovingAverage, rows, cfg, lib);
    var iv := IntervalOf(cfg.interval);
    var dates := ForecastDates(rows[n - 1].date, cfg.forecastPeriod, iv);
    var f := ForecastPoints(dates, forecast.value, iv);
    assert |f| == MinInt(Count(cfg.forecastPeriod), h);
    forall i | 0 <= i < |f| ensures f[i].quantity == Mean(LastWindow(train)) {
      assert f[i].quantity == forecast.value[i];
    }
  }

  /** What a successful evaluation puts in the forecast points. */
  lemma EvaluateSucceeds(a: Algorithm, rows: seq<Row>, cfg: ForecastConfig, lib: Library)
    requires |rows| > 0 && TrainForecast(a, Quantities(rows), cfg, lib).Ok?
    requires Score(a, Quantities(rows), TrainForecast(a, Quantities(rows), cfg, lib).value, lib).Ok?
    ensures Evaluate(a, rows, cfg, lib).Ok?
    ensures Evaluate(a, rows, cfg, lib).value.forecastData ==
      ForecastPoints(ForecastDates(rows[|rows| - 1].date, cfg.forecastPeriod, IntervalOf(cfg.interval)),
                     TrainForecast(a, Quantities(rows), cfg, lib).value, IntervalOf(cfg.interval))
  {
  }

  /** A forecast that covers the held-out rows can always be scored. */
  lemma ScoreOnFullForecast(a: Algorithm, y: seq<real>, forecast: seq<real>, lib: Library)
    requires |y| >= 6 && |forecast| >= |y| - TrainSize(|y|)
    ensures Score(a, y, forecast, lib).Ok?
  {
  }

  /** A series shorter than six rows is scored on itself, and every algorithm
      outside the regression and smoothing families "predicts" it with the
      series itself: whenever its forecast succeeds it scores a perfect
      99.9 accuracy, zero mae and the square root of zero as rmse. */
  lemma ShortSeriesScoresPerfect(a: Algorithm, rows: seq<Row>, cfg: ForecastConfig, lib: Library)
    requires 0 < |rows| < 6
    requires a !in {LinearRegression, PolynomialRegression, ExponentialSmoothing, Ses}
    requires Forecast(a, Quantities(rows), cfg.forecastPeriod, lib).Ok?
    ensures Evaluate(a, rows, cfg, lib).Ok?
    ensures var r := Evaluate(a, rows, cfg, lib).value;
      r.accuracy == 99.9 && r.mae == 0.0 && r.rmse == lib.sqrt(0.0)
  {
    var y := Quantities(rows);
    assert y[..TrainSize(|y|)] == y;
    var forecast := TrainForecast(a, y, cfg, lib);
    assert forecast == Forecast(a, y, cfg.forecastPeriod, lib);
    PerfectFit(y, lib.sqrt);
    assert Score(a, y, forecast.value, lib) == Ok(Metrics(99.9, 0.0, lib.sqrt(0.0)));
  }

  /** Every catalog algorithm runs under its own id; "best_fit" names a
      catalog entry but no method, so running it by id always degrades. */
  lemma RunAlgorithmById(a: Algorithm, rows: seq<Row>, cfg: ForecastConfig, lib: Library)
    ensures RunAlgorithm(Id(a), rows, cfg, lib) == Ok(RunEntry(Single(a), rows, cfg, lib))
    ensures RunAlgorithm("best_fit", rows, cfg, lib) == Ok(Degraded("Best Fit (Auto-Select)"))
  {
    LookupRoundTrip(Single(a));
    LookupRoundTrip(BestFit);
  }
}

=== FILE: periods.dfy ===
/** The calendar side of the engine: which period a date falls into for a
    given interval, the label each period carries, and the future dates a
    forecast is laid on (backend/main.py format_period and
    generate_forecast_dates, and the period grouping of the aggregators). */
module Periods {
  import opened Base
  import opened Text
  import opened Calendar

  datatype Interval = Week | Month | Year

  /** The interval a configuration string selects; every string other than
      "week" and "year" is treated as "month" by all three call sites. */
  function IntervalOf(s: string): (iv: Interval)
    ensures iv == Week <==> s == "week"
    ensures iv == Year <==> s == "year"
  {
    if s == "week" then Week else if s == "year" then Year else Month
  }

  /** First day of the period holding d: for weeks, pandas' W-MON periods end
      on a Monday, so they start on the Tuesday before (or on) d. */
  function PeriodStart(iv: Interval, d: CalendarDate): (r: CalendarDate)
    ensures iv == Week ==> Weekday(r) == 1 && DayNumber(r) <= DayNumber(d) < DayNumber(r) + 7
    ensures r == d || Before(r, d)
    ensures iv != Week ==> r.year == d.year && r.day == 1
    ensures iv == Month ==> r.month == d.month
    ensures iv == Year ==> r.month == 1
  {
    match iv
    case Week =>
      var back := (Weekday(d) - 1) % 7;
      WeekBack(DayNumber(d));
      AddDays(d, -back)
    case Month => Date(d.year, d.month, 1)
    case Year => Date(d.year, 1, 1)
  }

  lemma WeekBack(n: int)
    ensures 0 <= ((n % 7) - 1) % 7 < 7
    ensures (n - ((n % 7) - 1) % 7) % 7 == 1
  {
  }

  /** An independent numbering of periods: weeks counted in whole Tuesday-based
      weeks from the first Tuesday of year 1, months as 12 * year + month, years
      by number. */
  function PeriodIndex(iv: Interval, d: CalendarDate): int
  {
    match iv
    case Week => (DayNumber(d) - 1) / 7
    case Month => 12 * d.year + d.month
    case Year => d.year
  }

  /** Two dates share a period exactly when their period indices agree. */
  lemma SamePeriod(iv: Interval, a: CalendarDate, b: CalendarDate)
    ensures PeriodStart(iv, a) == PeriodStart(iv, b) <==> PeriodIndex(iv, a) == PeriodIndex(iv, b)
  {
    if iv == Week {
      var ra, rb := PeriodStart(iv, a), PeriodStart(iv, b);
      WeekIndexOfStart(a);
      WeekIndexOfStart(b);
      DayNumberOrder(ra, rb);
    }
  }

  lemma WeekIndexOfStart(d: CalendarDate)
    ensures DayNumber(PeriodStart(Week, d)) - 1 == 7 * PeriodIndex(Week, d)
  {
    var r := PeriodStart(Week, d);
    FloorWeek(DayNumber(r), DayNumber(d));
  }

  lemma FloorWeek(m: int, n: int)
    requires m % 7 == 1 && m <= n < m + 7
    ensures m - 1 == 7 * ((n - 1) / 7)
  {
  }

  /** A period start is its own period start, so re-bucketing changes nothing. */
  lemma PeriodStartIdempotent(iv: Interval, d: CalendarDate)
    ensures PeriodStart(iv, PeriodStart(iv, d)) == PeriodStart(iv, d)
  {
    if iv == Week {
      var r := PeriodStart(iv, d);
      SamePeriod(iv, r, d);
      WeekIndexOfStart(d);
      WeekIndexOfStart(r);
    }
  }

  /** The day `pd.DateOffset(months=1)` or `(years=1)` lands on: the same day
      of the month, cut back to the last day of a shorter month. */
  function ClampDay(y: int, m: int, day: int): int
    requires 1 <= m <= 12
  {
    if day < DaysInMonth(y, m) then day else DaysInMonth(y, m)
  }

  /** One step of the forecast calendar: seven days, one month or one year. */
  function Advance(iv: Interval, d: CalendarDate): (r: CalendarDate)
    ensures Before(d, r)
    ensures iv == Week ==> DayNumber(r) == DayNumber(d) + 7
    ensures iv == Month ==> 12 * r.year + r.month == 12 * d.year + d.month + 1
    ensures iv == Year ==> r.year == d.year + 1 && r.month == d.month
    ensures iv != Week ==> r.day <= d.day && (r.day == d.day || r.day == DaysInMonth(r.year, r.month))
  {
    match iv
    case Week => AddDays(d, 7)
    case Month =>
      if d.month < 12 then Date(d.year, d.month + 1, ClampDay(d.year, d.month + 1, d.day))
      else Date(d.year + 1, 1, ClampDay(d.year + 1, 1, d.day))
    case Year => Date(d.year + 1, d.month, ClampDay(d.year + 1, d.month, d.day))
  }

  /** generate_forecast_dates: `periods` dates, each one step after the one
      before, starting one step after the last observed date; a zero or
      negative count gives no dates. */
  function ForecastDates(last: CalendarDate, periods: int, iv: Interval): (r: seq<CalendarDate>)
    ensures |r| == if periods > 0 then periods else 0
    ensures |r| > 0 ==> r[0] == Advance(iv, last)
    ensures forall i :: 0 < i < |r| ==> r[i] == Advance(iv, r[i - 1])
    ensures forall i :: 0 <= i < |r| ==> Before(last, r[i])
    decreases if periods > 0 then periods else 0
  {
    if periods <= 0 then []
    else
      var next := Advance(iv, last);
      var rest := ForecastDates(next, periods - 1, iv);
      PrependAfter(last, next, rest);
      PrependStep(next, rest, iv);
      [next] + rest
  }

  /** One step of ForecastDates: a date after `last`, put in front of dates
      after it, gives dates all after `last`. */
  lemma PrependAfter(last: CalendarDate, next: CalendarDate, rest: seq<CalendarDate>)
    requires Before(last, next)
    requires forall i :: 0 <= i < |rest| ==> Before(next, rest[i])
    ensures forall i :: 0 <= i < |[next] + rest| ==> Before(last, ([next] + rest)[i])
  {
    forall i | 0 <= i < |rest| ensures Before(last, rest[i]) {
      BeforeTransitive(last, next, rest[i]);
    }
  }

  /** One step of ForecastDates: putting `next` in front of dates stepping on
      from it keeps each date one step after the one before. */
  lemma PrependStep(next: CalendarDate, rest: seq<CalendarDate>, iv: Interval)
    requires |rest| > 0 ==> rest[0] == Advance(iv, next)
    requires forall i :: 0 < i < |rest| ==> rest[i] == Advance(iv, rest[i - 1])
    ensures forall i :: 0 < i < |[next] + rest| ==> ([next] + rest)[i] == Advance(iv, ([next] + rest)[i - 1])
  {
    var r := [next] + rest;
    assert forall i :: 0 < i < |r| ==> r[i] == rest[i - 1];
  }

  predicate Increasing(s: seq<CalendarDate>)
  {
    forall i, j :: 0 <= i < j < |s| ==> Before(s[i], s[j])
  }

  lemma PrependIncreasing(d: CalendarDate, s: seq<CalendarDate>)
    requires Increasing(s)
    requires forall i :: 0 <= i < |s| ==> Before(d, s[i])
    ensures Increasing([d] + s)
  {
    var r := [d] + s;
    forall i, j | 0 <= i < j < |r| ensures Before(r[i], r[j]) {
      assert r[j] == s[j - 1];
      if i > 0 {
        assert r[i] == s[i - 1];
      }
    }
  }

  /** The forecast dates strictly increase. */
  lemma {:induction false} ForecastDatesIncrease(last: CalendarDate, periods: int, iv: Interval)
    ensures Increasing(ForecastDates(last, periods, iv))
    decreases if periods > 0 then periods else 0
  {
    if periods > 0 {
      var next := Advance(iv, last);
      var rest := ForecastDates(next, periods - 1, iv);
      ForecastDatesIncrease(next, periods - 1, iv);
      PrependIncreasing(next, rest);
      assert ForecastDates(last, periods, iv) == [next] + rest;
    }
  }

  const MonthAbbreviations: seq<string> :=
    ["Jan", "Feb", "Mar", "Apr", "May", "Jun", "Jul", "Aug", "Sep", "Oct", "Nov", "Dec"]

  /** `%b`: the month's English abbreviation. */
  function MonthAbbreviation(m: int): (s: string)
    requires 1 <= m <= 12
    ensures |s| == 3
  {
    MonthAbbreviations[m - 1]
  }

  /** `%Y`: the year in decimal. */
  function YearText(y: int): string
  {
    if y >= 0 then Decimal(y) else "-" + Decimal(-y)
  }

  /** format_period: "Week of %b %d, %Y", "%b %Y" or "%Y". */
  function FormatPeriod(d: CalendarDate, iv: Interval): (s: string)
    ensures iv == Year ==> s == YearText(d.year)
    ensures iv == Month ==>
      |s| == 4 + |YearText(d.year)| && s[..3] == MonthAbbreviation(d.month) && s[3] == ' ' && s[4..] == YearText(d.year)
    ensures iv == Week ==>
      && |s| == 16 + |YearText(d.year)| && s[..8] == "Week of " && s[8..11] == MonthAbbreviation(d.month)
      && s[11] == ' ' && s[12..14] == TwoDigits(d.day) && s[14..16] == ", " && s[16..] == YearText(d.year)
  {
    match iv
    case Week => "Week of " + MonthAbbreviation(d.month) + " " + TwoDigits(d.day) + ", " + YearText(d.year)
    case Month => MonthAbbreviation(d.month) + " " + YearText(d.year)
    case Year => YearText(d.year)
  }

  function MonthOfAbbreviation(s: string): Option<int>
  {
    if s == "Jan" then Some(1) else if s == "Feb" then Some(2) else if s == "Mar" then Some(3)
    else if s == "Apr" then Some(4) else if s == "May" then Some(5) else if s == "Jun" then Some(6)
    else if s == "Jul" then Some(7) else if s == "Aug" then Some(8) else if s == "Sep" then Some(9)
    else if s == "Oct" then Some(10) else if s == "Nov" then Some(11) else if s == "Dec" then Some(12)
    else None
  }

  function ParseYear(s: string): Option<int>
  {
    if |s| > 0 && AllDigits(s) then Some(ParseDecimal(s)) else None
  }

  /** Reads a period label back into the (year, month, day) it names: the day
      for weekly labels, the first of the month or of the year otherwise. */
  function ParseLabel(iv: Interval, s: string): Option<Date>
  {
    match iv
    case Year =>
      (match ParseYear(s)
       case Some(y) => Some(Date(y, 1, 1))
       case None => None)
    case Month =>
      if |s| < 4 || s[3] != ' ' then None
      else
        (match (MonthOfAbbreviation(s[..3]), ParseYear(s[4..]))
         case (Some(m), Some(y)) => Some(Date(y, m, 1))
         case _ => None)
    case Week =>
      if |s| < 16 || s[..8] != "Week of " || s[11] != ' ' || s[14..16] != ", "
         || !IsDigit(s[12]) || !IsDigit(s[13]) then None
      else
        match (MonthOfAbbreviation(s[8..11]), ParseYear(s[16..]))
        case (Some(m), Some(y)) => Some(Date(y, m, ParseDecimal(s[12..14])))
        case _ => None
  }

  /** The part of a date its label keeps. */
  function LabelKey(iv: Interval, d: Date): Date
  {
    match iv
    case Week => d
    case Month => Date(d.year, d.month, 1)
    case Year => Date(d.year, 1, 1)
  }

  lemma MonthAbbreviationRoundTrip(m: int)
    requires 1 <= m <= 12
    ensures MonthOfAbbreviation(MonthAbbreviation(m)) == Some(m)
  {
  }

  lemma YearTextRoundTrip(y: int)
    requires y >= 0
    ensures ParseYear(YearText(y)) == Some(y)
  {
    DecimalRoundTrip(y);
  }

  /** Every label of a non-negative year parses back to the period it names. */
  lemma LabelRoundTrip(iv: Interval, d: CalendarDate)
    requires d.year >= 0
    ensures ParseLabel(iv, FormatPeriod(d, iv)) == Some(LabelKey(iv, d))
  {
    var s := FormatPeriod(d, iv);
    YearTextRoundTrip(d.year);
    MonthAbbreviationRoundTrip(d.month);
    match iv
    case Year =>
    case Month =>
      assert s[..3] == MonthAbbreviation(d.month);
      assert s[4..] == YearText(d.year);
    case Week =>
      var dd := TwoDigits(d.day);
      var mon := MonthAbbreviation(d.month);
      var yt := YearText(d.year);
      assert s == "Week of " + mon + " " + dd + ", " + yt;
      assert |s| == 16 + |yt|;
      assert s[11] == ' ' && s[12] == dd[0] && s[13] == dd[1];
      assert s[..8] == "Week of ";
      assert s[8..11] == MonthAbbreviation(d.month);
      assert s[12..14] == dd;
      assert s[14..16] == ", ";
      assert s[16..] == YearText(d.year);
      TwoDigitsRoundTrip(d.day);
  }

  /** Distinct periods carry distinct labels, so a label identifies its period. */
  lemma LabelsIdentifyPeriods(iv: Interval, a: CalendarDate, b: CalendarDate)
    requires PeriodStart(iv, a).year >= 0 && PeriodStart(iv, b).year >= 0
    requires FormatPeriod(PeriodStart(iv, a), iv) == FormatPeriod(PeriodStart(iv, b), iv)
    ensures PeriodStart(iv, a) == PeriodStart(iv, b)
  {
    var ra, rb := PeriodStart(iv, a), PeriodStart(iv, b);
    LabelRoundTrip(iv, ra);
    LabelRoundTrip(iv, rb);
  }
}

=== FILE: records.dfy ===
/** Raw transactional records and the record selections the engine asks the
    store for (load_data_from_db and load_data_for_combination), modelled as
    filters over an in-memory table. */
module Records {
  import opened Base
  import opened Calendar
  import opened Config

  datatype Record = Record(date: CalendarDate, quantity: real, product: string, customer: string, location: string)

  datatype Dimension = Product | Customer | Location

  function ValueOf(r: Record, dim: Dimension): string
  {
    match dim
    case Product => r.product
    case Customer => r.customer
    case Location => r.location
  }

  /** The column a `forecastBy` string names, when it names one of the three. */
  function DimensionNamed(name: string): (r: Option<Dimension>)
    ensures r == Some(Product) <==> name == "product"
    ensures r == Some(Customer) <==> name == "customer"
    ensures r == Some(Location) <==> name == "location"
  {
    if name == "product" then Some(Product)
    else if name == "customer" then Some(Customer)
    else if name == "location" then Some(Location)
    else None
  }

  function MultiChoice(cfg: ForecastConfig, dim: Dimension): seq<string>
  {
    match dim
    case Product => cfg.selectedProducts
    case Customer => cfg.selectedCustomers
    case Location => cfg.selectedLocations
  }

  function SingleChoice(cfg: ForecastConfig, dim: Dimension): string
  {
    match dim
    case Product => cfg.selectedProduct
    case Customer => cfg.selectedCustomer
    case Location => cfg.selectedLocation
  }

  /** The filter of `Selected` in list form: the values the query admits on
      the forecastBy column, as a list (the multi-select list, the single
      selection or the generic item as a one-value list); None when the query
      is not filtered. */
  function Admitted(cfg: ForecastConfig): (r: Option<(Dimension, seq<string>)>)
    ensures r.Some? ==> DimensionNamed(cfg.forecastBy) == Some(r.value.0) && |r.value.1| > 0
  {
    match DimensionNamed(cfg.forecastBy)
    case None => None
    case Some(dim) =>
      if cfg.multiSelect && |MultiChoice(cfg, dim)| > 0 then Some((dim, MultiChoice(cfg, dim)))
      else if SingleChoice(cfg, dim) != "" then Some((dim, [SingleChoice(cfg, dim)]))
      else if cfg.selectedItem != "" then Some((dim, [cfg.selectedItem]))
      else None
  }

  /** The filter load_data_from_db puts on the query: on the forecastBy column,
      the multi-select list (in multi-select mode), else the single selection,
      else the generic selected item; nothing when none applies or when
      forecastBy names no column. */
  predicate Selected(cfg: ForecastConfig, r: Record): (b: bool)
    ensures b <==> Admitted(cfg).None? || ValueOf(r, Admitted(cfg).value.0) in Admitted(cfg).value.1
    ensures DimensionNamed(cfg.forecastBy).None? ==> b
  {
    match DimensionNamed(cfg.forecastBy)
    case None => true
    case Some(dim) =>
      if cfg.multiSelect && |MultiChoice(cfg, dim)| > 0 then ValueOf(r, dim) in MultiChoice(cfg, dim)
      else if SingleChoice(cfg, dim) != "" then ValueOf(r, dim) == SingleChoice(cfg, dim)
      else if cfg.selectedItem != "" then ValueOf(r, dim) == cfg.selectedItem
      else true
  }

  /** The records that satisfy p, in table order. */
  function Filter(s: seq<Record>, p: Record -> bool): (r: seq<Record>)
    ensures |r| <= |s|
    ensures forall x :: x in r <==> x in s && p(x)
    ensures forall x :: multiset(r)[x] == if p(x) then multiset(s)[x] else 0
  {
    if |s| == 0 then []
    else
      var rest := Filter(s[1..], p);
      assert s == [s[0]] + s[1..];
      if p(s[0]) then [s[0]] + rest else rest
  }

  /** load_data_from_db: the selected records, or "no data" when none is selected. */
  function LoadData(table: seq<Record>, cfg: ForecastConfig): (r: Result<seq<Record>>)
    ensures r.Ok? <==> exists x :: x in table && Selected(cfg, x)
    ensures r.Ok? ==> |r.value| > 0 && forall x :: x in r.value <==> x in table && Selected(cfg, x)
    ensures r.Ok? ==> forall x :: multiset(r.value)[x] == if Selected(cfg, x) then multiset(table)[x] else 0
    ensures r.Err? ==> r.error == NoDataFound("No data found for the selected configuration")
  {
    var kept := Filter(table, x => Selected(cfg, x));
    if |kept| == 0 then Err(NoDataFound("No data found for the selected configuration"))
    else Ok(kept)
  }

  predicate MatchesCombination(r: Record, product: string, customer: string, location: string)
  {
    r.product == product && r.customer == customer && r.location == location
  }

  /** load_data_for_combination: the records of one exact (product, customer,
      location) triple, or "no data" when there are none. */
  function LoadCombination(table: seq<Record>, product: string, customer: string, location: string)
    : (r: Result<seq<Record>>)
    ensures r.Ok? <==> exists x :: x in table && MatchesCombination(x, product, customer, location)
    ensures r.Ok? ==> |r.value| > 0
    ensures r.Ok? ==> forall x :: x in r.value <==> x in table && MatchesCombination(x, product, customer, location)
    ensures r.Ok? ==> forall x ::
      multiset(r.value)[x] == if MatchesCombination(x, product, customer, location) then multiset(table)[x] else 0
    ensures r.Err? ==> r.error.NoDataFound?
  {
    var kept := Filter(table, x => MatchesCombination(x, product, customer, location));
    if |kept| == 0 then Err(NoDataFound("No data found for combination: " + product + " + " + customer + " + " + location))
    else Ok(kept)
  }
}

=== FILE: selection.dfy ===
/** Best-fit selection (generate_forecast): every catalog algorithm is run,
    the first one with the highest accuracy becomes the primary result, and
    an ensemble averaging the three most accurate ones is appended to the
    list of all results. */
module Selection {
  import opened Base
  import opened Config
  import opened Records
  import opened Metrics
  import opened Catalog
  import opened Forecasters
  import opened Aggregation
  import opened Orchestrator

  /** The dimension values a result was computed for, as (column, value)
      pairs; None for a single-selection forecast. */
  type Combination = Option<seq<(string, string)>>

  datatype ForecastResult = ForecastResult(
    combination: Combination,
    selectedAlgorithm: string,
    accuracy: real,
    mae: real,
    rmse: real,
    historicData: seq<DataPoint>,
    forecastData: seq<DataPoint>,
    trend: Trend,
    allAlgorithms: Option<seq<AlgorithmResult>>)

  function Accuracies(rs: seq<AlgorithmResult>): (r: seq<real>)
    ensures |r| == |rs|
    ensures forall i :: 0 <= i < |rs| ==> r[i] == rs[i].accuracy
  {
    seq(|rs|, i requires 0 <= i < |rs| => rs[i].accuracy)
  }

  function Maes(rs: seq<AlgorithmResult>): (r: seq<real>)
    ensures |r| == |rs|
    ensures forall i :: 0 <= i < |rs| ==> r[i] == rs[i].mae
  {
    seq(|rs|, i requires 0 <= i < |rs| => rs[i].mae)
  }

  function Rmses(rs: seq<AlgorithmResult>): (r: seq<real>)
    ensures |r| == |rs|
    ensures forall i :: 0 <= i < |rs| ==> r[i] == rs[i].rmse
  {
    seq(|rs|, i requires 0 <= i < |rs| => rs[i].rmse)
  }

  // ---------------------------------------------------------------------
  // First maximum and first minimum

  /** The index a left-to-right scan keeps when it replaces its candidate
      only on a strictly larger value: the first maximum. Python's `max`
      with a key returns the same element. */
  function FirstMax(xs: seq<real>): (i: nat)
    requires |xs| > 0
    ensures i < |xs|
    ensures forall j :: 0 <= j < |xs| ==> xs[j] <= xs[i]
    ensures forall j :: 0 <= j < i ==> xs[j] < xs[i]
  {
    if |xs| == 1 then 0
    else
      var k := FirstMax(xs[..|xs| - 1]);
      assert forall j :: 0 <= j < |xs| - 1 ==> xs[..|xs| - 1][j] == xs[j];
      if xs[|xs| - 1] > xs[k] then |xs| - 1 else k
  }

  /** The first minimum, as Python's `min` with a key returns it. */
  function FirstMin(xs: seq<real>): (i: nat)
    requires |xs| > 0
    ensures i < |xs|
    ensures forall j :: 0 <= j < |xs| ==> xs[i] <= xs[j]
    ensures forall j :: 0 <= j < i ==> xs[i] < xs[j]
  {
    if |xs| == 1 then 0
    else
      var k := FirstMin(xs[..|xs| - 1]);
      assert forall j :: 0 <= j < |xs| - 1 ==> xs[..|xs| - 1][j] == xs[j];
      if xs[|xs| - 1] < xs[k] then |xs| - 1 else k
  }

  /** The first maximum is the only index holding the maximum with no equal
      value before it. */
  lemma FirstMaxUnique(xs: seq<real>, i: nat)
    requires i < |xs|
    requires forall j :: 0 <= j < |xs| ==> xs[j] <= xs[i]
    requires forall j :: 0 <= j < i ==> xs[j] < xs[i]
    ensures FirstMax(xs) == i
  {
    var k := FirstMax(xs);
    assert xs[k] == xs[i];
  }

  // ---------------------------------------------------------------------
  // Stable sort by descending accuracy

  predicate Descending(s: seq<AlgorithmResult>)
  {
    forall i, j :: 0 <= i < j < |s| ==> s[i].accuracy >= s[j].accuracy
  }

  /** Result i goes before result j in `sorted(results, key=-accuracy)`:
      it is strictly more accurate, or equally accurate and earlier, since
      Python's sort is stable. */
  predicate RanksBefore(rs: seq<AlgorithmResult>, i: int, j: int)
  {
    && 0 <= i < |rs| && 0 <= j < |rs|
    && (rs[i].accuracy > rs[j].accuracy || (rs[i].accuracy == rs[j].accuracy && i < j))
  }

  /** A sequence of positions of rs listed in rank order (hence without
      repetitions). */
  predicate Ranked(rs: seq<AlgorithmResult>, p: seq<int>)
  {
    && (forall k :: 0 <= k < |p| ==> 0 <= p[k] < |rs|)
    && forall a, b :: 0 <= a < b < |p| ==> RanksBefore(rs, p[a], p[b])
  }

  /** Insert position x into a ranked list of positions at its place. */
  function InsertIndex(rs: seq<AlgorithmResult>, p: seq<int>, x: int): (r: seq<int>)
    requires Ranked(rs, p) && 0 <= x < |rs| && x !in p
    ensures |r| == |p| + 1
    ensures forall y :: y in r <==> y == x || y in p
    ensures Ranked(rs, r)
  {
    if |p| == 0 then [x]
    else if RanksBefore(rs, p[0], x) then
      var rest := InsertIndex(rs, p[1..], x);
      assert forall y :: y in p <==> y == p[0] || y in p[1..];
      assert forall k :: 0 <= k < |rest| ==> RanksBefore(rs, p[0], rest[k]) by {
        forall k | 0 <= k < |rest| ensures RanksBefore(rs, p[0], rest[k]) {
          assert rest[k] in rest;
          if rest[k] != x {
            var m :| 0 <= m < |p[1..]| && p[1..][m] == rest[k];
            assert rest[k] == p[m + 1];
          }
        }
      }
      [p[0]] + rest
    else
      assert forall k :: 0 <= k < |p| ==> RanksBefore(rs, x, p[k]) by {
        forall k | 0 <= k < |p| ensures RanksBefore(rs, x, p[k]) {
          if k > 0 {
            assert RanksBefore(rs, p[0], p[k]);
          }
        }
      }
      [x] + p
  }

  /** The positions 0..m-1 of rs in rank order. */
  function RankOrder(rs: seq<AlgorithmResult>, m: nat): (r: seq<int>)
    requires m <= |rs|
    ensures |r| == m && Ranked(rs, r)
    ensures forall k :: 0 <= k < |r| ==> r[k] < m
    ensures forall i :: 0 <= i < m ==> i in r
  {
    if m == 0 then []
    else
      var p := RankOrder(rs, m - 1);
      var r := InsertIndex(rs, p, m - 1);
      assert forall k :: 0 <= k < |r| ==> r[k] in r;
      r
  }

  /** The order in which the sort lists the positions of rs: every position
      once, each before all positions it ranks before. */
  function SortOrder(rs: seq<AlgorithmResult>): (r: seq<int>)
    ensures |r| == |rs| && Ranked(rs, r)
    ensures forall i :: 0 <= i < |rs| ==> i in r
  {
    RankOrder(rs, |rs|)
  }

  /** The results at the given positions. */
  function Pick(rs: seq<AlgorithmResult>, p: seq<int>): (r: seq<AlgorithmResult>)
    requires forall k :: 0 <= k < |p| ==> 0 <= p[k] < |rs|
    ensures |r| == |p|
    ensures forall k :: 0 <= k < |p| ==> r[k] == rs[p[k]]
  {
    seq(|p|, k requires 0 <= k < |p| => rs[p[k]])
  }

  /** Picking after an insertion adds the inserted result once. */
  lemma {:induction false} PickInsert(rs: seq<AlgorithmResult>, p: seq<int>, x: int)
    requires Ranked(rs, p) && 0 <= x < |rs| && x !in p
    ensures multiset(Pick(rs, InsertIndex(rs, p, x))) == multiset(Pick(rs, p)) + multiset{rs[x]}
  {
    if |p| > 0 {
      PickCons(rs, p[0], p[1..]);
      assert p == [p[0]] + p[1..];
      if RanksBefore(rs, p[0], x) {
        var q := p[1..];
        assert Ranked(rs, q) && x !in q;
        PickInsert(rs, q, x);
        var rest := InsertIndex(rs, q, x);
        assert InsertIndex(rs, p, x) == [p[0]] + rest;
        PickCons(rs, p[0], rest);
      } else {
        assert InsertIndex(rs, p, x) == [x] + p;
        PickCons(rs, x, p);
      }
    }
  }

  lemma PickCons(rs: seq<AlgorithmResult>, a: int, p: seq<int>)
    requires 0 <= a < |rs| && forall k :: 0 <= k < |p| ==> 0 <= p[k] < |rs|
    ensures Pick(rs, [a] + p) == [rs[a]] + Pick(rs, p)
  {
    assert forall k :: 0 < k < |p| + 1 ==> ([a] + p)[k] == p[k - 1];
  }

  /** The ranked positions 0..m-1 pick exactly the first m results. */
  lemma {:induction false} RankOrderMultiset(rs: seq<AlgorithmResult>, m: nat)
    requires m <= |rs|
    ensures multiset(Pick(rs, RankOrder(rs, m))) == multiset(rs[..m])
  {
    if m > 0 {
      RankOrderMultiset(rs, m - 1);
      PickInsert(rs, RankOrder(rs, m - 1), m - 1);
      assert rs[..m] == rs[..m - 1] + [rs[m - 1]];
    }
  }

  /** `sorted(results, key=lambda r: -r.accuracy)`: the results listed in
      sort order, most accurate first, ties in their original order. */
  function SortByAccuracy(rs: seq<AlgorithmResult>): (r: seq<AlgorithmResult>)
    ensures |r| == |rs|
    ensures forall k :: 0 <= k < |r| ==> r[k] == rs[SortOrder(rs)[k]]
    ensures multiset(r) == multiset(rs)
    ensures Descending(r)
  {
    var p := SortOrder(rs);
    RankOrderMultiset(rs, |rs|);
    assert rs[..|rs|] == rs;
    Pick(rs, p)
  }

  /** The sort puts the first most accurate result in front. */
  lemma SortHead(rs: seq<AlgorithmResult>)
    requires |rs| > 0
    ensures SortByAccuracy(rs)[0] == rs[FirstMax(Accuracies(rs))]
  {
    var p := SortOrder(rs);
    var xs := Accuracies(rs);
    forall j | 0 <= j < |rs| && j != p[0]
      ensures xs[j] <= xs[p[0]] && (j < p[0] ==> xs[j] < xs[p[0]])
    {
      assert j in p;
      var k :| 0 <= k < |p| && p[k] == j;
      assert RanksBefore(rs, p[0], p[k]);
    }
    FirstMaxUnique(xs, p[0]);
  }

  /** The positions of the three most accurate results, in sort order: each
      position left out ranks after every position taken. */
  function TopIndices(rs: seq<AlgorithmResult>): (t: seq<int>)
    ensures |t| == MinInt(3, |rs|) && Ranked(rs, t)
    ensures forall j, k :: 0 <= j < |rs| && j !in t && 0 <= k < |t| ==> RanksBefore(rs, t[k], j)
  {
    var p := SortOrder(rs);
    var n := MinInt(3, |rs|);
    var t := p[..n];
    forall j, k | 0 <= j < |rs| && j !in t && 0 <= k < |t| ensures RanksBefore(rs, t[k], j) {
      assert j in p;
      var m :| 0 <= m < |p| && p[m] == j;
    }
    t
  }

  /** A prefix holds no element more often than the whole. */
  lemma PrefixSubMultiset(s: seq<AlgorithmResult>, k: nat)
    requires k <= |s|
    ensures multiset(s[..k]) <= multiset(s)
  {
    assert s == s[..k] + s[k..];
  }

  /** `sorted(...)[:3]`: the three most accurate results (fewer when there
      are fewer). No result left out is more accurate than one taken, and a
      result left out with the accuracy of one taken comes later in the
      sweep. */
  function Top3(rs: seq<AlgorithmResult>): (r: seq<AlgorithmResult>)
    ensures |r| == MinInt(3, |rs|)
    ensures forall k :: 0 <= k < |r| ==> r[k] == rs[TopIndices(rs)[k]]
    ensures Descending(r)
    ensures multiset(r) <= multiset(rs)
    ensures forall j, k :: 0 <= j < |rs| && j !in TopIndices(rs) && 0 <= k < |r| ==>
      rs[j].accuracy <= r[k].accuracy && (rs[j].accuracy == r[k].accuracy ==> TopIndices(rs)[k] < j)
  {
    var s := SortByAccuracy(rs);
    var n := MinInt(3, |rs|);
    PrefixSubMultiset(s, n);
    s[..n]
  }

  // ---------------------------------------------------------------------
  // Ensemble

  /** The results that contribute forecast points to the ensemble. */
  function Members(top: seq<AlgorithmResult>): (r: seq<AlgorithmResult>)
    ensures forall k :: 0 <= k < |r| ==> |r[k].forecastData| > 0
    ensures forall x :: x in r <==> x in top && |x.forecastData| > 0
    ensures |r| <= |top|
  {
    if |top| == 0 then []
    else
      var rest := Members(top[1..]);
      assert forall x :: x in top <==> x == top[0] || x in top[1..];
      if |top[0].forecastData| > 0 then [top[0]] + rest else rest
  }

  /** The mean of point i over the members. */
  function PointMean(ms: seq<AlgorithmResult>, i: nat): real
    requires |ms| > 0
    requires forall k :: 0 <= k < |ms| ==> i < |ms[k].forecastData|
  {
    Mean(seq(|ms|, k requires 0 <= k < |ms| => ms[k].forecastData[i].quantity))
  }

  const EnsembleName: string := "Ensemble (Top 3 Avg)"

  /** The ensemble of the top results: the dates, labels, history and trend
      of the most accurate one, the point-by-point mean over the members
      with forecast points, and the mean accuracy, mae and rmse over all of
      them. A member with fewer points than the first result leaves the
      averaging loop reading past its end. */
  function Ensemble(top: seq<AlgorithmResult>): (r: Result<AlgorithmResult>)
    requires |top| > 0
    ensures r.Ok? <==> forall x :: x in Members(top) ==> |x.forecastData| >= |top[0].forecastData|
    ensures r.Err? ==> r.error == IndexOutOfRange
    ensures r.Ok? ==>
      && r.value.algorithm == EnsembleName
      && r.value.accuracy == Mean(Accuracies(top))
      && r.value.mae == Mean(Maes(top))
      && r.value.rmse == Mean(Rmses(top))
      && r.value.historicData == top[0].historicData
      && r.value.trend == top[0].trend
      && |r.value.forecastData| == |top[0].forecastData|
      && forall i :: 0 <= i < |top[0].forecastData| ==>
           r.value.forecastData[i].date == top[0].forecastData[i].date
           && r.value.forecastData[i].period == top[0].forecastData[i].period
           && r.value.forecastData[i].quantity == PointMean(Members(top), i)
  {
    var n := |top[0].forecastData|;
    var ms := Members(top);
    if exists x :: x in ms && |x.forecastData| < n then Err(IndexOutOfRange)
    else
      assert n > 0 ==> top[0] in ms;
      assert forall k :: 0 <= k < |ms| ==> ms[k] in ms;
      var points := seq(n, i requires 0 <= i < n =>
        DataPoint(top[0].forecastData[i].date, PointMean(ms, i), top[0].forecastData[i].period));
      Ok(AlgorithmResult(EnsembleName, Mean(Accuracies(top)),
                         Mean(Maes(top)), Mean(Rmses(top)),
                         top[0].historicData, points, top[0].trend))
  }

  /** Each ensemble point lies within the range of the members' points, and
      the ensemble accuracy within the range of the top accuracies; in
      particular members that agree give their common forecast. */
  lemma EnsembleBounds(top: seq<AlgorithmResult>, i: nat, lo: real, hi: real)
    requires |top| > 0 && Ensemble(top).Ok?
    requires forall k :: 0 <= k < |top| ==> lo <= top[k].accuracy <= hi
    requires forall x :: x in top && i < |x.forecastData| ==> lo <= x.forecastData[i].quantity <= hi
    ensures lo <= Ensemble(top).value.accuracy <= hi
    ensures i < |Ensemble(top).value.forecastData| ==> lo <= Ensemble(top).value.forecastData[i].quantity <= hi
  {
    MeanBounds(Accuracies(top), lo, hi);
    var ms := Members(top);
    if i < |top[0].forecastData| {
      assert top[0] in ms;
      assert forall k :: 0 <= k < |ms| ==> ms[k] in ms && ms[k] in top;
      var qs := seq(|ms|, k requires 0 <= k < |ms| => ms[k].forecastData[i].quantity);
      MeanBounds(qs, lo, hi);
    }
  }

  /** The ensemble's mae and rmse lie within the range of the top results'
      errors; members that agree give their common error. */
  lemma EnsembleErrorBounds(top: seq<AlgorithmResult>, lo: real, hi: real)
    requires |top| > 0 && Ensemble(top).Ok?
    requires forall k :: 0 <= k < |top| ==> lo <= top[k].mae <= hi && lo <= top[k].rmse <= hi
    ensures lo <= Ensemble(top).value.mae <= hi
    ensures lo <= Ensemble(top).value.rmse <= hi
  {
    MeanBounds(Maes(top), lo, hi);
    MeanBounds(Rmses(top), lo, hi);
  }

  // ---------------------------------------------------------------------
  // The best-fit sweep

  /** run_algorithm over every catalog algorithm, in catalog order. */
  function Sweep(rows: seq<Row>, cfg: ForecastConfig, lib: Library): (r: seq<AlgorithmResult>)
    ensures |r| == |Algorithms|
    ensures forall i :: 0 <= i < |r| ==> r[i] == RunEntry(Single(Algorithms[i]), rows, cfg, lib)
  {
    seq(|Algorithms|, i requires 0 <= i < |Algorithms| => RunEntry(Single(Algorithms[i]), rows, cfg, lib))
  }

  /** The forecast result reports the algorithm result's figures, series
      and trend unchanged. */
  predicate Carries(f: ForecastResult, a: AlgorithmResult)
  {
    && f.accuracy == a.accuracy && f.mae == a.mae && f.rmse == a.rmse
    && f.historicData == a.historicData && f.forecastData == a.forecastData && f.trend == a.trend
  }

  /** A result shaped from one algorithm result. */
  function FromAlgorithm(combination: Combination, name: string, r: AlgorithmResult,
                         all: Option<seq<AlgorithmResult>>): (f: ForecastResult)
    ensures Carries(f, r)
    ensures f.combination == combination && f.selectedAlgorithm == name && f.allAlgorithms == all
  {
    ForecastResult(combination, name, r.accuracy, r.mae, r.rmse, r.historicData, r.forecastData, r.trend, all)
  }

  /** The best-fit result of a set of algorithm results: the first most
      accurate one, named "<name> (Best Fit)", with the given list attached. */
  function BestOf(combination: Combination, results: seq<AlgorithmResult>, all: seq<AlgorithmResult>): (r: ForecastResult)
    requires |results| > 0
    ensures forall k :: 0 <= k < |results| ==> results[k].accuracy <= r.accuracy
    ensures exists k :: (0 <= k < |results| && r.selectedAlgorithm == results[k].algorithm + " (Best Fit)"
      && Carries(r, results[k])
      && forall j :: 0 <= j < k ==> results[j].accuracy < r.accuracy)
    ensures r.combination == combination && r.allAlgorithms == Some(all)
  {
    var b := FirstMax(Accuracies(results));
    FromAlgorithm(combination, results[b].algorithm + " (Best Fit)", results[b], Some(all))
  }

  /** The best-fit branch of generate_forecast: the primary result is the
      first most accurate algorithm, and the list of all results ends with
      the ensemble of the top three, whose failure fails the request. */
  function BestFitForecast(rows: seq<Row>, cfg: ForecastConfig, lib: Library): (r: Result<ForecastResult>)
    ensures r.Ok? <==> Ensemble(Top3(Sweep(rows, cfg, lib))).Ok?
    ensures r.Ok? ==>
      var results := Sweep(rows, cfg, lib);
      && r.value.allAlgorithms == Some(results + [Ensemble(Top3(results)).value])
      && r.value.combination == None
      && 0.0 <= r.value.accuracy <= 99.9
      && forall k :: 0 <= k < |results| ==> results[k].accuracy <= r.value.accuracy
  {
    var results := Sweep(rows, cfg, lib);
    var ensemble :- Ensemble(Top3(results));
    Ok(BestOf(None, results, results + [ensemble]))
  }

  /** The primary best-fit result belongs to the first catalog algorithm
      reaching the highest accuracy of the sweep, and the ensemble's
      accuracy is the mean of the three highest. */
  lemma BestFitPrimary(rows: seq<Row>, cfg: ForecastConfig, lib: Library)
    requires BestFitForecast(rows, cfg, lib).Ok?
    ensures var results := Sweep(rows, cfg, lib);
      var b := FirstMax(Accuracies(results));
      && BestFitForecast(rows, cfg, lib).value.selectedAlgorithm == DisplayName(Algorithms[b]) + " (Best Fit)"
      && BestFitForecast(rows, cfg, lib).value.accuracy == results[b].accuracy
      && Carries(BestFitForecast(rows, cfg, lib).value, results[b])
      && forall j :: 0 <= j < b ==> results[j].accuracy < results[b].accuracy
  {
    var results := Sweep(rows, cfg, lib);
    var ensemble := Ensemble(Top3(results)).value;
    assert BestFitForecast(rows, cfg, lib) == Ok(BestOf(None, results, results + [ensemble]));
    var b := FirstMax(Accuracies(results));
    assert results[b].algorithm == DisplayName(Algorithms[b]);
  }

  /** The list of all results ends with the ensemble of the three most
      accurate, headed by the primary result. */
  lemma BestFitEnsemble(rows: seq<Row>, cfg: ForecastConfig, lib: Library)
    requires BestFitForecast(rows, cfg, lib).Ok?
    ensures var results := Sweep(rows, cfg, lib);
      var e := BestFitForecast(rows, cfg, lib).value.allAlgorithms.value[|Algorithms|];
      && e.algorithm == EnsembleName
      && e.accuracy == Mean(Accuracies(Top3(results)))
      && Top3(results)[0] == results[FirstMax(Accuracies(results))]
  {
    var results := Sweep(rows, cfg, lib);
    SortHead(results);
  }

  /** The ensemble fails exactly when one of the top results has forecast
      points but fewer than the first. */
  lemma EnsembleFailure(top: seq<AlgorithmResult>)
    requires |top| > 0
    ensures Ensemble(top).Err? <==>
      exists k :: 0 <= k < |top| && 0 < |top[k].forecastData| < |top[0].forecastData|
  {
    var ms := Members(top);
    if Ensemble(top).Err? {
      var x :| x in ms && |x.forecastData| < |top[0].forecastData|;
      var k :| 0 <= k < |top| && top[k] == x;
    }
    if exists k :: 0 <= k < |top| && 0 < |top[k].forecastData| < |top[0].forecastData| {
      var k :| 0 <= k < |top| && 0 < |top[k].forecastData| < |top[0].forecastData|;
      assert top[k] in ms;
    }
  }

  /** With the 22 catalog algorithms the top three are always three results,
      and the ensemble fails exactly when one of them has forecast points but
      fewer than the most accurate one. */
  lemma EnsembleAlwaysBuilt(rows: seq<Row>, cfg: ForecastConfig, lib: Library)
    ensures |Top3(Sweep(rows, cfg, lib))| == 3
    ensures var top := Top3(Sweep(rows, cfg, lib));
      Ensemble(top).Err? <==>
        exists k :: 0 <= k < 3 && 0 < |top[k].forecastData| < |top[0].forecastData|
  {
    var top := Top3(Sweep(rows, cfg, lib));
    EnsembleFailure(top);
  }

  /** generate_forecast: load and aggregate the selected records, require two
      periods, then run the best-fit sweep or the one named algorithm. */
  function GenerateForecast(table: seq<Record>, cfg: ForecastConfig, lib: Library): (r: Result<ForecastResult>)
    ensures LoadData(table, cfg).Err? ==> r == Err(LoadData(table, cfg).error)
    ensures r.Ok? ==> r.value.combination == None
    ensures r.Ok? ==> LoadData(table, cfg).Ok? && AggregateByPeriod(LoadData(table, cfg).value, cfg.interval, cfg).Ok?
    ensures r.Ok? ==> |AggregateByPeriod(LoadData(table, cfg).value, cfg.interval, cfg).value| >= 2
    ensures r.Ok? && cfg.algorithm != "best_fit" ==>
      r.value.allAlgorithms == None && exists e: Entry :: EntryId(e) == cfg.algorithm
    ensures r.Ok? && cfg.algorithm == "best_fit" ==> r.value.allAlgorithms.Some? && |r.value.allAlgorithms.value| == 23
    ensures LoadData(table, cfg).Ok? ==>
      var rows := AggregateByPeriod(LoadData(table, cfg).value, cfg.interval, cfg);
      && (rows.Err? ==> r == Err(rows.error))
      && (rows.Ok? && |rows.value| < 2 ==> r == Err(InsufficientData))
      && (rows.Ok? && |rows.value| >= 2 && cfg.algorithm == "best_fit" ==> r == BestFitForecast(rows.value, cfg, lib))
      && (rows.Ok? && |rows.value| >= 2 && cfg.algorithm != "best_fit" ==>
            var run := RunAlgorithm(cfg.algorithm, rows.value, cfg, lib);
            && (r.Ok? <==> run.Ok?)
            && (run.Err? ==> r == Err(run.error))
            && (run.Ok? ==> r.value.selectedAlgorithm == run.value.algorithm && Carries(r.value, run.value)))
  {
    var records :- LoadData(table, cfg);
    var rows :- AggregateByPeriod(records, cfg.interval, cfg);
    if |rows| < 2 then Err(InsufficientData)
    else if cfg.algorithm == "best_fit" then BestFitForecast(rows, cfg, lib)
    else
      var res :- RunAlgorithm(cfg.algorithm, rows, cfg, lib);
      Ok(FromAlgorithm(None, res.algorithm, res, None))
  }
}

=== FILE: text.dfy ===
/** Strings as the engine sees them: Python's code-point ordering (the order
    pandas sorts group keys in) and decimal rendering of numbers for labels. */
module Text {

  /** Python's `a < b` on str: lexicographic by code point, a proper prefix first. */
  predicate StrLess(a: string, b: string)
    decreases |a|
  {
    if |a| == 0 then |b| > 0
    else if |b| == 0 then false
    else a[0] < b[0] || (a[0] == b[0] && StrLess(a[1..], b[1..]))
  }

  lemma {:induction false} StrLessIrreflexive(a: string)
    ensures !StrLess(a, a)
    decreases |a|
  {
    if |a| > 0 {
      StrLessIrreflexive(a[1..]);
    }
  }

  lemma {:induction false} StrLessTransitive(a: string, b: string, c: string)
    requires StrLess(a, b) && StrLess(b, c)
    ensures StrLess(a, c)
    decreases |a|
  {
    if |a| > 0 && |b| > 0 && |c| > 0 && a[0] == b[0] && b[0] == c[0] {
      StrLessTransitive(a[1..], b[1..], c[1..]);
    }
  }

  lemma {:induction false} StrLessTotal(a: string, b: string)
    ensures a == b || StrLess(a, b) || StrLess(b, a)
    decreases |a|
  {
    if |a| > 0 && |b| > 0 && a[0] == b[0] {
      StrLessTotal(a[1..], b[1..]);
      if a[1..] == b[1..] {
        assert a == [a[0]] + a[1..] && b == [b[0]] + b[1..];
      }
    }
  }

  /** The lexicographic order on tuples of strings (group-column values). */
  predicate TupleLess(a: seq<string>, b: seq<string>)
    decreases |a|
  {
    if |a| == 0 then |b| > 0
    else if |b| == 0 then false
    else StrLess(a[0], b[0]) || (a[0] == b[0] && TupleLess(a[1..], b[1..]))
  }

  lemma {:induction false} TupleLessIrreflexive(a: seq<string>)
    ensures !TupleLess(a, a)
    decreases |a|
  {
    if |a| > 0 {
      StrLessIrreflexive(a[0]);
      TupleLessIrreflexive(a[1..]);
    }
  }

  lemma {:induction false} TupleLessTransitive(a: seq<string>, b: seq<string>, c: seq<string>)
    requires TupleLess(a, b) && TupleLess(b, c)
    ensures TupleLess(a, c)
    decreases |a|
  {
    if |a| > 0 && |b| > 0 && |c| > 0 {
      if StrLess(a[0], b[0]) && StrLess(b[0], c[0]) {
        StrLessTransitive(a[0], b[0], c[0]);
      } else if a[0] == b[0] && b[0] == c[0] {
        TupleLessTransitive(a[1..], b[1..], c[1..]);
      }
    }
  }

  lemma {:induction false} TupleLessTotal(a: seq<string>, b: seq<string>)
    ensures a == b || TupleLess(a, b) || TupleLess(b, a)
    decreases |a|
  {
    if |a| > 0 && |b| > 0 {
      StrLessTotal(a[0], b[0]);
      if a[0] == b[0] {
        TupleLessTotal(a[1..], b[1..]);
        if a[1..] == b[1..] {
          assert a == [a[0]] + a[1..] && b == [b[0]] + b[1..];
        }
      }
    }
  }

  predicate IsDigit(c: char)
  {
    '0' <= c <= '9'
  }

  function DigitChar(d: int): char
    requires 0 <= d < 10
  {
    ('0' as int + d) as char
  }

  function DigitValue(c: char): int
    requires IsDigit(c)
  {
    c as int - '0' as int
  }

  /** Decimal rendering without padding, as `str(n)` and `%Y` give it. */
  function Decimal(n: nat): (s: string)
    ensures |s| > 0
    ensures forall i :: 0 <= i < |s| ==> IsDigit(s[i])
  {
    if n < 10 then [DigitChar(n)] else Decimal(n / 10) + [DigitChar(n % 10)]
  }

  /** Two-digit zero-padded rendering (`%d`). */
  function TwoDigits(n: nat): (s: string)
    requires n < 100
    ensures |s| == 2 && IsDigit(s[0]) && IsDigit(s[1])
  {
    [DigitChar(n / 10), DigitChar(n % 10)]
  }

  predicate AllDigits(s: string)
  {
    forall i :: 0 <= i < |s| ==> IsDigit(s[i])
  }

  /** Reads back a run of decimal digits. */
  function ParseDecimal(s: string): nat
    requires AllDigits(s)
  {
    if |s| == 0 then 0 else 10 * ParseDecimal(s[..|s| - 1]) + DigitValue(s[|s| - 1])
  }

  lemma {:induction false} DecimalRoundTrip(n: nat)
    ensures ParseDecimal(Decimal(n)) == n
  {
    if n >= 10 {
      var s := Decimal(n);
      assert s[..|s| - 1] == Decimal(n / 10);
      DecimalRoundTrip(n / 10);
    }
  }

  lemma TwoDigitsRoundTrip(n: nat)
    requires n < 100
    ensures ParseDecimal(TwoDigits(n)) == n
  {
    var s := TwoDigits(n);
    assert s[..1] == [s[0]];
    assert ParseDecimal(s[..1]) == DigitValue(s[0]);
  }
}
